=== FILE: README.md ===
# Amazon variant extraction, modelled in Dafny

Amazon-Scraper reads an Amazon product page and lists the page's variations
(colour, size, …) with one ASIN, name, URL, dimension values and price each.
The repository holds three copies of this extraction engine:

- `parseAmazonHtml` in the React app (`src/utils/amazonScraper.ts`). It works on a
  parsed DOM and returns a `ScrapingResult`.
- The Cloudflare worker's `/api/scrape` handler (`src/_worker.js`). It works on the
  raw HTML with regular expressions. It backfills up to 48 prices by
  fetching the variant pages, then replies with JSON.
- The browser console script embedded in `src/components/ExtractorTab.tsx`. It
  works on the live page's HTML and backfills up to 20 prices.

The model also covers the state logic of `ExtractorTab.tsx`:
- the sequential "fetch missing prices" loop, with its run-id guard against
  stale writes;
- the table columns;
- the sort toggle and the row comparator.

Each copy tries two strategies:
- **Classic.** A table from dimension name to display values, and a map from
  ASIN to one value index per dimension. One variant is built per map entry.
- **Twister Plus.** `sortedDimValuesForAllDims`, an object from dimension name
  to value records. First a baseline is taken from the `SELECTED` record of
  each dimension. Then there is one variant per record whose `defaultAsin` is
  truthy and not seen before.

A variant whose ASIN is the page's own gets the page price when one was found,
that is, when it is not "N/A". The console script does not check this: its
page variant gets the page price even when that is "N/A". Every other variant
gets a sentinel that means "price not known yet": "Requires Page Visit", or
"Requires Fetch" in the console script. The backfill replaces that sentinel
with the fetched price, with "Unavailable", or with "Fetch Failed".

Modules follow the program's structure:

| module | models |
|---|---|
| `Types` | `VariantData`, `ScrapingResult`, the price sentinels, price seeding |
| `JsString`, `JsObject`, `Search`, `Options` | the JavaScript string methods, insertion-ordered objects (`Object.keys`, assignment, spread), `find` / first match |
| `PriceExtract` | the three `extractPrice` functions: DOM selectors, worker regexes, console regexes |
| `JsonClean` | `cleanObjStr` / `cleanJson` (trailing-comma removal) and the worker's `safeJsonParse` |
| `Classic`, `Twister` | the two variation shapes and the variants built from them |
| `AmazonScraper` | `getBaseUrl`, `parseAmazonHtml` |
| `Worker` | the worker handler after routing |
| `ConsoleScript` | the console script |
| `ExtractorTab` | `updateVariantPrice`, `fetchMissingPrices`, `dimensionKeys`, `hasMissingPrices`, `requestSort`, the sort comparator |
| `Backfill` | the shared "first N sentinel prices are fetched" backfill |

**Abstract inputs.** Everything the code hands to the browser or the runtime
is a parameter of the model:
- the DOM query: `Dom`, from selector to element texts in document order;
- each regular expression: a function from the text to its capture;
- `JSON.parse`, already decoded into the model's datatypes, or `None` when it throws;
- `new URL(..).origin`, `parseFloat` and `localeCompare`;
- the outcome of each fetch, indexed by the variant's position;
- for `fetchMissingPrices`, the value of `resultIdRef.current` at each of its
  reads. This lets the model state what a new extraction does to a refresh
  already running.

**Behaviour of the code worth knowing.**
- A classic index that is out of range reads `undefined` and does not throw
  (`src/utils/amazonScraper.ts:119-126`). So the dimension holds `undefined`
  and the name part is the empty string that `Array.prototype.join` gives
  it. The name part is "Unknown" only when the lookup throws, for example
  on a missing index array or a `null` value list.
- Twister variants do not all share one set of dimension keys. The baseline
  gets a key only for a dimension with a `SELECTED` record
  (`src/utils/amazonScraper.ts:162-169`). Each variant spreads the baseline
  and then sets its own dimension (`src/utils/amazonScraper.ts:185-186`). So
  a dimension with no `SELECTED` record appears only in the variants built
  from its own records, after the other keys. The results table takes its
  columns from the first variant only (`src/components/ExtractorTab.tsx:323-328`),
  so such a dimension can have no column
  (`ExtractorTab.ColumnsMissUnselectedDimension`).
- The console script's classic loop has one `try` around the whole loop
  (`src/components/ExtractorTab.tsx:61-81`). Suppose an entry AFTER the first
  throws in its lookup. Then the variants pushed before it stay in the
  list, and the strategy stays "None". Twister and the visual fallback run
  only while the list is empty (`src/components/ExtractorTab.tsx:85`), so
  they are skipped. If the FIRST entry throws, nothing has been pushed, and
  Twister and then the fallback run as usual (`ConsoleScript.StrategyOutcome`).
  The worker has the same partial loop, and this is recorded under Findings.
- The worker can never reply with the message "Extraction complete"
  (`Worker.FinalMessageCases`). Every successful strategy sets a
  "Found …" message first (`src/_worker.js:151-153`, `src/_worker.js:201-203`,
  `src/_worker.js:256`).

## Model

| member | source | states |
|---|---|---|
| `Types.RepricingKeepsVariants` | src/_worker.js:219-237 | writing fetched prices back into the variants gives exactly those prices, keeps the ASINs and their order, and changes nothing but the price |
| `Types.SeedPriceIff` | src/utils/amazonScraper.ts:130-135 | a variant gets the page price exactly when it is the current ASIN and the page price is not "N/A"; otherwise it gets "Requires Page Visit" |
| `JsString.TrimStart` | src/utils/amazonScraper.ts:24 | the result is a suffix of the input that starts with a non-space, and only whitespace was removed |
| `JsString.TrimEnd` | src/utils/amazonScraper.ts:24 | the result is a prefix of the input that ends with a non-space, and only whitespace was removed |
| `JsString.Trim` | src/utils/amazonScraper.ts:24-26 | trimming neither adds nor removes a digit, so the digit test sees the same answer before and after `trim()` |
| `JsString.TrimDigits` | src/components/ExtractorTab.tsx:34-36 | trimming both ends keeps "contains a digit" unchanged in both directions |
| `JsString.ReplaceAll` | src/components/ExtractorTab.tsx:90 | a global replace leaves a text that does not contain the pattern unchanged |
| `JsString.KeptPrefix` | src/components/ExtractorTab.tsx:90 | a prefix without the replacement character that survives a replace was already in the original text |
| `JsString.ConsKeepsNoMatch` | src/components/ExtractorTab.tsx:90 | the pattern can appear at a kept first character only if it appeared there in the original |
| `JsString.TailAvoids` | src/components/ExtractorTab.tsx:90 | a replacement character absent from the pattern is absent from the pattern's tail |
| `JsString.ReplaceAllRemovesPattern` | src/components/ExtractorTab.tsx:90 | after replacing every `&quot;` with a character not in the pattern, no `&quot;` is left |
| `JsString.NatToString` | src/_worker.js:151-153 | a count prints as a non-empty string of decimal digits with no leading zero, and "0" exactly for zero |
| `JsString.NatToStringValue` | src/_worker.js:151-153 | reading the printed digits back as a decimal number gives the count |
| `JsString.NatToStringInjective` | src/_worker.js:151-153 | different counts print differently |
| `JsObject.Get` | src/_worker.js:138 | a property read is undefined exactly when the key is absent, and otherwise returns that key's stored value |
| `JsObject.GetAt` | src/_worker.js:138 | reading the key stored at a position returns the value at that position |
| `JsObject.KeyNotInPrefix` | src/_worker.js:131-140 | keys are distinct, so each key extends the keys before it |
| `JsObject.IndexOf` | src/_worker.js:138 | a present key has a position holding it |
| `JsObject.GetByPosition` | src/_worker.js:138 | a read returns the value at the key's position, or undefined for an absent key |
| `JsObject.Put` | src/utils/amazonScraper.ts:185-186 | after an assignment the key holds the new value, every other key reads as before, and a new key is appended to the key order |
| `JsObject.PutFacts` | src/utils/amazonScraper.ts:186 | overwriting in place and appending both give the read-after-write facts of assignment |
| `JsObject.PutKeepsPresent` | src/utils/amazonScraper.ts:186 | assigning one key leaves the value of every other present key unchanged |
| `JsObject.PutKeepsAbsent` | src/utils/amazonScraper.ts:186 | assigning one key leaves every other absent key absent |
| `JsObject.AssignedKeysFromSource` | src/utils/amazonScraper.ts:118-127 | a loop of assignments over the source's keys only creates keys of the source |
| `JsObject.AssignEach` | src/utils/amazonScraper.ts:118-127 | after a loop of assignments the object's keys are the assigned keys, in the order they were first assigned |
| `JsObject.NotYetAssigned` | src/utils/amazonScraper.ts:118-127 | the key of an entry has not been assigned by the entries before it |
| `JsObject.FreshPut` | src/utils/amazonScraper.ts:118-127 | assigning the key of the next walked entry appends it to the key order |
| `JsObject.AssignEachValues` | src/utils/amazonScraper.ts:118-127 | after the loop each source key holds the value its step assigned, and keys outside the source are absent |
| `JsObject.AssignedKeysAll` | src/utils/amazonScraper.ts:118-127 | when every step assigns, the result has exactly the source's keys, in the source's order |
| `JsonClean.LeadingSpaces` | src/_worker.js:128 | counts the whitespace run at the head of a text, which `\s*` matches |
| `JsonClean.LeadingSpacesRun` | src/_worker.js:128 | the whitespace count from a position is the length of the run up to the first non-space |
| `JsonClean.DropSpaces` | src/_worker.js:128 | the whitespace between a dropped comma and its closer may also be dropped |
| `JsonClean.StripCommaStep` | src/_worker.js:128 | replacing a comma, the whitespace after it and the closer by the closer deletes only characters that sit before the closer |
| `JsonClean.StripKeepStep` | src/_worker.js:128 | a character the pass does not replace is kept in place |
| `JsonClean.StripDropsBeforeCloser` | src/_worker.js:128 | one replace pass only removes commas and whitespace that stand directly before the closer |
| `JsonClean.BeforeCloserIsDropsOnly` | src/_worker.js:128 | removing text before a closer is a case of removing only commas and whitespace |
| `JsonClean.DropsOnlyTransitive` | src/_worker.js:128 | removing only commas and whitespace, done twice, is again such a removal |
| `JsonClean.CleanObjStrDropsOnly` | src/_worker.js:128 | `cleanObjStr` never adds, reorders or changes a character; it only deletes commas and whitespace |
| `JsonClean.SpacesThenCloser` | src/_worker.js:128 | whitespace before a closer, minus its first character, is still whitespace before that closer |
| `JsonClean.CloserSurvives` | src/_worker.js:128 | a `]` that follows whitespace after the `}` pass already followed whitespace before it, because that pass deletes only in front of a `}` it keeps |
| `JsonClean.PassesCompose` | src/_worker.js:128 | a `}` pass followed by a `]` pass deletes only commas and whitespace that the original text follows with whitespace and then `}` or `]` |
| `JsonClean.CleanObjStrDropsBeforeBrackets` | src/_worker.js:128 | every character `cleanObjStr` deletes is a comma or whitespace that the original block follows with whitespace and then `}` or `]`; all others are kept in order |
| `JsonClean.StripWithoutCommas` | src/_worker.js:128 | a pass over a text without commas changes nothing |
| `JsonClean.CleanObjStrWithoutCommas` | src/utils/amazonScraper.ts:108 | cleaning a text without commas is the identity |
| `JsonClean.CleanObjStrExample` | src/components/ExtractorTab.tsx:63 | a trailing comma before `]` is removed: `[1, ]` becomes `[1]` |
| `JsonClean.NoEntityAfterFirstPass` | src/_worker.js:108 | after `safeJsonParse`'s first replace, no `&quot;` is left for JSON.parse |
| `PriceExtract.FirstHit` | src/utils/amazonScraper.ts:21-31 | the result is the first accepted candidate, and "N/A" when no candidate is accepted |
| `PriceExtract.FirstHitSkip` | src/utils/amazonScraper.ts:21-30 | candidates that are all rejected do not affect the result |
| `PriceExtract.SentinelsHaveNoDigit` | src/utils/amazonScraper.ts:26 | no sentinel ("N/A", "Requires Page Visit", "Requires Fetch", "Unavailable", "Fetch Failed") contains a digit |
| `PriceExtract.ExtractPrice` | src/utils/amazonScraper.ts:6-32 | the DOM price is "N/A" or a trimmed text containing a digit, and never "Requires Page Visit" |
| `PriceExtract.DomOrder` | src/utils/amazonScraper.ts:7-30 | selectors are tried in order and elements in document order; the first accepted element decides |
| `PriceExtract.DomOrderFrom` | src/utils/amazonScraper.ts:7-30 | with no acceptable element under the earlier selectors and none earlier under its own, an acceptable element decides the price |
| `PriceExtract.DomOrderHead` | src/utils/amazonScraper.ts:21-28 | the first acceptable element of the first selector decides the price |
| `PriceExtract.SkipHead` | src/utils/amazonScraper.ts:21-28 | a selector with no acceptable element is passed over |
| `PriceExtract.DomNotFound` | src/utils/amazonScraper.ts:31 | with no accepted element anywhere, the price is "N/A" |
| `PriceExtract.FirstHitKeeps` | src/utils/amazonScraper.ts:21-31 | any property that every accepted candidate has is kept by the result, unless the result is "N/A" |
| `PriceExtract.FirstHitDigits` | src/utils/amazonScraper.ts:26-31 | the result is "N/A" exactly when no candidate is accepted, and otherwise contains a digit |
| `PriceExtract.AcceptedTexts` | src/utils/amazonScraper.ts:24-26 | an accepted element text is trimmed, non-empty and contains a digit |
| `PriceExtract.AcceptedIsNotNA` | src/utils/amazonScraper.ts:26-31 | an "N/A" result means that no element was accepted, because "N/A" has no digit |
| `PriceExtract.WorkerExtractPrice` | src/_worker.js:67-90 | the first pattern that matches decides: whole+fraction joined by ".", or the single group trimmed; "N/A" when none matches |
| `PriceExtract.ScriptExtractPrice` | src/components/ExtractorTab.tsx:23-40 | the first pattern whose trimmed group contains a digit decides; the result is "N/A" exactly when no pattern is accepted, and otherwise contains a digit |
| `Classic.LookupValue` | src/utils/amazonScraper.ts:119-126 | the lookup throws exactly when the index array or the value list is null; a found value is one of the dimension's values |
| `Classic.DimensionsMeaning` | src/utils/amazonScraper.ts:115-127 | each dimension holds its looked-up value (not set where the lookup threw), no other key exists, and with no throw the keys are the table's |
| `Classic.TolerantVariants` | src/utils/amazonScraper.ts:113-139 | one variant per map entry |
| `Classic.ClassicShape` | src/utils/amazonScraper.ts:113-139 | variant k has entry k's ASIN, the URL `baseUrl/dp/asin`, the seeded price and the joined name; the ASINs are distinct |
| `Classic.NamePartsMeaning` | src/utils/amazonScraper.ts:118-127 | a name part is "Unknown" where the lookup throws, the indexed value where it is in range, and "" for undefined |
| `Classic.StrictVariants` | src/_worker.js:134-150 | without a per-lookup `try`, the variants pushed are a prefix of the tolerant loop's variants |
| `Classic.StrictStops` | src/_worker.js:134-150 | the loop throws exactly when some entry's lookup throws, and it stops right at the first such entry; without a throw every entry is pushed |
| `Classic.AnyThrowsCons` | src/_worker.js:134-150 | some entry throws exactly when the first one throws or a later one does |
| `Classic.EntryThrowsIff` | src/_worker.js:136-140 | an entry throws exactly when its index array is null (with at least one dimension) or some dimension's value list is null |
| `Classic.ExampleTable` | src/_worker.js:130 | a one-dimension table, "Color" with the values ["Red"] |
| `Classic.ExampleMap` | src/_worker.js:133 | a two-entry map whose second entry has a null index array |
| `Classic.ExampleStops` | src/_worker.js:134-150 | on that data the strict loop pushes A1 and then throws |
| `Twister.BaselineMeaning` | src/utils/amazonScraper.ts:162-169 | the baseline holds each dimension's SELECTED display text, and holds no key for a dimension without a SELECTED record |
| `Twister.PairsMeaning` | src/utils/amazonScraper.ts:174-176 | the pass visits exactly the (dimension, record) pairs of the data |
| `Twister.FirstIndex` | src/utils/amazonScraper.ts:177 | the first pair carrying a given ASIN |
| `Twister.DedupFresh` | src/utils/amazonScraper.ts:177 | every kept record has a truthy ASIN that was not seen before |
| `Twister.DedupFirst` | src/utils/amazonScraper.ts:177-198 | each kept pair is the first pair in the data with its ASIN |
| `Twister.DedupOrder` | src/utils/amazonScraper.ts:174-201 | kept pairs appear in the order of their first occurrence |
| `Twister.ShiftOrdered` | src/utils/amazonScraper.ts:174-201 | when the first pair's ASIN is not among the kept ones, their order in the rest is their order in the whole list |
| `Twister.ConsOrdered` | src/utils/amazonScraper.ts:174-201 | keeping the first pair in front preserves the order of first occurrences |
| `Twister.FirstIndexShift` | src/utils/amazonScraper.ts:177 | past a first pair without the ASIN, its first position is one more than in the rest |
| `Twister.DedupDistinct` | src/utils/amazonScraper.ts:171-198 | kept ASINs are pairwise distinct |
| `Twister.DedupAsins` | src/utils/amazonScraper.ts:171-198 | the kept ASINs are exactly the truthy ASINs of the data that were not seen before |
| `Twister.DedupCount` | src/utils/amazonScraper.ts:177 | no more variants than records with an ASIN |
| `Twister.TwisterDimensions` | src/utils/amazonScraper.ts:185-186 | a variant's dimensions are the baseline with only the target dimension set to the record's text |
| `Twister.NamePartMeaning` | src/utils/amazonScraper.ts:180-183 | a non-target part is the baseline value or "Unknown"; the target part is the record's text, or that text or "Unknown" in the worker and the script |
| `Twister.TwisterVariant` | src/utils/amazonScraper.ts:180-197 | the variant has the record's ASIN, URL and seeded price, target dimension and one name part per dimension |
| `Twister.TwisterVariants` | src/utils/amazonScraper.ts:174-201 | one variant per kept record |
| `Twister.VariantAsins` | src/utils/amazonScraper.ts:191-197 | variant i is built from kept pair i |
| `Twister.TwisterDistinct` | src/utils/amazonScraper.ts:171-198 | the variants' ASINs are distinct and no more numerous than the records with an ASIN |
| `Twister.OneKeyDimensions` | src/utils/amazonScraper.ts:185-186 | over a one-key baseline, setting that key keeps the key list and setting another key appends it |
| `Twister.ExampleTwoDimsVariants` | src/utils/amazonScraper.ts:171-198 | for two dimensions with one selection, the first variant changes the first dimension and the second the second |
| `Twister.TwisterAsins` | src/utils/amazonScraper.ts:171-201 | the set of variant ASINs is exactly the set of truthy `defaultAsin`s in the data |
| `Twister.TwisterFromFirstRecord` | src/utils/amazonScraper.ts:174-201 | every variant is built from the first record in the data that carries its ASIN |
| `Twister.ExampleData` | src/utils/amazonScraper.ts:158 | a one-dimension twister object |
| `Twister.ExampleHits` | src/utils/amazonScraper.ts:174-201 | its single record with an ASIN is kept |
| `Twister.ExampleTwoDims` | src/utils/amazonScraper.ts:158 | a two-dimension object where only "Color" has a SELECTED record |
| `Twister.ExampleTwoDimsHits` | src/utils/amazonScraper.ts:174-201 | both records are kept, Color first |
| `Twister.ExampleTwoDimsBaseline` | src/utils/amazonScraper.ts:162-169 | the baseline has only the "Color" key |
| `Twister.DimensionKeysDiffer` | src/utils/amazonScraper.ts:185-186 | the two variants have different dimension keys: ["Color"] and ["Color", "Size"] |
| `AmazonScraper.BaseUrl` | src/utils/amazonScraper.ts:46-70 | the canonical link's origin if it parses, else the provided URL's origin if it parses, else `https://www.amazon.com` |
| `AmazonScraper.BaseUrlFallback` | src/utils/amazonScraper.ts:68-69 | when no origin is ever the default, the default is used only because both sources failed |
| `AmazonScraper.TwisterAttempt` | src/utils/amazonScraper.ts:151-205 | a twister script yields variants only if its data-a-state names the marker, it has text, the text parses, and at least one variant results |
| `AmazonScraper.Strategies` | src/utils/amazonScraper.ts:101-218 | the result carries the page price, and a failure has no variants and the fixed "Could not find variant map" message |
| `AmazonScraper.ParseAmazonHtml` | src/utils/amazonScraper.ts:75-218 | the result's parent price is the DOM price of the page, and a failure has no variants and the fixed message |
| `AmazonScraper.ClassicFirst` | src/utils/amazonScraper.ts:101-140 | classic data that parses wins even when it has no entries, with the tolerant classic variants |
| `AmazonScraper.TwisterSecond` | src/utils/amazonScraper.ts:148-218 | without classic data the result succeeds exactly when some twister script yields variants, and then carries the first such script's non-empty variants |
| `AmazonScraper.SeededVariants` | src/utils/amazonScraper.ts:130-135 | every returned variant's price is seeded from whether its ASIN is the current one |
| `AmazonScraper.ClassicSeeded` | src/utils/amazonScraper.ts:130-135 | each classic variant's price is the page price exactly for the current ASIN, otherwise the page-visit sentinel |
| `AmazonScraper.TwisterSeeded` | src/utils/amazonScraper.ts:130-135 | each twister variant's price is the page price exactly for the current ASIN, otherwise the page-visit sentinel |
| `AmazonScraper.TwisterStrategySeeded` | src/utils/amazonScraper.ts:160-201 | without classic data, every variant of the result is priced from whether it is the current ASIN |
| `AmazonScraper.PriceSeeding` | src/utils/amazonScraper.ts:79-135 | a variant has the page price exactly when it is the page's ASIN and that price was found; otherwise it needs a page visit |
| `Backfill.ResolvePrice` | src/_worker.js:221-237 | a throw or non-ok response gives "Fetch Failed"; "N/A" becomes "Unavailable"; otherwise the extracted price; never "N/A" |
| `Backfill.SentinelIndices` | src/_worker.js:241-243 | the listed positions are increasing and each holds the sentinel |
| `Backfill.SentinelIndicesComplete` | src/_worker.js:241-243 | every sentinel position is listed |
| `Backfill.RankOfListed` | src/_worker.js:241-243 | the k-th listed sentinel has exactly k sentinels before it |
| `Backfill.TargetsMeaning` | src/_worker.js:240-244 | the fetched positions are, in list order, exactly the sentinels with fewer than the cap before them, and there are min(cap, count) of them |
| `Backfill.RunBackfill` | src/_worker.js:219-249 | chosen variants take their own fetch's price, all others keep theirs, and the count is the number of targets |
| `Worker.TwisterStage` | src/_worker.js:160-207 | the twister variants are appended after the classic loop's variants, which stay a prefix of the result; success carries a "Found …" message; otherwise the earlier variants are returned as they were and the message is empty |
| `Worker.ExtractAsWritten` | src/_worker.js:98-207 | as written: success carries a "Found …" message; otherwise the message is empty, but partial classic variants may remain |
| `Worker.Extract` | src/_worker.js:98-207 | corrected: success means non-empty variants and a "Found …" message; failure means no variants |
| `Worker.ExtractOneStrategy` | src/_worker.js:125-207 | classic wins exactly when no entry throws and the map is non-empty; otherwise the twister variants, or failure without them |
| `Worker.ExtractDistinct` | src/_worker.js:125-207 | the corrected extraction never lists an ASIN twice |
| `Worker.AsWrittenMergesStrategies` | src/_worker.js:125-207 | on the example the as-written handler succeeds with two variants that share one ASIN |
| `Worker.AsWrittenFailsWithVariants` | src/_worker.js:125-158 | without twister data it reports failure while still holding a variant |
| `Worker.CorrectedExample` | src/_worker.js:125-207 | the corrected handler gives the single twister variant A1 |
| `Worker.FinalMessageCases` | src/_worker.js:245-256 | success keeps the "Found …" message, followed by " Bulk scraping N items..." exactly when N > 0 variants were fetched; failure says "No variants found or page is Captcha/Protected"; "Extraction complete" never appears |
| `Worker.BackfillVariants` | src/_worker.js:219-249 | the first 48 variants priced "Requires Page Visit" take their fetched price; every other variant is returned unchanged; the number of fetches is the number of such variants, capped at 48 |
| `Worker.BadStatusNamesStatus` | src/_worker.js:59-61 | the error message of a rejected status determines the status |
| `Worker.Respond` | src/_worker.js:219-263 | the result has the extraction's success, the page price and the debug tag; a success's message is its strategy's message plus " Bulk scraping N items..." when N > 0 backfill fetches were made, a failure's is "No variants found or page is Captcha/Protected", never "Extraction complete"; the variants are the extraction's with the first 48 page-visit prices of a success resolved; a failure keeps its variants unchanged |
| `Worker.Scrape` | src/_worker.js:52-270 | as written: a throwing fetch, a rejected status (with its "Amazon returned status" message) or an unparsable URL gives a 500 error; otherwise the reply reports the as-written extraction with its final message and backfilled prices, so a failure still lists the variants of an abandoned classic loop |
| `Worker.ScrapeCorrected` | src/_worker.js:52-270 | the same handler on the corrected extraction: same errors, result fields and final message, and a failure lists no variants |
| `ConsoleScript.CurrentAsin` | src/components/ExtractorTab.tsx:45 | the input's value when truthy, else "Unknown"; never empty |
| `ConsoleScript.ScriptSeeding` | src/components/ExtractorTab.tsx:46-76 | a variant gets the page price exactly when it is the current ASIN, and "Requires Fetch" exactly when it is not, including when the page price is "N/A" |
| `ConsoleScript.StripForgetsOnlyDimensions` | src/components/ExtractorTab.tsx:73-78 | the console variant keeps name, ASIN, price and URL and drops only the dimensions: two lists give the same console variants exactly when they agree in all but the dimensions |
| `ConsoleScript.ClassicStage` | src/components/ExtractorTab.tsx:61-82 | the classic stage reports "Classic JSON" or "None", and "None" with no variants when the blocks do not match |
| `ConsoleScript.StrategyOutcome` | src/components/ExtractorTab.tsx:48-156 | "Classic JSON" exactly for classic data with no throwing entry and entries; "None" exactly for a throw after the first entry, with the partial variants; "Twister Plus" gives non-empty twister variants; otherwise the visual fallback |
| `ConsoleScript.PartialClassicExample` | src/components/ExtractorTab.tsx:61-85 | on the example classic data the script stops with strategy "None" and the single variant A1 |
| `ConsoleScript.RunScript` | src/components/ExtractorTab.tsx:43-199 | the final data's strategy, ASIN, page price and counts; at most 20 "Requires Fetch" variants take their fetched price, the rest keep theirs |
| `ExtractorTab.UpdateVariantPrice` | src/components/ExtractorTab.tsx:273-283 | no result or an out-of-range index changes nothing; otherwise only the addressed variant's price changes |
| `ExtractorTab.UpdatesCommute` | src/components/ExtractorTab.tsx:273-283 | updates at different indices commute |
| `ExtractorTab.LastUpdateWins` | src/components/ExtractorTab.tsx:273-283 | a second update at the same index overrides the first |
| `ExtractorTab.ApplyUpdates` | src/components/ExtractorTab.tsx:273-283 | a sequence of updates keeps "no result" and "a result" as they were |
| `ExtractorTab.ApplyUpdatesMeaning` | src/components/ExtractorTab.tsx:273-283 | with distinct indices, each addressed in-range variant takes its price and every other variant is unchanged |
| `ExtractorTab.FetchedPrice` | src/components/ExtractorTab.tsx:296-311 | a throw gives "Fetch Failed", HTML gives its DOM price, JSON gives its truthy parent price or "N/A"; "Requires Page Visit" results only from a JSON reply carrying it |
| `ExtractorTab.RefreshTargets` | src/components/ExtractorTab.tsx:271-286 | the targets are exactly the positions priced "Requires Page Visit", in order |
| `ExtractorTab.FullRun` | src/components/ExtractorTab.tsx:288-315 | an undisturbed run makes one update per target |
| `ExtractorTab.RunStopsAtChange` | src/components/ExtractorTab.tsx:288-317 | when the result id changes at some read, exactly the updates of the targets finished before it are written, and the flag is cleared only if the change came after the last check |
| `ExtractorTab.RunUndisturbed` | src/components/ExtractorTab.tsx:288-317 | with no new extraction, the run writes every target's update and clears the flag |
| `ExtractorTab.RunSameReads` | src/components/ExtractorTab.tsx:289-317 | the run depends only on whether each read sees its own run id |
| `ExtractorTab.FetchMissingPrices` | src/components/ExtractorTab.tsx:265-266 | with no result nothing happens |
| `ExtractorTab.RefreshUndisturbed` | src/components/ExtractorTab.tsx:265-321 | every "Requires Page Visit" variant takes its fetched price, every other is unchanged, and the fetching flag is cleared |
| `ExtractorTab.FullRunUpdates` | src/components/ExtractorTab.tsx:289-317 | the writes of a complete run reprice every marked variant from its own fetch and leave every other variant and field as it was |
| `ExtractorTab.FullRunAt` | src/components/ExtractorTab.tsx:289-317 | after a complete run the variant at a position is repriced exactly when it was marked "Requires Page Visit" |
| `ExtractorTab.FullRunHit` | src/components/ExtractorTab.tsx:286-306 | a variant marked "Requires Page Visit" is written by the run, with the price of its own fetch |
| `ExtractorTab.FullRunMiss` | src/components/ExtractorTab.tsx:286-306 | a variant not so marked is never written by the run |
| `ExtractorTab.StaleRefreshWritesNothing` | src/components/ExtractorTab.tsx:268-317 | a result replaced while the first proxy fetch is pending (the earliest point a new fetch can run, since the id is read twice synchronously after the run id is taken) makes the run write nothing and leave the fetching flag set |
| `ExtractorTab.ColumnsMissUnselectedDimension` | src/components/ExtractorTab.tsx:323-328 | the columns come from the first variant: the example's twister result has no "Size" column although its second variant has a Size value |
| `ExtractorTab.MissingPricesIffTargets` | src/components/ExtractorTab.tsx:330-332 | `hasMissingPrices` holds exactly when the refresh would have a target; the control is shown only when `result.success` holds as well (`src/components/ExtractorTab.tsx:527`), which is outside the model |
| `ExtractorTab.RequestSort` | src/components/ExtractorTab.tsx:335-341 | the clicked key is sorted, descending exactly when it was already ascending |
| `ExtractorTab.ClicksAlternate` | src/components/ExtractorTab.tsx:335-341 | repeated clicks on one key alternate between ascending and descending |
| `ExtractorTab.KeepNumberChars` | src/components/ExtractorTab.tsx:355 | only digits and dots survive the clean-up, and the result is no longer than the price |
| `ExtractorTab.KeepNumberCharsOne` | src/components/ExtractorTab.tsx:355 | one character is kept exactly when it is a digit or a dot |
| `ExtractorTab.KeepNumberCharsAppend` | src/components/ExtractorTab.tsx:355 | the clean-up of a concatenation is the concatenation of the clean-ups, so every digit and dot is kept in order |
| `ExtractorTab.KeepNumberCharsIdentity` | src/components/ExtractorTab.tsx:355 | a text of digits and dots is unchanged |
| `ExtractorTab.ParseNumberText` | src/components/ExtractorTab.tsx:356 | `parseFloat` of a text of digits and dots is never negative, and is NaN exactly when the text starts with neither a digit nor a dot and a digit |
| `ExtractorTab.ParseNumberTextQualifies` | src/components/ExtractorTab.tsx:356 | `parseFloat` on digit-and-dot texts meets the premise of the comparator lemmas |
| `ExtractorTab.FractionDigitsExample` | src/components/ExtractorTab.tsx:356 | in "1.25.9" the whole part is "1" and the fraction digits are "25" |
| `ExtractorTab.ParseNumberTextExample` | src/components/ExtractorTab.tsx:356 | "1.25.9" parses as 1.25, and "." is NaN |
| `ExtractorTab.PriceValUnknown` | src/components/ExtractorTab.tsx:352-358 | the numeric value is -1 exactly for a sentinel, an empty price or an unparsable one; otherwise it is the parsed number |
| `ExtractorTab.PriceCompareMeaning` | src/components/ExtractorTab.tsx:360-369 | the price comparison is negative exactly when a comes first, zero exactly when tied, and antisymmetric |
| `ExtractorTab.UnknownLast` | src/components/ExtractorTab.tsx:364-367 | a known price sorts before an unknown one in both directions |
| `ExtractorTab.DescendingSwapsArguments` | src/components/ExtractorTab.tsx:369-385 | descending order compares the arguments swapped, for strings and for known prices |

## Left out

- Network I/O: `fetch`, timeouts, `AbortController`, `Promise.all`, the one-second delay between refresh fetches and the user-agent headers. Each fetch's outcome is an input.
- Concurrency of the worker's and the script's backfill. The fetches are independent writes to distinct variants, so they are modelled as done in list order.
- The routing in `src/_worker.js`: the OPTIONS preflight, the 400 for a missing `url`, static assets and the 404. The response bodies and headers are not modelled.
- The mobile strategy placeholder in `src/_worker.js`. It never changes the result.
- The semantics of the regular expressions, `DOMParser`, `querySelectorAll` and `JSON.parse`. They are abstract inputs, and the model starts from their results.
- JSON shapes other than those the code expects: a non-array value list, non-string display text, or a number used as an ASIN.
- The console script's visual fallback scan. It is an input list of variants that is used only when both JSON strategies give nothing.
- The console script's `meta.url`, `timestamp` and `product.title`, and its console logging.
- The React UI: rendering, progress strings, `isFetching` flags, the proxy service, the Gemini assistant, and the sort algorithm itself. Only the comparator is modelled.
- `localeCompare`. It is an abstract function, so the comparator's order on text columns is what it supplies.
- `parseFloat` is an abstract function in the comparator lemmas. They assume only that it is never negative on a text of digits and dots, which is all the comparator ever parses. `ParseNumberText` models `parseFloat` on those texts and meets that assumption.
- JsObject.AssignEach: gives the keys in the order they were first assigned, and `Keys` lists them in that order. JavaScript's `Object.keys` and `Object.entries` list array-index keys first, in ascending numeric order. Array-index keys are canonical decimal strings below 2^32 - 1. An all-digit ASIN such as an ISBN-10 `1234567890` is one, so the source lists it before `B0…` ASINs of the same map, and the model does not.
- JsObject.Put: appends a new key at the end of the key order. JavaScript places a new array-index key among the other array-index keys, in numeric order, ahead of all other keys. Dimension names are never such keys, but an all-digit ASIN map key is.
- ExtractorTab.FetchMissingPrices: its ensures covers only the no-result case. What a run does is stated by `RefreshUndisturbed`, `StaleRefreshWritesNothing` and `RunStopsAtChange`.
- ExtractorTab.ApplyUpdates: its ensures only says that a result stays present. What it does is stated by `ApplyUpdatesMeaning`.
- JsString.ReplaceAll: its ensures covers only the no-match case. What replacing does is stated by `ReplaceAllRemovesPattern` for the one-character replacement the code uses.
- Twister.TwisterVariants: its ensures gives only the count. What each variant holds is stated by `VariantAsins`, `TwisterAsins` and `TwisterFromFirstRecord`.
- Classic.TolerantVariants: its ensures gives only the count. What each variant holds is stated by `ClassicShape`.

## Findings

| source | as written | input that shows it | evidently intended | confidence | as-written member | corrected member |
|---|---|---|---|---|---|---|
| src/_worker.js:125-207 | the classic loop has no per-entry `try`. A throwing lookup leaves the variants pushed so far in `variants` with `success` false. The twister stage then appends to them, or the handler reports failure while returning them. | value table `{"Color": ["Red"]}`, index map `{"A1": [0], "A2": null}`, and twister data whose one SELECTED record has ASIN A1 | one strategy's variants: the classic ones when the whole map is read, otherwise the twister ones, otherwise none | not executed | `Worker.ExtractAsWritten`, used by `Worker.Scrape` (shown by `Worker.AsWrittenMergesStrategies`: success with two variants sharing ASIN A1; `Worker.AsWrittenFailsWithVariants`: failure holding one variant) | `Worker.Extract`, used by `Worker.ScrapeCorrected` (`Worker.ExtractOneStrategy`, `Worker.ExtractDistinct`, `Worker.CorrectedExample`) |

=== FILE: amazon_scraper.dfy ===
/**
 * The React app's `parseAmazonHtml`: the page price, the base URL, then the
 * classic strategy on the first script that mentions
 * `dimensionValuesDisplayData`, then the twister strategy on each
 * `a-state` script keyed `desktop-twister-sort-filter-data`, and a failure
 * result when neither yields variants.
 */
module AmazonScraper {
  import opened Options
  import opened JsString
  import opened JsObject
  import opened Types
  import opened Search
  import opened PriceExtract
  import opened JsonClean
  import Classic
  import Twister

  const DEFAULT_BASE_URL := "https://www.amazon.com"
  const CLASSIC_MARKER := "dimensionValuesDisplayData"
  const TWISTER_MARKER := "desktop-twister-sort-filter-data"
  const NOT_FOUND_MESSAGE := "Could not find variant map (checked 'dimensionValuesDisplayData' and 'desktop-twister-sort-filter-data'). This might be a single item page."

  /** A `<script type="a-state">` element: its `data-a-state` attribute and its text. */
  datatype StateScript = StateScript(dataState: Option<string>, text: string)

  /** What the parsed document offers the scraper. */
  datatype Page = Page(
    dom: Dom,                           // selector -> element texts, for the price
    canonicalHref: Option<string>,      // `href` of `link[rel="canonical"]`
    asinInput: Option<string>,          // `value` of `input#ASIN`
    scripts: seq<string>,               // text of every `<script>`
    stateScripts: seq<StateScript>)

  /**
   * The library functions the scraper calls, as abstract inputs: `new URL(u).origin`
   * (`None` when the constructor throws), the two non-greedy block captures,
   * and `JSON.parse` of each shape (`None` when it throws, or, for the twister
   * data, when `sortedDimValuesForAllDims` is missing or falsy).
   */
  datatype Parsers = Parsers(
    origin: string -> Option<string>,
    variationValuesBlock: string -> Option<string>,
    asinMapBlock: string -> Option<string>,
    parseValueTable: string -> Option<Classic.ValueTable>,
    parseIndexMap: string -> Option<Classic.IndexMap>,
    parseTwister: string -> Option<Twister.TwisterData>)

  /** `getBaseUrl(doc, providedUrl)` */
  function BaseUrl(canonicalHref: Option<string>, providedUrl: Option<string>, origin: string -> Option<string>): (r: string)
    ensures Truthy(canonicalHref) && origin(canonicalHref.value).Some? ==> r == origin(canonicalHref.value).value
    ensures !(Truthy(canonicalHref) && origin(canonicalHref.value).Some?) && Truthy(providedUrl) && origin(providedUrl.value).Some?
            ==> r == origin(providedUrl.value).value
    ensures !(Truthy(canonicalHref) && origin(canonicalHref.value).Some?) && !(Truthy(providedUrl) && origin(providedUrl.value).Some?)
            ==> r == DEFAULT_BASE_URL
  {
    if Truthy(canonicalHref) && origin(canonicalHref.value).Some? then origin(canonicalHref.value).value
    else if Truthy(providedUrl) && origin(providedUrl.value).Some? then origin(providedUrl.value).value
    else DEFAULT_BASE_URL
  }

  /** The fallback is used only when neither URL yields an origin. */
  lemma BaseUrlFallback(canonicalHref: Option<string>, providedUrl: Option<string>, origin: string -> Option<string>)
    requires forall u :: origin(u).Some? ==> origin(u).value != DEFAULT_BASE_URL
    ensures BaseUrl(canonicalHref, providedUrl, origin) == DEFAULT_BASE_URL
            <==> !(Truthy(canonicalHref) && origin(canonicalHref.value).Some?)
                 && !(Truthy(providedUrl) && origin(providedUrl.value).Some?)
  {
  }

  /** `currentAsin && asin === currentAsin` */
  predicate IsCurrent(currentAsin: Option<string>, asin: string) {
    Truthy(currentAsin) && asin == currentAsin.value
  }

  /** The seeded price of the variant with ASIN `asin`. */
  function PriceOf(currentAsin: Option<string>, parentPrice: string): string -> string {
    (asin: string) => SeedPrice(IsCurrent(currentAsin, asin), parentPrice)
  }

  // ---------------------------------------------------------------------
  // The classic strategy
  // ---------------------------------------------------------------------

  /** The first script whose text mentions the classic marker. */
  function ClassicScript(scripts: seq<string>): Option<string> {
    Find(scripts, (s: string) => Contains(s, CLASSIC_MARKER))
  }

  /**
   * The value table and the index map of the classic script, when both
   * blocks are found and both parse after the trailing-comma cleanup.
   */
  function ClassicInputs(page: Page, ps: Parsers): Option<(Classic.ValueTable, Classic.IndexMap)> {
    match ClassicScript(page.scripts)
    case None => None
    case Some(content) =>
      Classic.ParsedInput(ps.variationValuesBlock(content), ps.asinMapBlock(content), ps.parseValueTable, ps.parseIndexMap)
  }

  // ---------------------------------------------------------------------
  // The twister strategy
  // ---------------------------------------------------------------------

  /** A state script the twister loop looks into. */
  predicate IsTwisterScript(s: StateScript) {
    s.dataState.Some? && Contains(s.dataState.value, TWISTER_MARKER)
  }

  /** One iteration of the twister loop: the variants it returns, when there are any. */
  function TwisterAttempt(s: StateScript, ps: Parsers, priceOf: string -> string, baseUrl: string): (r: Option<seq<Variant>>)
    ensures r.Some? ==> IsTwisterScript(s) && |s.text| > 0 && ps.parseTwister(s.text).Some? && |r.value| > 0
  {
    if IsTwisterScript(s) && |s.text| > 0 then
      match ps.parseTwister(s.text)
      case Some(data) =>
        var vs := Twister.TwisterVariants(data, Twister.TargetAsIs, priceOf, baseUrl);
        if |vs| > 0 then Some(vs) else None
      case None => None
    else None
  }

  /** A twister attempt that yields variants yields those of the script's parsed data. */
  lemma TwisterAttemptValue(s: StateScript, ps: Parsers, priceOf: string -> string, baseUrl: string)
    requires TwisterAttempt(s, ps, priceOf, baseUrl).Some?
    ensures ps.parseTwister(s.text).Some?
    ensures TwisterAttempt(s, ps, priceOf, baseUrl).value
      == Twister.TwisterVariants(ps.parseTwister(s.text).value, Twister.TargetAsIs, priceOf, baseUrl)
  {
  }

  // ---------------------------------------------------------------------
  // parseAmazonHtml
  // ---------------------------------------------------------------------

  function TwisterMessage(n: nat): string {
    "Found " + NatToString(n) + " variants (Twister Plus Method). Note: Some combinations may require page visits to reveal."
  }

  /**
   * The strategies of `parseAmazonHtml` once the page price, the base URL,
   * the current ASIN and the classic inputs are known.
   */
  function Strategies(parentPrice: string, baseUrl: string, currentAsin: Option<string>,
                      classic: Option<(Classic.ValueTable, Classic.IndexMap)>,
                      stateScripts: seq<StateScript>, ps: Parsers): (r: ScrapingResult)
    ensures r.parentPrice == Some(parentPrice)
    ensures !r.success ==> r.variants == [] && r.message == Some(NOT_FOUND_MESSAGE)
  {
    var priceOf := PriceOf(currentAsin, parentPrice);
    match classic
    case Some((table, entries)) =>
      var vs := Classic.TolerantVariants(table, entries, priceOf, baseUrl);
      ScrapingResult(true, vs, Some(parentPrice), Some(Classic.FoundMessage(|vs|)), None)
    case None =>
      match FirstSome(stateScripts, (s: StateScript) => TwisterAttempt(s, ps, priceOf, baseUrl))
      case Some(vs) =>
        ScrapingResult(true, vs, Some(parentPrice), Some(TwisterMessage(|vs|)), None)
      case None =>
        ScrapingResult(false, [], Some(parentPrice), Some(NOT_FOUND_MESSAGE), None)
  }

  /** `parseAmazonHtml(htmlContent, sourceUrl)` on a parsed page. */
  function ParseAmazonHtml(page: Page, sourceUrl: Option<string>, ps: Parsers): (r: ScrapingResult)
    ensures r.parentPrice == Some(ExtractPrice(page.dom))
    ensures !r.success ==> r.variants == [] && r.message == Some(NOT_FOUND_MESSAGE)
  {
    Strategies(ExtractPrice(page.dom), BaseUrl(page.canonicalHref, sourceUrl, ps.origin), page.asinInput,
               ClassicInputs(page, ps), page.stateScripts, ps)
  }

  /** A classic map that parses wins, even with no entries. */
  lemma ClassicFirst(parentPrice: string, baseUrl: string, currentAsin: Option<string>,
                     classic: Option<(Classic.ValueTable, Classic.IndexMap)>,
                     stateScripts: seq<StateScript>, ps: Parsers)
    requires classic.Some?
    ensures var r := Strategies(parentPrice, baseUrl, currentAsin, classic, stateScripts, ps);
      r.success && r.variants == Classic.TolerantVariants(classic.value.0, classic.value.1, PriceOf(currentAsin, parentPrice), baseUrl)
  {
  }

  /**
   * Without classic data, the result succeeds exactly when some twister
   * script yields variants, and then carries the first such script's variants.
   */
  lemma TwisterSecond(parentPrice: string, baseUrl: string, currentAsin: Option<string>,
                      stateScripts: seq<StateScript>, ps: Parsers)
    ensures var r := Strategies(parentPrice, baseUrl, currentAsin, None, stateScripts, ps);
      var attempt := (s: StateScript) => TwisterAttempt(s, ps, PriceOf(currentAsin, parentPrice), baseUrl);
      && (r.success <==> exists i :: 0 <= i < |stateScripts| && attempt(stateScripts[i]).Some?)
      && (r.success ==> r.variants == attempt(stateScripts[FirstWhere(stateScripts, (s: StateScript) => attempt(s).Some?)]).value
                        && |r.variants| > 0)
  {
    var attempt := (s: StateScript) => TwisterAttempt(s, ps, PriceOf(currentAsin, parentPrice), baseUrl);
    var i := FirstWhere(stateScripts, (s: StateScript) => attempt(s).Some?);
    if i < |stateScripts| {
      assert FirstSome(stateScripts, attempt) == attempt(stateScripts[i]);
    } else {
      assert FirstSome(stateScripts, attempt).None?;
    }
  }

  /** Every variant of a result has its price seeded from its ASIN. */
  ghost predicate AllSeeded(vs: seq<Variant>, currentAsin: Option<string>, parentPrice: string) {
    forall i :: 0 <= i < |vs| ==> vs[i].price == SeedPrice(IsCurrent(currentAsin, vs[i].asin), parentPrice)
  }

  /** The classic strategy seeds each variant's price from its ASIN. */
  lemma ClassicSeeded(table: Classic.ValueTable, entries: Classic.IndexMap, currentAsin: Option<string>,
                      parentPrice: string, baseUrl: string)
    ensures AllSeeded(Classic.TolerantVariants(table, entries, PriceOf(currentAsin, parentPrice), baseUrl), currentAsin, parentPrice)
  {
    Classic.ClassicShape(table, entries, PriceOf(currentAsin, parentPrice), baseUrl);
  }

  /** The twister strategy seeds each variant's price from its ASIN. */
  lemma TwisterSeeded(data: Twister.TwisterData, currentAsin: Option<string>, parentPrice: string, baseUrl: string)
    ensures AllSeeded(Twister.TwisterVariants(data, Twister.TargetAsIs, PriceOf(currentAsin, parentPrice), baseUrl), currentAsin, parentPrice)
  {
    Twister.TwisterFromFirstRecord(data, Twister.TargetAsIs, PriceOf(currentAsin, parentPrice), baseUrl);
  }

  lemma SeededVariants(parentPrice: string, baseUrl: string, currentAsin: Option<string>,
                       classic: Option<(Classic.ValueTable, Classic.IndexMap)>,
                       stateScripts: seq<StateScript>, ps: Parsers)
    ensures var r := Strategies(parentPrice, baseUrl, currentAsin, classic, stateScripts, ps);
      forall i :: 0 <= i < |r.variants| ==>
        r.variants[i].price == SeedPrice(IsCurrent(currentAsin, r.variants[i].asin), parentPrice)
  {
    match classic
    case Some((table, entries)) =>
      ClassicFirst(parentPrice, baseUrl, currentAsin, classic, stateScripts, ps);
      ClassicSeeded(table, entries, currentAsin, parentPrice, baseUrl);
    case None =>
      TwisterStrategySeeded(parentPrice, baseUrl, currentAsin, stateScripts, ps);
    assert AllSeeded(Strategies(parentPrice, baseUrl, currentAsin, classic, stateScripts, ps).variants, currentAsin, parentPrice);
  }

  /** Without classic data, the result's variants are seeded from their ASINs. */
  lemma TwisterStrategySeeded(parentPrice: string, baseUrl: string, currentAsin: Option<string>,
                              stateScripts: seq<StateScript>, ps: Parsers)
    ensures AllSeeded(Strategies(parentPrice, baseUrl, currentAsin, None, stateScripts, ps).variants, currentAsin, parentPrice)
  {
    var r := Strategies(parentPrice, baseUrl, currentAsin, None, stateScripts, ps);
    TwisterSecond(parentPrice, baseUrl, currentAsin, stateScripts, ps);
    if r.success {
      var attempt := (s: StateScript) => TwisterAttempt(s, ps, PriceOf(currentAsin, parentPrice), baseUrl);
      var i := FirstWhere(stateScripts, (s: StateScript) => attempt(s).Some?);
      var s := stateScripts[i];
      assert attempt(s) == TwisterAttempt(s, ps, PriceOf(currentAsin, parentPrice), baseUrl);
      TwisterAttemptValue(s, ps, PriceOf(currentAsin, parentPrice), baseUrl);
      TwisterSeeded(ps.parseTwister(s.text).value, currentAsin, parentPrice, baseUrl);
    }
  }

  /**
   * A variant is priced with the page price exactly when it is the page's
   * own product and the page price was found; every other variant needs a
   * page visit.
   */
  lemma PriceSeeding(page: Page, sourceUrl: Option<string>, ps: Parsers)
    ensures var r := ParseAmazonHtml(page, sourceUrl, ps); var parentPrice := ExtractPrice(page.dom);
      forall i :: 0 <= i < |r.variants| ==>
        && (r.variants[i].price == parentPrice <==> IsCurrent(page.asinInput, r.variants[i].asin) && parentPrice != NOT_AVAILABLE)
        && (r.variants[i].price == REQUIRES_PAGE_VISIT <==> !(IsCurrent(page.asinInput, r.variants[i].asin) && parentPrice != NOT_AVAILABLE))
  {
    var parentPrice := ExtractPrice(page.dom);
    SeededVariants(parentPrice, BaseUrl(page.canonicalHref, sourceUrl, ps.origin), page.asinInput,
                   ClassicInputs(page, ps), page.stateScripts, ps);
    forall b: bool { SeedPriceIff(b, parentPrice); }
  }
}

=== FILE: backfill.dfy ===
/**
 * Price backfill: the variants still carrying the "needs a visit" sentinel
 * are fetched, in list order and at most `cap` of them, and each fetched
 * variant's price is replaced by what its own fetch yields. Fetches are
 * independent, so the outcome of each is an input indexed by the variant's
 * position.
 */
module Backfill {
  import opened Types

  /** What fetching one variant page gave: an exception, or a response. */
  datatype FetchOutcome = FetchThrew | Response(ok: bool, body: string)

  /**
   * The price a fetch leaves on the variant: "Fetch Failed" for an exception
   * or a non-ok response, otherwise the extracted price, with "N/A" turned
   * into "Unavailable".
   */
  function ResolvePrice(outcome: FetchOutcome, extract: string -> string): (p: string)
    ensures outcome.FetchThrew? || !outcome.ok ==> p == FETCH_FAILED
    ensures outcome.Response? && outcome.ok && extract(outcome.body) == NOT_AVAILABLE ==> p == UNAVAILABLE
    ensures outcome.Response? && outcome.ok && extract(outcome.body) != NOT_AVAILABLE ==> p == extract(outcome.body)
    ensures p != NOT_AVAILABLE
  {
    match outcome
    case FetchThrew => FETCH_FAILED
    case Response(ok, body) =>
      if !ok then FETCH_FAILED
      else
        var x := extract(body);
        if x != NOT_AVAILABLE then x else UNAVAILABLE
  }

  /** Positions, among the first `n`, of the prices equal to `sentinel`, in order. */
  function SentinelIndices(prices: seq<string>, sentinel: string, n: nat): (r: seq<nat>)
    requires n <= |prices|
    ensures forall k :: 0 <= k < |r| ==> r[k] < n && prices[r[k]] == sentinel
    ensures forall k, l :: 0 <= k < l < |r| ==> r[k] < r[l]
    ensures |r| <= n
  {
    if n == 0 then []
    else SentinelIndices(prices, sentinel, n - 1) + (if prices[n - 1] == sentinel then [n - 1] else [])
  }

  /** Every sentinel position below `n` is listed. */
  lemma {:induction false} SentinelIndicesComplete(prices: seq<string>, sentinel: string, n: nat)
    requires n <= |prices|
    ensures forall i :: 0 <= i < n && prices[i] == sentinel ==> i in SentinelIndices(prices, sentinel, n)
  {
    if n > 0 {
      SentinelIndicesComplete(prices, sentinel, n - 1);
    }
  }

  /** How many sentinel prices come before position `i`. */
  function Rank(prices: seq<string>, sentinel: string, i: nat): nat
    requires i <= |prices|
  {
    |SentinelIndices(prices, sentinel, i)|
  }

  /** The variant at position `i` is fetched: it carries the sentinel and fewer than `cap` sentinels precede it. */
  predicate Chosen(prices: seq<string>, sentinel: string, cap: nat, i: nat)
    requires i < |prices|
  {
    prices[i] == sentinel && Rank(prices, sentinel, i) < cap
  }

  function Min(a: nat, b: nat): nat {
    if a <= b then a else b
  }

  /** `variants.filter(v => v.price === sentinel).slice(0, cap)`, as positions. */
  function Targets(prices: seq<string>, sentinel: string, cap: nat): seq<nat> {
    var all := SentinelIndices(prices, sentinel, |prices|);
    all[..Min(cap, |all|)]
  }

  /** A sentinel listed at position `k` has exactly `k` sentinels before it. */
  lemma {:induction false} RankOfListed(prices: seq<string>, sentinel: string, n: nat, k: nat)
    requires n <= |prices| && k < |SentinelIndices(prices, sentinel, n)|
    ensures Rank(prices, sentinel, SentinelIndices(prices, sentinel, n)[k]) == k
  {
    var r := SentinelIndices(prices, sentinel, n);
    var prev := SentinelIndices(prices, sentinel, n - 1);
    if k < |prev| {
      assert r[k] == prev[k];
      RankOfListed(prices, sentinel, n - 1, k);
    } else {
      assert r[k] == n - 1 && k == |prev|;
    }
  }

  /** A fetched position is chosen. */
  lemma TargetIsChosen(prices: seq<string>, sentinel: string, cap: nat, k: nat)
    requires k < |Targets(prices, sentinel, cap)|
    ensures var t := Targets(prices, sentinel, cap);
      t[k] < |prices| && Chosen(prices, sentinel, cap, t[k])
  {
    var all := SentinelIndices(prices, sentinel, |prices|);
    assert Targets(prices, sentinel, cap)[k] == all[k];
    RankOfListed(prices, sentinel, |prices|, k);
  }

  /** A chosen position is fetched. */
  lemma ChosenIsTarget(prices: seq<string>, sentinel: string, cap: nat, i: nat)
    requires i < |prices| && Chosen(prices, sentinel, cap, i)
    ensures i in Targets(prices, sentinel, cap)
  {
    var all := SentinelIndices(prices, sentinel, |prices|);
    SentinelIndicesComplete(prices, sentinel, |prices|);
    assert i in all;
    var k :| 0 <= k < |all| && all[k] == i;
    RankOfListed(prices, sentinel, |prices|, k);
    assert Targets(prices, sentinel, cap)[k] == i;
  }

  /**
   * The positions fetched are exactly the chosen ones, in list order: the
   * first `cap` sentinel prices, or all of them when there are fewer.
   */
  lemma TargetsMeaning(prices: seq<string>, sentinel: string, cap: nat)
    ensures var t := Targets(prices, sentinel, cap);
      && |t| == Min(cap, Rank(prices, sentinel, |prices|))
      && (forall k, l :: 0 <= k < l < |t| ==> t[k] < t[l])
      && (forall i :: 0 <= i < |prices| ==> (i in t <==> Chosen(prices, sentinel, cap, i)))
  {
    var t := Targets(prices, sentinel, cap);
    forall i | 0 <= i < |prices|
      ensures i in t <==> Chosen(prices, sentinel, cap, i)
    {
      if i in t {
        var k :| 0 <= k < |t| && t[k] == i;
        TargetIsChosen(prices, sentinel, cap, k);
      }
      if Chosen(prices, sentinel, cap, i) {
        ChosenIsTarget(prices, sentinel, cap, i);
      }
    }
  }

  /** Rank grows by one exactly at a sentinel. */
  lemma RankStep(prices: seq<string>, sentinel: string, i: nat)
    requires i < |prices|
    ensures Rank(prices, sentinel, i + 1) == Rank(prices, sentinel, i) + (if prices[i] == sentinel then 1 else 0)
  {
  }

  /**
   * The backfill loop: every chosen variant takes the price its own fetch
   * resolves to, every other variant keeps its price, and the number of
   * fetches is the smaller of `cap` and the number of sentinel prices.
   */
  method RunBackfill(prices: seq<string>, sentinel: string, cap: nat, resolve: nat -> string)
    returns (out: seq<string>, fetched: nat)
    ensures |out| == |prices|
    ensures forall i :: 0 <= i < |prices| && Chosen(prices, sentinel, cap, i) ==> out[i] == resolve(i)
    ensures forall i :: 0 <= i < |prices| && !Chosen(prices, sentinel, cap, i) ==> out[i] == prices[i]
    ensures fetched == |Targets(prices, sentinel, cap)|
  {
    out := prices;
    fetched := 0;
    var i := 0;
    while i < |prices|
      invariant 0 <= i <= |prices| && |out| == |prices|
      invariant fetched == Min(cap, Rank(prices, sentinel, i))
      invariant forall k :: 0 <= k < i && Chosen(prices, sentinel, cap, k) ==> out[k] == resolve(k)
      invariant forall k :: 0 <= k < i && !Chosen(prices, sentinel, cap, k) ==> out[k] == prices[k]
      invariant forall k :: i <= k < |prices| ==> out[k] == prices[k]
    {
      RankStep(prices, sentinel, i);
      if prices[i] == sentinel && fetched < cap {
        out := out[i := resolve(i)];
        fetched := fetched + 1;
      }
      i := i + 1;
    }
    TargetsMeaning(prices, sentinel, cap);
  }
}

=== FILE: classic.dfy ===
/**
 * The classic variation shape: a table from dimension name to its display
 * values (`dimensionValuesDisplayData` / `variationValues`) and a map from
 * ASIN to one value index per dimension (`asinToDimensionIndexMap`), both as
 * `JSON.parse` returns them. One variant is built per map entry.
 *
 * The React app catches a failing lookup per dimension; the worker and the
 * console script do not, so there one failing lookup ends the whole loop.
 */
module Classic {
  import opened Options
  import opened JsString
  import opened JsObject
  import opened Types
  import JsonClean

  /** Dimension name -> its display values; `None` is a JSON `null`. */
  type ValueTable = Obj<Option<seq<string>>>

  /** ASIN -> the value index of each dimension, by position; `None` is a JSON `null`. */
  type IndexMap = Obj<Option<seq<int>>>

  /**
   * The value table and the index map from the two matched blocks: each is
   * cleaned of trailing commas and parsed; a missing block or a failing
   * parse leaves the classic strategy without input.
   */
  function ParsedInput(valuesBlock: Option<string>, mapBlock: Option<string>,
                       parseValueTable: string -> Option<ValueTable>,
                       parseIndexMap: string -> Option<IndexMap>): Option<(ValueTable, IndexMap)> {
    if valuesBlock.None? || mapBlock.None? then None
    else
      var table := parseValueTable(JsonClean.CleanObjStr(valuesBlock.value));
      var entries := parseIndexMap(JsonClean.CleanObjStr(mapBlock.value));
      if table.None? || entries.None? then None
      else Some((table.value, entries.value))
  }

  /** The success message of the classic strategy, the same in the app and the worker. */
  function FoundMessage(n: nat): string {
    "Found " + NatToString(n) + " variants (Classic Method)."
  }

  /** `variationValues[dimKey][indices[pos]]`: it throws, or yields a string or `undefined` (`None`). */
  datatype Lookup = Threw | Found(value: Option<string>)

  function LookupValue(values: Option<seq<string>>, indices: Option<seq<int>>, pos: nat): (l: Lookup)
    ensures l.Threw? <==> indices.None? || values.None?
    ensures l.Found? && l.value.Some? ==> exists i :: 0 <= i < |values.value| && values.value[i] == l.value.value
  {
    match indices
    case None => Threw                       // reading `indices[pos]` of null
    case Some(idx) =>
      match values
      case None => Threw                     // indexing into null
      case Some(vals) =>
        if pos < |idx| && 0 <= idx[pos] < |vals| then Found(Some(vals[idx[pos]]))
        else Found(None)                     // a missing index or an index outside the array
  }

  /** How `Array.prototype.join` renders a stored value: `undefined` as "". */
  function Render(v: Option<string>): string {
    v.GetOr("")
  }

  /** The name part of one dimension: "Unknown" when the lookup threw. */
  function NamePart(l: Lookup): string {
    match l
    case Threw => "Unknown"
    case Found(v) => Render(v)
  }

  /** The name parts of one entry, one per dimension in the table's key order. */
  function NameParts(table: ValueTable, indices: Option<seq<int>>): seq<string> {
    seq(|table|, d requires 0 <= d < |table| => NamePart(LookupValue(table[d].1, indices, d)))
  }

  /** What a lookup leaves in the dimensions object: nothing when it threw, else the value. */
  function Stored(l: Lookup): Option<Option<string>> {
    match l
    case Threw => None
    case Found(v) => Some(v)
  }

  /** The assignment `variantDimensions[dimKey] = value` of the dimension at position `d`. */
  function DimensionCell(indices: Option<seq<int>>): (Option<seq<string>>, nat) -> Option<Option<string>> {
    (values: Option<seq<string>>, d: nat) => Stored(LookupValue(values, indices, d))
  }

  /** `variantDimensions` after the whole `forEach` over the table's dimensions. */
  function Dimensions(table: ValueTable, indices: Option<seq<int>>): Obj<Option<string>> {
    AssignEach(table, DimensionCell(indices), |table|)
  }

  /** The variant of one map entry. */
  function ClassicVariant(table: ValueTable, asin: string, indices: Option<seq<int>>, price: string, baseUrl: string): Variant {
    Variant(
      name := Join(NameParts(table, indices), " / "),
      asin := asin,
      price := price,
      url := ProductUrl(baseUrl, asin),
      dimensions := Dimensions(table, indices))
  }

  /**
   * A variant's dimensions hold one entry per dimension whose lookup did
   * not throw, in the table's key order, mapped to the looked-up value
   * (`undefined` for a missing or out-of-range index); a dimension whose
   * lookup threw, and any name outside the table, has no entry. With no
   * throwing lookup every table key is present.
   */
  lemma DimensionsMeaning(table: ValueTable, indices: Option<seq<int>>)
    ensures forall d :: 0 <= d < |table| ==>
      Get(Dimensions(table, indices), table[d].0) == Stored(LookupValue(table[d].1, indices, d))
    ensures forall j :: j !in Keys(table) ==> Get(Dimensions(table, indices), j) == None
    ensures Keys(Dimensions(table, indices)) == AssignedKeys(table, DimensionCell(indices), |table|)
    ensures (forall d :: 0 <= d < |table| ==> !LookupValue(table[d].1, indices, d).Threw?)
            ==> Keys(Dimensions(table, indices)) == Keys(table)
  {
    var cell := DimensionCell(indices);
    var dims := Dimensions(table, indices);
    assert table[..|table|] == table;
    AssignEachValues(table, cell, |table|);
    forall d | 0 <= d < |table|
      ensures Get(dims, table[d].0) == Stored(LookupValue(table[d].1, indices, d))
    {
      assert cell(table[d].1, d) == Stored(LookupValue(table[d].1, indices, d));
    }
    if forall d :: 0 <= d < |table| ==> !LookupValue(table[d].1, indices, d).Threw? {
      forall d | 0 <= d < |table|
        ensures cell(table[d].1, d).Some?
      {
        assert !LookupValue(table[d].1, indices, d).Threw?;
      }
      AssignedKeysAll(table, cell, |table|);
    }
  }

  // ---------------------------------------------------------------------
  // The React app: every entry yields a variant
  // ---------------------------------------------------------------------

  /** One variant per map entry, in entry order; `priceOf` seeds the price from the ASIN. */
  function TolerantVariants(table: ValueTable, entries: IndexMap, priceOf: string -> string, baseUrl: string): (vs: seq<Variant>)
    ensures |vs| == |entries|
  {
    if |entries| == 0 then []
    else
      var rest: IndexMap := entries[1..];
      [ClassicVariant(table, entries[0].0, entries[0].1, priceOf(entries[0].0), baseUrl)]
        + TolerantVariants(table, rest, priceOf, baseUrl)
  }

  /**
   * The React app's classic strategy yields exactly one variant per map
   * entry, in entry order, with pairwise distinct ASINs; each name joins one
   * part per dimension with " / " in the table's key order, the part being
   * "Unknown" exactly where the lookup threw; each URL is `baseUrl/dp/asin`.
   */
  lemma {:induction false} ClassicShape(table: ValueTable, entries: IndexMap, priceOf: string -> string, baseUrl: string)
    ensures var vs := TolerantVariants(table, entries, priceOf, baseUrl);
      && |vs| == |entries|
      && (forall k :: 0 <= k < |vs| ==> vs[k] == ClassicVariant(table, entries[k].0, entries[k].1, priceOf(entries[k].0), baseUrl))
      && (forall k :: 0 <= k < |vs| ==> vs[k].asin == entries[k].0)
      && (forall k :: 0 <= k < |vs| ==> vs[k].url == baseUrl + "/dp/" + entries[k].0)
      && (forall k :: 0 <= k < |vs| ==> vs[k].price == priceOf(entries[k].0))
      && (forall j, k :: 0 <= j < k < |vs| ==> vs[j].asin != vs[k].asin)
      && (forall k :: 0 <= k < |vs| ==> vs[k].name == Join(NameParts(table, entries[k].1), " / "))
  {
    if |entries| > 0 {
      var rest: IndexMap := entries[1..];
      ClassicShape(table, rest, priceOf, baseUrl);
      assert forall k :: 1 <= k < |entries| ==> rest[k - 1] == entries[k];
    }
  }

  /**
   * The name parts of an entry: one per dimension; "Unknown" exactly when
   * the index array or the dimension's value list is null; otherwise the
   * indexed display value, or "" when the index is missing or out of range.
   */
  lemma NamePartsMeaning(table: ValueTable, indices: Option<seq<int>>)
    ensures |NameParts(table, indices)| == |table|
    ensures forall d :: 0 <= d < |table| && (indices.None? || table[d].1.None?) ==> NameParts(table, indices)[d] == "Unknown"
    ensures forall d :: 0 <= d < |table| && indices.Some? && table[d].1.Some? ==>
      var idx := indices.value; var vals := table[d].1.value;
      NameParts(table, indices)[d] == if d < |idx| && 0 <= idx[d] < |vals| then vals[idx[d]] else ""
  {
  }

  // ---------------------------------------------------------------------
  // The worker and the console script: one throwing lookup ends the loop
  // ---------------------------------------------------------------------

  /** Some lookup of this entry throws. */
  predicate EntryThrows(table: ValueTable, indices: Option<seq<int>>) {
    exists d :: 0 <= d < |table| && LookupValue(table[d].1, indices, d).Threw?
  }

  /**
   * The worker's entry loop: the variants pushed before the first entry
   * whose lookup throws, and whether one threw. The pushed variants are the
   * React app's variants of the same entries.
   */
  function StrictVariants(table: ValueTable, entries: IndexMap, priceOf: string -> string, baseUrl: string): (r: (seq<Variant>, bool))
    ensures |r.0| <= |entries|
    ensures r.0 == TolerantVariants(table, entries, priceOf, baseUrl)[..|r.0|]
  {
    if |entries| == 0 then ([], false)
    else if EntryThrows(table, entries[0].1) then ([], true)
    else
      var rest: IndexMap := entries[1..];
      var (pushed, threw) := StrictVariants(table, rest, priceOf, baseUrl);
      var all := TolerantVariants(table, entries, priceOf, baseUrl);
      assert all == [all[0]] + TolerantVariants(table, rest, priceOf, baseUrl);
      ([all[0]] + pushed, threw)
  }

  /**
   * The worker's loop stops at the first entry whose lookup throws: every
   * entry before it was pushed, it reports a throw exactly when some entry
   * throws, and without a throw every entry was pushed.
   */
  lemma {:induction false} StrictStops(table: ValueTable, entries: IndexMap, priceOf: string -> string, baseUrl: string)
    ensures var r := StrictVariants(table, entries, priceOf, baseUrl);
      && (forall k :: 0 <= k < |r.0| ==> !EntryThrows(table, entries[k].1))
      && (r.1 <==> AnyThrows(table, entries))
      && (r.1 ==> |r.0| < |entries| && EntryThrows(table, entries[|r.0|].1))
      && (!r.1 ==> |r.0| == |entries|)
  {
    if |entries| == 0 {
      assert !AnyThrows(table, entries);
    } else if EntryThrows(table, entries[0].1) {
      assert AnyThrows(table, entries);
    } else {
      var rest: IndexMap := entries[1..];
      StrictStops(table, rest, priceOf, baseUrl);
      AnyThrowsCons(table, entries);
      var (pushed, threw) := StrictVariants(table, rest, priceOf, baseUrl);
      var r := StrictVariants(table, entries, priceOf, baseUrl);
      assert r.1 == threw && |r.0| == |pushed| + 1;
      forall k | 0 <= k < |r.0| ensures !EntryThrows(table, entries[k].1) {
        if k > 0 { assert entries[k] == rest[k - 1]; }
      }
      if threw {
        assert entries[|r.0|] == rest[|pushed|];
      }
    }
  }

  /** Some entry of the map has a throwing lookup. */
  predicate AnyThrows(table: ValueTable, entries: seq<(string, Option<seq<int>>)>) {
    exists k :: 0 <= k < |entries| && EntryThrows(table, entries[k].1)
  }

  lemma AnyThrowsCons(table: ValueTable, entries: seq<(string, Option<seq<int>>)>)
    requires |entries| > 0
    ensures AnyThrows(table, entries) <==> EntryThrows(table, entries[0].1) || AnyThrows(table, entries[1..])
  {
    if AnyThrows(table, entries[1..]) {
      var k :| 0 <= k < |entries[1..]| && EntryThrows(table, entries[1..][k].1);
      assert entries[1..][k] == entries[k + 1];
    }
    if AnyThrows(table, entries) && !EntryThrows(table, entries[0].1) {
      var k :| 0 <= k < |entries| && EntryThrows(table, entries[k].1);
      assert entries[1..][k - 1] == entries[k];
    }
  }

  /** An entry's lookups throw exactly when there is a dimension and its index array is null, or a dimension's value list is null. */
  lemma EntryThrowsIff(table: ValueTable, indices: Option<seq<int>>)
    ensures EntryThrows(table, indices) <==>
      (|table| > 0 && indices.None?) || (exists d :: 0 <= d < |table| && table[d].1.None?)
  {
    if |table| > 0 && indices.None? {
      assert LookupValue(table[0].1, indices, 0).Threw?;
    }
  }

  // ---------------------------------------------------------------------
  // A page whose second entry throws
  // ---------------------------------------------------------------------

  /** One dimension, "Color", whose only value is "Red". */
  function ExampleTable(): (t: ValueTable)
    ensures |t| == 1
  {
    [("Color", Some(["Red"]))]
  }

  /** "A1" picks value 0; "A2" has a `null` index array, so its lookup throws. */
  function ExampleMap(): (m: IndexMap)
    ensures |m| == 2
  {
    [("A1", Some([0])), ("A2", None)]
  }

  /** On the example, the strict loop pushes the variant of "A1" and stops at "A2". */
  lemma ExampleStops(priceOf: string -> string, baseUrl: string)
    ensures var (pushed, threw) := StrictVariants(ExampleTable(), ExampleMap(), priceOf, baseUrl);
      threw && |pushed| == 1 && pushed[0].asin == "A1"
  {
    var table := ExampleTable();
    var entries := ExampleMap();
    EntryThrowsIff(table, entries[0].1);
    EntryThrowsIff(table, entries[1].1);
    assert table[0].1.Some?;
    assert !EntryThrows(table, entries[0].1);
    assert EntryThrows(table, entries[1].1);
    StrictStops(table, entries, priceOf, baseUrl);
    ClassicShape(table, entries, priceOf, baseUrl);
  }
}

=== FILE: console_script.dfy ===
/**
 * The browser-console script the extractor tab hands out for copying. It
 * runs on the product page itself: it extracts the page price, tries the
 * classic strategy, then the twister strategy and then a visual fallback
 * over the swatch rows, each only while no variant has been found, fetches
 * up to 20 "Requires Fetch" prices and assembles a JSON summary.
 *
 * Unlike the React app and the worker, the script seeds the current
 * product's price without checking for "N/A", marks the other variants with
 * "Requires Fetch", and its variants carry no dimensions. A classic loop
 * abandoned by a throwing lookup keeps its variants and leaves the
 * strategy at "None", and the later strategies are skipped.
 */
module ConsoleScript {
  import opened Options
  import opened JsString
  import opened Types
  import opened PriceExtract
  import opened JsonClean
  import opened Backfill
  import Classic
  import Twister

  /** `MAX_FETCH`: how many prices the script fetches at most. */
  const MAX_FETCH: nat := 20
  /** `currentAsin` when the page has no usable ASIN input. */
  const UNKNOWN_ASIN := "Unknown"

  /** A variant as the script records it: no dimensions. */
  datatype ScriptVariant = ScriptVariant(name: string, asin: string, price: string, url: string)

  /** `parsingStrategy`: "None", "Classic JSON", "Twister Plus" or "Visual Fallback". */
  datatype Strategy = NoStrategy | ClassicJson | TwisterPlus | VisualFallback

  /**
   * The regular expressions and `JSON.parse` of each shape, as abstract
   * inputs (`None`: no match, or a throw).
   */
  datatype ScriptParsers = ScriptParsers(
    pricePatterns: seq<ScriptPattern>,
    classicBlock: string -> Option<string>,
    mapBlock: string -> Option<string>,
    twisterBlock: string -> Option<string>,
    parseValueTable: string -> Option<Classic.ValueTable>,
    parseIndexMap: string -> Option<Classic.IndexMap>,
    parseTwister: string -> Option<Twister.TwisterData>)

  /** The fields of `finalData` that do not come from the clock or the DOM title. */
  datatype FinalData = FinalData(
    strategy: Strategy,
    fetchedCount: nat,
    totalVariationsFound: nat,
    asin: string,
    currentPrice: string,
    variations: seq<ScriptVariant>)

  /** The strategy name the summary reports. */
  function StrategyName(s: Strategy): string {
    match s
    case NoStrategy => "None"
    case ClassicJson => "Classic JSON"
    case TwisterPlus => "Twister Plus"
    case VisualFallback => "Visual Fallback"
  }

  /** `document.querySelector('input[id="ASIN"]')?.value || 'Unknown'` */
  function CurrentAsin(input: Option<string>): (a: string)
    ensures Truthy(input) ==> a == input.value
    ensures !Truthy(input) ==> a == UNKNOWN_ASIN
    ensures |a| > 0
  {
    if Truthy(input) then input.value else UNKNOWN_ASIN
  }

  /** The seeded price: the page price for the current ASIN, whatever it is, else "Requires Fetch". */
  function ScriptPriceOf(currentAsin: string, parentPrice: string): string -> string {
    (asin: string) => if asin == currentAsin then parentPrice else REQUIRES_FETCH
  }

  /**
   * The current product takes the page price even when that is "N/A", and
   * only the other variants are marked for fetching; the page price is
   * never the fetch sentinel, so the two cases are told apart by the price.
   */
  lemma ScriptSeeding(patterns: seq<ScriptPattern>, html: string, currentAsin: string, asin: string)
    ensures var parentPrice := ScriptExtractPrice(patterns, html);
      && (ScriptPriceOf(currentAsin, parentPrice)(asin) == parentPrice <==> asin == currentAsin)
      && (ScriptPriceOf(currentAsin, parentPrice)(asin) == REQUIRES_FETCH <==> asin != currentAsin)
  {
    var parentPrice := ScriptExtractPrice(patterns, html);
    SentinelsHaveNoDigit();
    assert |NOT_AVAILABLE| != |REQUIRES_FETCH|;
    assert parentPrice != REQUIRES_FETCH;
  }

  /** A variant of the classic or twister strategies without its dimensions. */
  function Strip(v: Variant): ScriptVariant {
    ScriptVariant(v.name, v.asin, v.price, v.url)
  }

  /** Every variant of a list without its dimensions, in order. */
  function StripAll(vs: seq<Variant>): (r: seq<ScriptVariant>)
    ensures |r| == |vs|
    ensures forall i :: 0 <= i < |vs| ==>
      r[i].name == vs[i].name && r[i].asin == vs[i].asin && r[i].price == vs[i].price && r[i].url == vs[i].url
  {
    seq(|vs|, i requires 0 <= i < |vs| => Strip(vs[i]))
  }

  /**
   * Stripping forgets the dimensions and nothing else: two lists strip to
   * the same console variants exactly when they have the same length and
   * their variants agree in everything but the dimensions.
   */
  lemma StripForgetsOnlyDimensions(a: seq<Variant>, b: seq<Variant>)
    ensures StripAll(a) == StripAll(b) <==>
      |a| == |b| && forall i :: 0 <= i < |a| ==> a[i].(dimensions := b[i].dimensions) == b[i]
  {
    if |a| == |b| && forall i :: 0 <= i < |a| ==> a[i].(dimensions := b[i].dimensions) == b[i] {
      forall i | 0 <= i < |a| ensures StripAll(a)[i] == StripAll(b)[i] {
        assert a[i].(dimensions := b[i].dimensions) == b[i];
      }
    }
    if StripAll(a) == StripAll(b) {
      forall i | 0 <= i < |a| ensures a[i].(dimensions := b[i].dimensions) == b[i] {
        assert StripAll(a)[i] == StripAll(b)[i];
      }
    }
  }

  // ---------------------------------------------------------------------
  // Inputs of the two JSON strategies
  // ---------------------------------------------------------------------

  /** The value table and the index map, when both blocks match and both parse after cleanup. */
  function ClassicInput(html: string, sp: ScriptParsers): Option<(Classic.ValueTable, Classic.IndexMap)> {
    Classic.ParsedInput(sp.classicBlock(html), sp.mapBlock(html), sp.parseValueTable, sp.parseIndexMap)
  }

  /** The twister data: only `&quot;` is decoded before `JSON.parse`, not the backslash escapes. */
  function TwisterInput(html: string, sp: ScriptParsers): Option<Twister.TwisterData> {
    match sp.twisterBlock(html)
    case Some(block) => sp.parseTwister(ReplaceAll(block, "&quot;", "\""))
    case None => None
  }

  // ---------------------------------------------------------------------
  // The strategy chain
  // ---------------------------------------------------------------------

  /**
   * The classic strategy: the variants pushed before a throwing lookup and
   * the strategy name, which is set only when the loop completes.
   */
  function ClassicStage(classic: Option<(Classic.ValueTable, Classic.IndexMap)>,
                        priceOf: string -> string, baseUrl: string): (r: (seq<ScriptVariant>, Strategy))
    ensures r.1 == NoStrategy || r.1 == ClassicJson
    ensures classic.None? ==> r == ([], NoStrategy)
  {
    match classic
    case None => ([], NoStrategy)
    case Some((table, entries)) =>
      var (pushed, threw) := Classic.StrictVariants(table, entries, priceOf, baseUrl);
      (StripAll(pushed), if threw then NoStrategy else ClassicJson)
  }

  /**
   * The three strategies in turn; the twister strategy runs only when the
   * classic one left no variant, and the fallback only when there is still
   * none. The twister strategy names itself whenever its data parses.
   */
  function Strategies(classic: Option<(Classic.ValueTable, Classic.IndexMap)>,
                      twister: Option<Twister.TwisterData>, fallback: seq<ScriptVariant>,
                      priceOf: string -> string, baseUrl: string): (r: (seq<ScriptVariant>, Strategy))
  {
    var (vs1, s1) := ClassicStage(classic, priceOf, baseUrl);
    if |vs1| > 0 then (vs1, s1)
    else
      var (vs2, s2) :=
        match twister
        case None => (vs1, s1)
        case Some(data) => (StripAll(Twister.TwisterVariants(data, Twister.EveryPartOrUnknown, priceOf, baseUrl)), TwisterPlus);
      if |vs2| > 0 then (vs2, s2)
      else (fallback, VisualFallback)
  }

  /**
   * Which strategy the summary names, and what it lists: "Classic JSON"
   * exactly for a complete classic loop over a non-empty map, with one
   * variant per entry; "None" exactly for a classic loop abandoned after at
   * least one entry, with the variants pushed before the throw and no other
   * strategy tried; "Twister Plus" only with the twister variants, at least
   * one; otherwise "Visual Fallback" with the fallback's variants.
   */
  lemma StrategyOutcome(classic: Option<(Classic.ValueTable, Classic.IndexMap)>,
                        twister: Option<Twister.TwisterData>, fallback: seq<ScriptVariant>,
                        priceOf: string -> string, baseUrl: string)
    ensures var (vs, s) := Strategies(classic, twister, fallback, priceOf, baseUrl);
      && (s == ClassicJson <==> classic.Some? && !Classic.AnyThrows(classic.value.0, classic.value.1) && |classic.value.1| > 0)
      && (s == ClassicJson ==> vs == StripAll(Classic.TolerantVariants(classic.value.0, classic.value.1, priceOf, baseUrl)))
      && (s == NoStrategy <==> classic.Some? && Classic.AnyThrows(classic.value.0, classic.value.1)
                               && !Classic.EntryThrows(classic.value.0, classic.value.1[0].1))
      && (s == NoStrategy ==> |vs| > 0 && vs == StripAll(Classic.StrictVariants(classic.value.0, classic.value.1, priceOf, baseUrl).0))
      && (s == TwisterPlus ==>
            (twister.Some? && |vs| > 0
             && vs == StripAll(Twister.TwisterVariants(twister.value, Twister.EveryPartOrUnknown, priceOf, baseUrl))))
      && (s == VisualFallback ==> vs == fallback)
  {
    if classic.Some? {
      var (table, entries) := classic.value;
      Classic.StrictStops(table, entries, priceOf, baseUrl);
      var (pushed, threw) := Classic.StrictVariants(table, entries, priceOf, baseUrl);
      if |entries| > 0 {
        Classic.AnyThrowsCons(table, entries);
      }
      if !threw {
        assert Classic.TolerantVariants(table, entries, priceOf, baseUrl)[..|pushed|]
               == Classic.TolerantVariants(table, entries, priceOf, baseUrl);
      }
    }
  }

  /**
   * On the classic example whose second entry throws, the script reports
   * strategy "None" with the first entry's variant, even when twister data
   * is present.
   */
  lemma PartialClassicExample(twister: Option<Twister.TwisterData>, fallback: seq<ScriptVariant>,
                              priceOf: string -> string, baseUrl: string)
    ensures var (vs, s) := Strategies(Some((Classic.ExampleTable(), Classic.ExampleMap())), twister, fallback, priceOf, baseUrl);
      s == NoStrategy && |vs| == 1 && vs[0].asin == "A1"
  {
    Classic.ExampleStops(priceOf, baseUrl);
  }

  // ---------------------------------------------------------------------
  // The whole script
  // ---------------------------------------------------------------------

  /**
   * The script on one page. `html` is the page's markup, `origin` its
   * `window.location.origin`, `asinInput` the value of its ASIN input,
   * `fallback` what the visual scrape of its swatch rows would yield, and `outcomes(i)` the fetch of the variant at
   * position `i`.
   */
  method RunScript(html: string, origin: string, asinInput: Option<string>, fallback: seq<ScriptVariant>,
                   sp: ScriptParsers, outcomes: nat -> FetchOutcome)
    returns (data: FinalData)
    ensures var parentPrice := ScriptExtractPrice(sp.pricePatterns, html);
      var priceOf := ScriptPriceOf(CurrentAsin(asinInput), parentPrice);
      var (vs, s) := Strategies(ClassicInput(html, sp), TwisterInput(html, sp), fallback, priceOf, origin);
      var prices := seq(|vs|, i requires 0 <= i < |vs| => vs[i].price);
      var resolve := (i: nat) => ResolvePrice(outcomes(i), (b: string) => ScriptExtractPrice(sp.pricePatterns, b));
      && data.strategy == s
      && data.asin == CurrentAsin(asinInput)
      && data.currentPrice == parentPrice
      && data.totalVariationsFound == |vs| == |data.variations|
      && data.fetchedCount == Min(MAX_FETCH, Rank(prices, REQUIRES_FETCH, |prices|))
      && (forall i :: 0 <= i < |vs| && Chosen(prices, REQUIRES_FETCH, MAX_FETCH, i) ==>
            data.variations[i] == vs[i].(price := resolve(i)))
      && (forall i :: 0 <= i < |vs| && !Chosen(prices, REQUIRES_FETCH, MAX_FETCH, i) ==>
            data.variations[i] == vs[i])
  {
    var parentPrice := ScriptExtractPrice(sp.pricePatterns, html);
    var currentAsin := CurrentAsin(asinInput);
    var priceOf := ScriptPriceOf(currentAsin, parentPrice);
    var (vs, s) := Strategies(ClassicInput(html, sp), TwisterInput(html, sp), fallback, priceOf, origin);
    var prices := seq(|vs|, i requires 0 <= i < |vs| => vs[i].price);
    var resolve := (i: nat) => ResolvePrice(outcomes(i), (b: string) => ScriptExtractPrice(sp.pricePatterns, b));
    var out, fetched := RunBackfill(prices, REQUIRES_FETCH, MAX_FETCH, resolve);
    TargetsMeaning(prices, REQUIRES_FETCH, MAX_FETCH);
    var variations := seq(|vs|, i requires 0 <= i < |vs| => vs[i].(price := out[i]));
    data := FinalData(s, fetched, |vs|, currentAsin, parentPrice, variations);
  }
}

=== FILE: extractor_tab.dfy ===
/**
 * The extractor tab's client-side state logic: the guarded single-variant
 * price update, the cancellable price refresh over the variants still
 * marked "Requires Page Visit", the derived table columns and flag, the
 * sort-key toggle and the price comparator of the sorted view.
 *
 * Each asynchronous step of the refresh reads the current result id;
 * `idAt(k)` is the id seen by the `k`-th read, so a new fetch started in
 * between shows as a different id from that read on.
 */
module ExtractorTab {
  import opened Options
  import JsString
  import opened JsObject
  import opened Types
  import opened PriceExtract
  import opened Backfill
  import Twister

  // ---------------------------------------------------------------------
  // updateVariantPrice
  // ---------------------------------------------------------------------

  /**
   * `updateVariantPrice(index, price)` as the state updater sees it: no
   * result, or an index outside the list, leaves the state as it was;
   * otherwise only the price of the variant at `index` changes.
   */
  function UpdateVariantPrice(prev: Option<ScrapingResult>, index: int, price: string): (r: Option<ScrapingResult>)
    ensures prev.None? ==> r.None?
    ensures prev.Some? && !(0 <= index < |prev.value.variants|) ==> r == prev
    ensures prev.Some? ==> r.Some? && r.value.(variants := prev.value.variants) == prev.value
                           && |r.value.variants| == |prev.value.variants|
    ensures prev.Some? && 0 <= index < |prev.value.variants| ==>
      r.value.variants[index].price == price
      && r.value.variants[index].(price := prev.value.variants[index].price) == prev.value.variants[index]
    ensures prev.Some? ==> forall i :: 0 <= i < |prev.value.variants| && i != index ==>
      r.value.variants[i] == prev.value.variants[i]
  {
    match prev
    case None => prev
    case Some(res) =>
      if index < 0 || index >= |res.variants| then prev
      else Some(res.(variants := res.variants[index := res.variants[index].(price := price)]))
  }

  /** Updates at two different positions can be applied in either order. */
  lemma UpdatesCommute(prev: Option<ScrapingResult>, i: int, p: string, j: int, q: string)
    requires i != j
    ensures UpdateVariantPrice(UpdateVariantPrice(prev, i, p), j, q) == UpdateVariantPrice(UpdateVariantPrice(prev, j, q), i, p)
  {
    if prev.Some? && 0 <= i < |prev.value.variants| && 0 <= j < |prev.value.variants| {
      var a := UpdateVariantPrice(UpdateVariantPrice(prev, i, p), j, q).value.variants;
      var b := UpdateVariantPrice(UpdateVariantPrice(prev, j, q), i, p).value.variants;
      assert a == b;
    }
  }

  /** A second update of the same position overrides the first. */
  lemma LastUpdateWins(prev: Option<ScrapingResult>, i: int, p: string, q: string)
    ensures UpdateVariantPrice(UpdateVariantPrice(prev, i, p), i, q) == UpdateVariantPrice(prev, i, q)
  {
    if prev.Some? && 0 <= i < |prev.value.variants| {
      var a := UpdateVariantPrice(UpdateVariantPrice(prev, i, p), i, q).value.variants;
      var b := UpdateVariantPrice(prev, i, q).value.variants;
      assert a == b;
    }
  }

  /** The state updaters of a sequence of `(index, price)` updates, applied in order. */
  function ApplyUpdates(prev: Option<ScrapingResult>, updates: seq<(int, string)>): (r: Option<ScrapingResult>)
    ensures r.Some? <==> prev.Some?
    decreases |updates|
  {
    if |updates| == 0 then prev
    else ApplyUpdates(UpdateVariantPrice(prev, updates[0].0, updates[0].1), updates[1..])
  }

  /** No two updates address the same position. */
  predicate DistinctPositions(updates: seq<(int, string)>) {
    forall j, k :: 0 <= j < k < |updates| ==> updates[j].0 != updates[k].0
  }

  /**
   * Updates at distinct positions give every addressed variant in range its
   * update's price and leave every other variant, and the rest of the
   * result, as it was.
   */
  lemma {:induction false} ApplyUpdatesMeaning(prev: Option<ScrapingResult>, updates: seq<(int, string)>)
    requires DistinctPositions(updates)
    ensures prev.None? ==> ApplyUpdates(prev, updates).None?
    ensures prev.Some? ==>
      var r := ApplyUpdates(prev, updates).value;
      var vs := prev.value.variants;
      && r.(variants := vs) == prev.value
      && |r.variants| == |vs|
      && (forall j :: 0 <= j < |updates| && 0 <= updates[j].0 < |vs| ==>
            r.variants[updates[j].0] == vs[updates[j].0].(price := updates[j].1))
      && (forall i :: 0 <= i < |vs| && (forall j :: 0 <= j < |updates| ==> updates[j].0 != i) ==> r.variants[i] == vs[i])
    decreases |updates|
  {
    if |updates| > 0 {
      var next := UpdateVariantPrice(prev, updates[0].0, updates[0].1);
      var rest := updates[1..];
      ApplyUpdatesMeaning(next, rest);
      if prev.Some? {
        var vs := prev.value.variants;
        var r := ApplyUpdates(prev, updates).value;
        forall j | 0 <= j < |updates| && 0 <= updates[j].0 < |vs|
          ensures r.variants[updates[j].0] == vs[updates[j].0].(price := updates[j].1)
        {
          if j == 0 {
            assert forall k :: 0 <= k < |rest| ==> rest[k].0 != updates[0].0 by {
              forall k | 0 <= k < |rest| ensures rest[k].0 != updates[0].0 {
                assert rest[k] == updates[k + 1];
              }
            }
          } else {
            assert rest[j - 1] == updates[j];
          }
        }
        forall i | 0 <= i < |vs| && (forall j :: 0 <= j < |updates| ==> updates[j].0 != i)
          ensures r.variants[i] == vs[i]
        {
          assert updates[0].0 != i;
          forall k | 0 <= k < |rest| ensures rest[k].0 != i {
            assert rest[k] == updates[k + 1];
          }
        }
      }
    }
  }

  // ---------------------------------------------------------------------
  // fetchMissingPrices
  // ---------------------------------------------------------------------

  /** What fetching a variant page through the proxies gave: a throw, raw HTML, or the worker's result. */
  datatype ProxyOutcome = ProxyThrew | Html(text: string) | Parsed(parentPrice: Option<string>)

  /**
   * The price a refresh writes: the DOM extractor's price of returned HTML,
   * the worker result's page price or "N/A" when it has none, and "Fetch
   * Failed" for a throw. It is never the page-visit sentinel unless the
   * worker itself reported that string as its page price.
   */
  function FetchedPrice(outcome: ProxyOutcome, parseHtml: string -> Dom): (p: string)
    ensures outcome.ProxyThrew? ==> p == FETCH_FAILED
    ensures outcome.Html? ==> p == ExtractPrice(parseHtml(outcome.text))
    ensures outcome.Parsed? && !Truthy(outcome.parentPrice) ==> p == NOT_AVAILABLE
    ensures outcome.Parsed? && Truthy(outcome.parentPrice) ==> p == outcome.parentPrice.value
    ensures p == REQUIRES_PAGE_VISIT ==> outcome == Parsed(Some(REQUIRES_PAGE_VISIT))
  {
    match outcome
    case ProxyThrew => FETCH_FAILED
    case Html(text) => ExtractPrice(parseHtml(text))
    case Parsed(pp) => if Truthy(pp) then pp.value else NOT_AVAILABLE
  }

  /**
   * `variantsToProcess.filter(v => v.price === "Requires Page Visit")`, as
   * the original positions: every such variant, in list order, with no cap.
   */
  function RefreshTargets(vs: seq<Variant>): (t: seq<nat>)
    ensures forall k :: 0 <= k < |t| ==> t[k] < |vs| && vs[t[k]].price == REQUIRES_PAGE_VISIT
    ensures forall k, l :: 0 <= k < l < |t| ==> t[k] < t[l]
    ensures forall i :: 0 <= i < |vs| && vs[i].price == REQUIRES_PAGE_VISIT ==> i in t
  {
    SentinelIndicesComplete(Prices(vs), REQUIRES_PAGE_VISIT, |vs|);
    SentinelIndices(Prices(vs), REQUIRES_PAGE_VISIT, |vs|)
  }

  /**
   * The refresh loop from target `j` on: the updates it applies, and the
   * read at which it checks the id once more after the loop. Target `j`
   * reads the id at `3j` (loop head), `3j + 1` (after the delay) and
   * `3j + 2` (after the fetch, before writing).
   */
  function RunFrom(targets: seq<nat>, j: nat, runId: int, idAt: nat -> int,
                   fetch: nat -> ProxyOutcome, parseHtml: string -> Dom): (r: (seq<(int, string)>, nat))
    requires j <= |targets|
    decreases |targets| - j
  {
    if j == |targets| then ([], 3 * j)
    else if idAt(3 * j) != runId then ([], 3 * j + 1)
    else if idAt(3 * j + 1) != runId then ([], 3 * j + 2)
    else
      var t := targets[j];
      var here := if idAt(3 * j + 2) == runId then [(t as int, FetchedPrice(fetch(t), parseHtml))] else [];
      var rest := RunFrom(targets, j + 1, runId, idAt, fetch, parseHtml);
      (here + rest.0, rest.1)
  }

  /** Every target's update, in order, as an undisturbed run writes them. */
  function FullRun(targets: seq<nat>, fetch: nat -> ProxyOutcome, parseHtml: string -> Dom): (u: seq<(int, string)>)
    ensures |u| == |targets|
  {
    seq(|targets|, j requires 0 <= j < |targets| => (targets[j] as int, FetchedPrice(fetch(targets[j]), parseHtml)))
  }

  /** The id changes at one of target `j`'s own three reads: nothing more is written and the flag stays set. */
  lemma RunStopsWithin(targets: seq<nat>, j: nat, runId: int, idAt: nat -> int,
                       fetch: nat -> ProxyOutcome, parseHtml: string -> Dom, c: nat)
    requires j < |targets| && 3 * j <= c <= 3 * j + 2
    requires forall k: nat :: k < c ==> idAt(k) == runId
    requires forall k: nat :: k >= c ==> idAt(k) != runId
    ensures var r := RunFrom(targets, j, runId, idAt, fetch, parseHtml);
      r.0 == [] && idAt(r.1) != runId
  {
    if c == 3 * j {
      assert idAt(3 * j) != runId;
    } else if c == 3 * j + 1 {
      assert idAt(3 * j) == runId && idAt(3 * j + 1) != runId;
    } else {
      assert idAt(3 * j) == runId && idAt(3 * j + 1) == runId && idAt(3 * j + 2) != runId;
      var rest := RunFrom(targets, j + 1, runId, idAt, fetch, parseHtml);
      if j + 1 < |targets| {
        assert idAt(3 * (j + 1)) != runId;
        assert rest == ([], 3 * (j + 1) + 1);
      } else {
        assert rest == ([], 3 * (j + 1));
      }
      assert idAt(rest.1) != runId;
    }
  }

  /**
   * When the result id changes at read `c` and stays changed, the run
   * writes the updates of the targets whose three reads all came before
   * `c`, and nothing after; the progress flag is cleared only when the
   * change comes after the final read.
   */
  lemma {:induction false} RunStopsAtChange(targets: seq<nat>, j: nat, runId: int, idAt: nat -> int,
                                            fetch: nat -> ProxyOutcome, parseHtml: string -> Dom, c: nat)
    requires j <= |targets| && 3 * j <= c
    requires forall k: nat :: k < c ==> idAt(k) == runId
    requires forall k: nat :: k >= c ==> idAt(k) != runId
    ensures var r := RunFrom(targets, j, runId, idAt, fetch, parseHtml);
      && r.0 == FullRun(targets, fetch, parseHtml)[j..Min(|targets|, c / 3)]
      && (idAt(r.1) == runId <==> c > 3 * |targets|)
    decreases |targets| - j
  {
    ThirdOf(j, c);
    if j < |targets| && 3 * j + 2 < c {
      RunPassesTarget(targets, j, runId, idAt, fetch, parseHtml);
      RunStopsAtChange(targets, j + 1, runId, idAt, fetch, parseHtml, c);
      SliceCons(FullRun(targets, fetch, parseHtml), j, Min(|targets|, c / 3));
    } else if j < |targets| {
      RunStopsWithin(targets, j, runId, idAt, fetch, parseHtml, c);
    }
  }

  /** A target whose three reads all see the run's id writes its update before the rest of the run. */
  lemma RunPassesTarget(targets: seq<nat>, j: nat, runId: int, idAt: nat -> int,
                        fetch: nat -> ProxyOutcome, parseHtml: string -> Dom)
    requires j < |targets|
    requires idAt(3 * j) == runId && idAt(3 * j + 1) == runId && idAt(3 * j + 2) == runId
    ensures var rest := RunFrom(targets, j + 1, runId, idAt, fetch, parseHtml);
      RunFrom(targets, j, runId, idAt, fetch, parseHtml) == ([FullRun(targets, fetch, parseHtml)[j]] + rest.0, rest.1)
  {
  }

  /** A non-empty slice is its first element followed by the rest. */
  lemma SliceCons<T>(s: seq<T>, j: nat, stop: nat)
    requires j < stop <= |s|
    ensures s[j..stop] == [s[j]] + s[j + 1..stop]
  {
  }

  /** Where read `c` falls relative to the three reads of target `j`. */
  lemma ThirdOf(j: nat, c: nat)
    requires 3 * j <= c
    ensures j <= c / 3
    ensures 3 * j + 2 < c ==> j + 1 <= c / 3
    ensures c <= 3 * j + 2 ==> c / 3 == j
  {
  }

  /** With the result id unchanged throughout, every target is updated in order and the flag is cleared. */
  lemma RunUndisturbed(targets: seq<nat>, runId: int, idAt: nat -> int, fetch: nat -> ProxyOutcome, parseHtml: string -> Dom)
    requires forall k: nat :: idAt(k) == runId
    ensures var r := RunFrom(targets, 0, runId, idAt, fetch, parseHtml);
      r.0 == FullRun(targets, fetch, parseHtml) && idAt(r.1) == runId
  {
    var c := 3 * |targets| + 1;
    var shifted := (k: nat) => if k < c then runId else runId + 1;
    RunStopsAtChange(targets, 0, runId, shifted, fetch, parseHtml, c);
    RunSameReads(targets, 0, runId, idAt, shifted, fetch, parseHtml);
  }

  /** Two id histories that agree on the first `3|targets| + 1` reads drive the same run. */
  lemma {:induction false} RunSameReads(targets: seq<nat>, j: nat, runId: int, idAt: nat -> int, other: nat -> int,
                                        fetch: nat -> ProxyOutcome, parseHtml: string -> Dom)
    requires j <= |targets|
    requires forall k: nat :: k <= 3 * |targets| ==> (idAt(k) == runId <==> other(k) == runId)
    ensures RunFrom(targets, j, runId, idAt, fetch, parseHtml) == RunFrom(targets, j, runId, other, fetch, parseHtml)
    decreases |targets| - j
  {
    if j < |targets| {
      RunSameReads(targets, j + 1, runId, idAt, other, fetch, parseHtml);
    }
  }

  /**
   * `fetchMissingPrices` for the result it started from: the result with
   * the run's updates applied, and whether the progress flag is cleared.
   * Without a result nothing happens.
   */
  function FetchMissingPrices(result: Option<ScrapingResult>, runId: int, idAt: nat -> int,
                              fetch: nat -> ProxyOutcome, parseHtml: string -> Dom): (r: (Option<ScrapingResult>, bool))
    ensures result.None? ==> r == (None, false)
  {
    match result
    case None => (None, false)
    case Some(res) =>
      var run := RunFrom(RefreshTargets(res.variants), 0, runId, idAt, fetch, parseHtml);
      (ApplyUpdates(result, run.0), idAt(run.1) == runId)
  }

  /**
   * An undisturbed refresh gives every variant marked "Requires Page Visit"
   * the price its own fetch yields, leaves every other variant and the rest
   * of the result unchanged, and clears the progress flag.
   */
  lemma RefreshUndisturbed(result: ScrapingResult, runId: int, idAt: nat -> int,
                           fetch: nat -> ProxyOutcome, parseHtml: string -> Dom)
    requires forall k: nat :: idAt(k) == runId
    ensures var (r, cleared) := FetchMissingPrices(Some(result), runId, idAt, fetch, parseHtml);
      var vs := result.variants;
      && cleared && r.Some?
      && r.value.(variants := vs) == result
      && |r.value.variants| == |vs|
      && (forall i :: 0 <= i < |vs| && vs[i].price == REQUIRES_PAGE_VISIT ==>
            r.value.variants[i] == vs[i].(price := FetchedPrice(fetch(i), parseHtml)))
      && (forall i :: 0 <= i < |vs| && vs[i].price != REQUIRES_PAGE_VISIT ==> r.value.variants[i] == vs[i])
  {
    RunUndisturbed(RefreshTargets(result.variants), runId, idAt, fetch, parseHtml);
    FullRunUpdates(result, fetch, parseHtml);
  }

  /**
   * Applying the updates of a complete run prices every variant marked
   * "Requires Page Visit" from its own fetch and leaves the rest alone.
   */
  lemma FullRunUpdates(result: ScrapingResult, fetch: nat -> ProxyOutcome, parseHtml: string -> Dom)
    ensures var r := ApplyUpdates(Some(result), FullRun(RefreshTargets(result.variants), fetch, parseHtml));
      var vs := result.variants;
      && r.Some?
      && r.value.(variants := vs) == result
      && |r.value.variants| == |vs|
      && (forall i :: 0 <= i < |vs| && vs[i].price == REQUIRES_PAGE_VISIT ==>
            r.value.variants[i] == vs[i].(price := FetchedPrice(fetch(i), parseHtml)))
      && (forall i :: 0 <= i < |vs| && vs[i].price != REQUIRES_PAGE_VISIT ==> r.value.variants[i] == vs[i])
  {
    var vs := result.variants;
    var full := FullRun(RefreshTargets(vs), fetch, parseHtml);
    ApplyUpdatesMeaning(Some(result), full);
    var r := ApplyUpdates(Some(result), full).value;
    forall i | 0 <= i < |vs|
      ensures r.variants[i] == if vs[i].price == REQUIRES_PAGE_VISIT then vs[i].(price := FetchedPrice(fetch(i), parseHtml)) else vs[i]
    {
      FullRunAt(result, fetch, parseHtml, i);
    }
  }

  /** The variant at position `i` after a complete run: repriced when it was marked, untouched otherwise. */
  lemma FullRunAt(result: ScrapingResult, fetch: nat -> ProxyOutcome, parseHtml: string -> Dom, i: nat)
    requires i < |result.variants|
    ensures var r := ApplyUpdates(Some(result), FullRun(RefreshTargets(result.variants), fetch, parseHtml)).value;
      var v := result.variants[i];
      |r.variants| == |result.variants| &&
      r.variants[i] == if v.price == REQUIRES_PAGE_VISIT then v.(price := FetchedPrice(fetch(i), parseHtml)) else v
  {
    var vs := result.variants;
    var targets := RefreshTargets(vs);
    var full := FullRun(targets, fetch, parseHtml);
    FullRunDistinct(targets, fetch, parseHtml);
    ApplyUpdatesMeaning(Some(result), full);
    if vs[i].price == REQUIRES_PAGE_VISIT {
      var k := FullRunHit(vs, fetch, parseHtml, i);
    } else {
      FullRunMiss(vs, fetch, parseHtml, i);
    }
  }

  /** The writes of a complete run address distinct positions. */
  lemma FullRunDistinct(targets: seq<nat>, fetch: nat -> ProxyOutcome, parseHtml: string -> Dom)
    requires forall k, l :: 0 <= k < l < |targets| ==> targets[k] < targets[l]
    ensures DistinctPositions(FullRun(targets, fetch, parseHtml))
  {
  }

  /** A marked variant is written by the run, with its own fetch's price. */
  lemma FullRunHit(vs: seq<Variant>, fetch: nat -> ProxyOutcome, parseHtml: string -> Dom, i: nat) returns (k: nat)
    requires i < |vs| && vs[i].price == REQUIRES_PAGE_VISIT
    ensures var full := FullRun(RefreshTargets(vs), fetch, parseHtml);
      k < |full| && full[k] == (i as int, FetchedPrice(fetch(i), parseHtml))
  {
    var targets := RefreshTargets(vs);
    k :| 0 <= k < |targets| && targets[k] == i;
  }

  /** An unmarked variant is never written by the run. */
  lemma FullRunMiss(vs: seq<Variant>, fetch: nat -> ProxyOutcome, parseHtml: string -> Dom, i: nat)
    requires i < |vs| && vs[i].price != REQUIRES_PAGE_VISIT
    ensures var full := FullRun(RefreshTargets(vs), fetch, parseHtml);
      forall j :: 0 <= j < |full| ==> full[j].0 != i
  {
    var targets := RefreshTargets(vs);
    forall j | 0 <= j < |targets| ensures targets[j] != i {
      assert vs[targets[j]].price == REQUIRES_PAGE_VISIT;
    }
  }

  /**
   * The run's first two reads of the id (the loop head and, with no delay
   * before the first target, the check before the fetch) happen in the same
   * synchronous step as the read of the run id, so the earliest a new fetch
   * can replace the result is while the first proxy fetch is pending, at
   * read 2. A run with a target that is disturbed there writes nothing and
   * leaves the progress flag set for the new fetch.
   */
  lemma StaleRefreshWritesNothing(result: ScrapingResult, runId: int, idAt: nat -> int,
                                  fetch: nat -> ProxyOutcome, parseHtml: string -> Dom, i: nat)
    requires i < |result.variants| && result.variants[i].price == REQUIRES_PAGE_VISIT
    requires forall k: nat :: k < 2 ==> idAt(k) == runId
    requires forall k: nat :: k >= 2 ==> idAt(k) != runId
    ensures FetchMissingPrices(Some(result), runId, idAt, fetch, parseHtml) == (Some(result), false)
  {
    var targets := RefreshTargets(result.variants);
    assert i in targets;
    RunStopsAtChange(targets, 0, runId, idAt, fetch, parseHtml, 2);
  }

  // ---------------------------------------------------------------------
  // Derived view state
  // ---------------------------------------------------------------------

  /** The table's dimension columns: the first variant's dimension keys, or none. */
  function DimensionKeys(result: Option<ScrapingResult>): seq<string> {
    if result.None? || |result.value.variants| == 0 then [] else Keys(result.value.variants[0].dimensions)
  }

  /**
   * The columns come from the first variant alone: for twister data with
   * one selected dimension and one without a selection, the table has no
   * column for the second dimension although the second variant has a
   * value for it.
   */
  lemma ColumnsMissUnselectedDimension(parentPrice: Option<string>, message: Option<string>, debugInfo: Option<string>,
                                       style: Twister.NameStyle, priceOf: string -> string, baseUrl: string)
    ensures var vs := Twister.TwisterVariants(Twister.ExampleTwoDims(), style, priceOf, baseUrl);
      var result := Some(ScrapingResult(true, vs, parentPrice, message, debugInfo));
      && DimensionKeys(result) == ["Color"]
      && |vs| == 2 && Get(vs[1].dimensions, "Size").Some?
  {
    Twister.DimensionKeysDiffer(style, priceOf, baseUrl);
  }

  /** `hasMissingPrices`: some variant is still marked "Requires Page Visit". */
  predicate HasMissingPrices(result: Option<ScrapingResult>) {
    result.Some? && exists i :: 0 <= i < |result.value.variants| && result.value.variants[i].price == REQUIRES_PAGE_VISIT
  }

  /** The refresh has work exactly when the flag is up. */
  lemma MissingPricesIffTargets(result: ScrapingResult)
    ensures HasMissingPrices(Some(result)) <==> |RefreshTargets(result.variants)| > 0
  {
    var t := RefreshTargets(result.variants);
    if |t| > 0 {
      assert result.variants[t[0]].price == REQUIRES_PAGE_VISIT;
    }
  }

  // ---------------------------------------------------------------------
  // Sorting
  // ---------------------------------------------------------------------

  datatype Direction = Asc | Desc

  datatype SortConfig = SortConfig(key: string, direction: Direction)

  /** `requestSort(key)`: descending exactly when the same key is currently ascending. */
  function RequestSort(config: Option<SortConfig>, key: string): (r: SortConfig)
    ensures r.key == key
    ensures r.direction == Desc <==> config == Some(SortConfig(key, Asc))
  {
    if config.Some? && config.value.key == key && config.value.direction == Asc then SortConfig(key, Desc)
    else SortConfig(key, Asc)
  }

  /** The sort state after `n` clicks on the header of `key`. */
  function Clicks(config: Option<SortConfig>, key: string, n: nat): Option<SortConfig> {
    if n == 0 then config else Some(RequestSort(Clicks(config, key, n - 1), key))
  }

  /**
   * Repeated clicks on one header alternate the direction: from a state
   * that is not "this key, ascending" the odd clicks sort ascending, and
   * from that state the odd clicks sort descending.
   */
  lemma {:induction false} ClicksAlternate(config: Option<SortConfig>, key: string, n: nat)
    requires n > 0
    ensures var s := if config == Some(SortConfig(key, Asc)) then 1 else 0;
      Clicks(config, key, n) == Some(SortConfig(key, if (n + s) % 2 == 1 then Asc else Desc))
  {
    if n > 1 {
      ClicksAlternate(config, key, n - 1);
    }
  }

  /** The prices the comparator treats as unknown outright. */
  predicate IsPriceSentinel(p: string) {
    |p| == 0 || p == REQUIRES_PAGE_VISIT || p == NOT_AVAILABLE || p == UNAVAILABLE || p == FETCH_FAILED
  }

  /** A character `/[^0-9.]/` does not match. */
  predicate IsNumberChar(c: char) {
    '0' <= c <= '9' || c == '.'
  }

  /** A text made of digits and dots only. */
  predicate IsNumberText(s: string) {
    forall i :: 0 <= i < |s| ==> IsNumberChar(s[i])
  }

  /** What the clean-up keeps of one character. */
  function KeptChar(c: char): string {
    if IsNumberChar(c) then [c] else []
  }

  /** `p.replace(/[^0-9.]/g, '')` */
  function KeepNumberChars(p: string): (r: string)
    ensures IsNumberText(r)
    ensures |r| <= |p|
  {
    if |p| == 0 then "" else KeptChar(p[0]) + KeepNumberChars(p[1..])
  }

  /** A text of digits and dots comes through the clean-up unchanged. */
  lemma {:induction false} KeepNumberCharsIdentity(p: string)
    ensures IsNumberText(p) ==> KeepNumberChars(p) == p
  {
    if |p| > 0 {
      KeepNumberCharsIdentity(p[1..]);
    }
  }

  /** One character is kept exactly when it is a digit or a dot. */
  lemma KeepNumberCharsOne(c: char)
    ensures KeepNumberChars([c]) == if IsNumberChar(c) then [c] else []
  {
    assert [c][1..] == [];
  }

  /**
   * The clean-up works character by character: with `KeepNumberCharsOne`
   * this says every digit and dot of the input is kept, in order, and
   * nothing else.
   */
  lemma {:induction false} KeepNumberCharsAppend(a: string, b: string)
    ensures KeepNumberChars(a + b) == KeepNumberChars(a) + KeepNumberChars(b)
  {
    if |a| == 0 {
      assert a + b == b;
    } else {
      var ab := a + b;
      assert ab[0] == a[0];
      assert ab[1..] == a[1..] + b;
      KeepNumberCharsAppend(a[1..], b);
    }
  }

  /**
   * `getPriceVal(p)`: -1 for a sentinel, or when `parseFloat` of the
   * cleaned text is NaN (`None`); otherwise the parsed value.
   */
  function PriceVal(p: string, parseFloat: string -> Option<real>): real {
    if IsPriceSentinel(p) then -1.0
    else
      var v := parseFloat(KeepNumberChars(p));
      if v.None? then -1.0 else v.value
  }

  /** A price the sort places after every known one. */
  predicate Unknown(p: string, parseFloat: string -> Option<real>) {
    IsPriceSentinel(p) || parseFloat(KeepNumberChars(p)).None?
  }

  /**
   * `parseFloat` of a text of digits and dots is never negative: such a
   * text has no sign. The comparator parses only cleaned texts, so its -1
   * marks exactly the unknown prices. `ParseNumberTextQualifies` shows
   * that `parseFloat` itself, on those texts, meets this.
   */
  ghost predicate ParsesNonNegative(parseFloat: string -> Option<real>) {
    forall s :: IsNumberText(s) && parseFloat(s).Some? ==> parseFloat(s).value >= 0.0
  }

  /** The number of leading `\d` characters. */
  function LeadingDigits(s: string): (n: nat)
    ensures n <= |s|
    ensures forall i :: 0 <= i < n ==> '0' <= s[i] <= '9'
    ensures n < |s| ==> !('0' <= s[n] <= '9')
  {
    if |s| > 0 && '0' <= s[0] <= '9' then 1 + LeadingDigits(s[1..]) else 0
  }

  function Pow10(k: nat): (p: nat)
    ensures p > 0
  {
    if k == 0 then 1 else 10 * Pow10(k - 1)
  }

  /** `digits / 10^k`: the value of `k` digits after the dot. */
  function Fraction(digits: nat, k: nat): (r: real)
    ensures r >= 0.0
  {
    digits as real / Pow10(k) as real
  }

  /** The digits after a dot at position `w`, up to the next character that is not a digit. */
  function FractionDigits(s: string, w: nat): (frac: string)
    requires w <= |s|
    ensures JsString.AllDigits(frac)
    ensures |frac| == 0 <==> !(w + 1 < |s| && s[w] == '.' && '0' <= s[w + 1] <= '9')
  {
    if w < |s| && s[w] == '.' then
      var t := s[w + 1..];
      assert |t| > 0 ==> t[0] == s[w + 1];
      t[..LeadingDigits(t)]
    else ""
  }

  /**
   * `parseFloat` of a text of digits and dots: the longest prefix made of
   * digits, then optionally a dot and more digits; NaN (`None`) when that
   * prefix holds no digit, that is when the text starts with neither a
   * digit nor a dot followed by a digit.
   */
  function ParseNumberText(s: string): (r: Option<real>)
    ensures r.Some? ==> r.value >= 0.0
    ensures r.None? <==> !((|s| > 0 && '0' <= s[0] <= '9') || (|s| > 1 && s[0] == '.' && '0' <= s[1] <= '9'))
  {
    var w := LeadingDigits(s);
    var frac := FractionDigits(s, w);
    var whole := s[..w];
    assert JsString.AllDigits(whole);
    if w == 0 && |frac| == 0 then None
    else Some(JsString.DecimalValue(whole) as real + Fraction(JsString.DecimalValue(frac), |frac|))
  }

  /** On the texts the comparator parses, `parseFloat` meets `ParsesNonNegative`. */
  lemma ParseNumberTextQualifies()
    ensures ParsesNonNegative((s: string) => ParseNumberText(s))
  {
  }

  /** The digits after the first dot of "1.25.9" stop at the second dot. */
  lemma FractionDigitsExample()
    ensures LeadingDigits("1.25.9") == 1
    ensures FractionDigits("1.25.9", 1) == "25"
  {
    var s := "1.25.9";
    assert s[1..][0] == '.';
    assert s[2..] == "25.9";
    assert "25.9"[1..] == "5.9" && "5.9"[1..] == ".9";
    assert LeadingDigits("25.9") == 2;
  }

  /** A second dot ends the number, and the digits after the first count as a fraction. */
  lemma ParseNumberTextExample()
    ensures ParseNumberText("1.25.9") == Some(1.25)
    ensures ParseNumberText(".") == None
  {
    FractionDigitsExample();
    assert "1.25.9"[..1] == "1";
    assert JsString.DecimalValue("1") == 1 by {
      assert "1"[..0] == "";
    }
    assert JsString.DecimalValue("25") == 25 by {
      assert "25"[..1] == "2";
      assert "2"[..0] == "";
    }
    assert Fraction(25, 2) == 0.25 by {
      assert Pow10(2) == 100;
    }
  }

  lemma PriceValUnknown(p: string, parseFloat: string -> Option<real>)
    requires ParsesNonNegative(parseFloat)
    ensures PriceVal(p, parseFloat) == -1.0 <==> Unknown(p, parseFloat)
    ensures !Unknown(p, parseFloat) ==> PriceVal(p, parseFloat) == parseFloat(KeepNumberChars(p)).value
  {
  }

  /** The text a non-price column sorts by: name, ASIN, or the dimension value with `|| ''`. */
  function SortText(v: Variant, key: string): string {
    if key == "name" then v.name
    else if key == "asin" then v.asin
    else
      var d := Get(v.dimensions, key);
      if d.Some? && d.value.Some? then d.value.value else ""
  }

  /** The comparator of the sorted view; `localeCompare` is an abstract input. */
  function Compare(a: Variant, b: Variant, config: SortConfig,
                   parseFloat: string -> Option<real>, localeCompare: (string, string) -> int): real {
    if config.key == "price" then
      var valA := PriceVal(a.price, parseFloat);
      var valB := PriceVal(b.price, parseFloat);
      if valA == -1.0 && valB == -1.0 then 0.0
      else if valA == -1.0 then 1.0
      else if valB == -1.0 then -1.0
      else if config.direction == Asc then valA - valB else valB - valA
    else
      var valA := SortText(a, config.key);
      var valB := SortText(b, config.key);
      if config.direction == Asc then localeCompare(valA, valB) as real else localeCompare(valB, valA) as real
  }

  /** The order the price column means: known prices first, by value in the chosen direction. */
  predicate PriceBefore(a: Variant, b: Variant, dir: Direction, parseFloat: string -> Option<real>) {
    !Unknown(a.price, parseFloat)
    && (Unknown(b.price, parseFloat)
        || (var va := parseFloat(KeepNumberChars(a.price)).value;
            var vb := parseFloat(KeepNumberChars(b.price)).value;
            if dir == Asc then va < vb else vb < va))
  }

  /** Two prices the price column does not separate: both unknown, or both known and equal. */
  predicate PriceTied(a: Variant, b: Variant, parseFloat: string -> Option<real>) {
    (Unknown(a.price, parseFloat) && Unknown(b.price, parseFloat))
    || (!Unknown(a.price, parseFloat) && !Unknown(b.price, parseFloat)
        && parseFloat(KeepNumberChars(a.price)).value == parseFloat(KeepNumberChars(b.price)).value)
  }

  /**
   * On the price column the comparator follows that order: negative
   * exactly when `a` comes first, zero exactly on a tie, and swapping the
   * arguments negates it. An unknown price therefore sorts after every
   * known one in both directions.
   */
  lemma PriceCompareMeaning(a: Variant, b: Variant, dir: Direction, parseFloat: string -> Option<real>,
                            localeCompare: (string, string) -> int)
    requires ParsesNonNegative(parseFloat)
    ensures var cmp := Compare(a, b, SortConfig("price", dir), parseFloat, localeCompare);
      && (cmp < 0.0 <==> PriceBefore(a, b, dir, parseFloat))
      && (cmp == 0.0 <==> PriceTied(a, b, parseFloat))
      && cmp == -Compare(b, a, SortConfig("price", dir), parseFloat, localeCompare)
  {
    PriceValUnknown(a.price, parseFloat);
    PriceValUnknown(b.price, parseFloat);
  }

  /** A known price sorts before an unknown one whichever the direction. */
  lemma UnknownLast(a: Variant, b: Variant, dir: Direction, parseFloat: string -> Option<real>,
                    localeCompare: (string, string) -> int)
    requires ParsesNonNegative(parseFloat)
    requires !Unknown(a.price, parseFloat) && Unknown(b.price, parseFloat)
    ensures Compare(a, b, SortConfig("price", dir), parseFloat, localeCompare) < 0.0
    ensures Compare(b, a, SortConfig("price", dir), parseFloat, localeCompare) > 0.0
  {
    PriceCompareMeaning(a, b, dir, parseFloat, localeCompare);
  }

  /**
   * On any other column, descending order is ascending order with the
   * arguments swapped; on the price column that holds only between known
   * prices.
   */
  lemma DescendingSwapsArguments(a: Variant, b: Variant, key: string, parseFloat: string -> Option<real>,
                                 localeCompare: (string, string) -> int)
    requires key == "price" ==> ParsesNonNegative(parseFloat) && !Unknown(a.price, parseFloat) && !Unknown(b.price, parseFloat)
    ensures Compare(a, b, SortConfig(key, Desc), parseFloat, localeCompare) == Compare(b, a, SortConfig(key, Asc), parseFloat, localeCompare)
  {
    if key == "price" {
      PriceValUnknown(a.price, parseFloat);
      PriceValUnknown(b.price, parseFloat);
    }
  }
}

=== FILE: js_object.dfy ===
/**
 * JavaScript plain objects as ordered association lists. Enumeration order
 * (`Object.keys`, `Object.entries`, spread) is the list order, which is what
 * decides the order of the parts of a variant name. Index-like keys, which
 * JavaScript enumerates first, are not distinguished here.
 */
module JsObject {
  import opened Options

  ghost predicate DistinctKeys<V>(a: seq<(string, V)>) {
    forall i, j :: 0 <= i < j < |a| ==> a[i].0 != a[j].0
  }

  /** A plain object: its own string keys with their values, no key twice. */
  type Obj<V> = a: seq<(string, V)> | DistinctKeys(a) witness []

  /** `Object.keys(o)` */
  function Keys<V>(o: seq<(string, V)>): (ks: seq<string>)
    ensures |ks| == |o|
    ensures forall i :: 0 <= i < |o| ==> ks[i] == o[i].0
  {
    seq(|o|, i requires 0 <= i < |o| => o[i].0)
  }

  /** `o[k]`: `None` when the key is absent (the access yields `undefined`). */
  function Get<V>(o: seq<(string, V)>, k: string): (r: Option<V>)
    ensures r.None? <==> k !in Keys(o)
    ensures r.Some? ==> exists i :: 0 <= i < |o| && o[i] == (k, r.value)
  {
    if |o| == 0 then None
    else if o[0].0 == k then Some(o[0].1)
    else
      assert Keys(o) == [o[0].0] + Keys(o[1..]);
      var r := Get(o[1..], k);
      assert r.Some? ==> exists i :: 1 <= i < |o| && o[i] == (k, r.value);
      r
  }

  /** In a plain object the entry at position `i` is what a lookup of its key finds. */
  lemma {:induction false} GetAt<V>(o: Obj<V>, i: nat)
    requires i < |o|
    ensures Get(o, o[i].0) == Some(o[i].1)
  {
    if i > 0 {
      assert o[0].0 != o[i].0;
      var rest: Obj<V> := o[1..];
      assert rest[i - 1] == o[i];
      GetAt(rest, i - 1);
    }
  }

  /** The key at position `n` is not among the keys before it. */
  lemma KeyNotInPrefix<V>(o: Obj<V>, n: nat)
    requires n < |o|
    ensures o[n].0 !in Keys(o[..n])
    ensures Keys(o[..n + 1]) == Keys(o[..n]) + [o[n].0]
  {
    var ks := Keys(o[..n]);
    assert forall d :: 0 <= d < n ==> ks[d] == o[d].0 && o[d].0 != o[n].0;
  }

  /** Position of a present key. */
  function IndexOf<V>(o: seq<(string, V)>, k: string): (i: nat)
    requires k in Keys(o)
    ensures i < |o| && o[i].0 == k
  {
    if o[0].0 == k then 0
    else
      assert Keys(o) == [o[0].0] + Keys(o[1..]);
      assert k in Keys(o[1..]);
      1 + IndexOf(o[1..], k)
  }

  /** In a plain object, a lookup is decided by the position that holds the key. */
  lemma GetByPosition<V>(o: Obj<V>, j: string)
    ensures j in Keys(o) ==> Get(o, j) == Some(o[IndexOf(o, j)].1)
    ensures j !in Keys(o) ==> Get(o, j) == None
  {
    if j in Keys(o) {
      GetAt(o, IndexOf(o, j));
    }
  }

  /**
   * `o[k] = v` on a copy of `o`: an existing key keeps its position and
   * takes the new value, a new key is appended last; every other key keeps
   * its value.
   */
  function Put<V>(o: Obj<V>, k: string, v: V): (r: Obj<V>)
    ensures Get(r, k) == Some(v)
    ensures forall j :: j != k ==> Get(r, j) == Get(o, j)
    ensures Keys(r) == if k in Keys(o) then Keys(o) else Keys(o) + [k]
  {
    if k in Keys(o) then
      var i := IndexOf(o, k);
      var r: Obj<V> := o[i := (k, v)];
      assert Keys(r) == Keys(o);
      PutFacts(o, r, k, v);
      r
    else
      var r: Obj<V> := o + [(k, v)];
      assert Keys(r) == Keys(o) + [k];
      PutFacts(o, r, k, v);
      r
  }

  /** The two shapes of an assignment: overwrite in place, or append a new key. */
  ghost predicate PutShape<V>(o: Obj<V>, r: Obj<V>, k: string, v: V) {
    || (k in Keys(o) && r == o[IndexOf(o, k) := (k, v)])
    || (k !in Keys(o) && r == o + [(k, v)])
  }

  lemma PutFacts<V>(o: Obj<V>, r: Obj<V>, k: string, v: V)
    requires PutShape(o, r, k, v)
    ensures Get(r, k) == Some(v)
    ensures forall j :: j != k ==> Get(r, j) == Get(o, j)
  {
    var n := if k in Keys(o) then IndexOf(o, k) else |o|;
    assert r[n] == (k, v);
    GetAt(r, n);
    forall j | j != k
      ensures Get(r, j) == Get(o, j)
    {
      if j in Keys(o) {
        PutKeepsPresent(o, r, k, v, j);
      } else {
        PutKeepsAbsent(o, r, k, v, j);
      }
    }
  }

  /** Either shape of assignment leaves a present other key's value alone. */
  lemma PutKeepsPresent<V>(o: Obj<V>, r: Obj<V>, k: string, v: V, j: string)
    requires PutShape(o, r, k, v) && j != k && j in Keys(o)
    ensures Get(r, j) == Get(o, j)
  {
    var i := IndexOf(o, j);
    GetAt(o, i);
    assert r[i] == o[i];
    GetAt(r, i);
  }

  /** Either shape of assignment leaves an absent other key absent. */
  lemma PutKeepsAbsent<V>(o: Obj<V>, r: Obj<V>, k: string, v: V, j: string)
    requires PutShape(o, r, k, v) && j != k && j !in Keys(o)
    ensures Get(r, j) == Get(o, j)
  {
    if k in Keys(o) {
      assert Keys(r) == Keys(o);
    } else {
      assert Keys(r) == Keys(o) + [k];
    }
  }

  // ---------------------------------------------------------------------
  // Building an object key by key
  // ---------------------------------------------------------------------

  /**
   * The object built by walking the first `n` entries of `src` in order and
   * assigning `r[key] = v` wherever `cell` gives `Some(v)` for the entry's
   * value and position; a `None` cell assigns nothing.
   */
  function AssignEach<W, V>(src: Obj<W>, cell: (W, nat) -> Option<V>, n: nat): (r: Obj<V>)
    requires n <= |src|
    ensures Keys(r) == AssignedKeys(src, cell, n)
  {
    if n == 0 then []
    else
      var prev := AssignEach(src, cell, n - 1);
      match cell(src[n - 1].1, n - 1)
      case None => prev
      case Some(v) =>
        FreshPut(prev, src, cell, n - 1, v);
        Put(prev, src[n - 1].0, v)
  }

  /** Assigning the key of entry `n` after walking the entries before it appends that key. */
  lemma FreshPut<W, V>(prev: Obj<V>, src: Obj<W>, cell: (W, nat) -> Option<V>, n: nat, v: V)
    requires n < |src| && Keys(prev) == AssignedKeys(src, cell, n)
    ensures Keys(Put(prev, src[n].0, v)) == Keys(prev) + [src[n].0]
  {
    NotYetAssigned(src, cell, n);
  }

  /** The keys among the first `n` entries of `src` whose cell assigns something, in order. */
  function AssignedKeys<W, V>(src: Obj<W>, cell: (W, nat) -> Option<V>, n: nat): seq<string>
    requires n <= |src|
  {
    if n == 0 then []
    else AssignedKeys(src, cell, n - 1) + (if cell(src[n - 1].1, n - 1).None? then [] else [src[n - 1].0])
  }

  lemma {:induction false} AssignedKeysFromSource<W, V>(src: Obj<W>, cell: (W, nat) -> Option<V>, n: nat)
    requires n <= |src|
    ensures forall x :: x in AssignedKeys(src, cell, n) ==> x in Keys(src[..n])
  {
    if n > 0 {
      AssignedKeysFromSource(src, cell, n - 1);
      KeyNotInPrefix(src, n - 1);
    }
  }

  /** The key of entry `n` has not been assigned by the entries before it. */
  lemma NotYetAssigned<W, V>(src: Obj<W>, cell: (W, nat) -> Option<V>, n: nat)
    requires n < |src|
    ensures src[n].0 !in AssignedKeys(src, cell, n)
  {
    AssignedKeysFromSource(src, cell, n);
    KeyNotInPrefix(src, n);
  }

  /**
   * In the built object each walked key holds exactly what its cell
   * assigned (absent for a `None` cell), and every other key is absent.
   */
  lemma {:induction false} AssignEachValues<W, V>(src: Obj<W>, cell: (W, nat) -> Option<V>, n: nat)
    requires n <= |src|
    ensures forall d :: 0 <= d < n ==> Get(AssignEach(src, cell, n), src[d].0) == cell(src[d].1, d)
    ensures forall j :: j !in Keys(src[..n]) ==> Get(AssignEach(src, cell, n), j) == None
  {
    if n > 0 {
      AssignEachValues(src, cell, n - 1);
      var key := src[n - 1].0;
      KeyNotInPrefix(src, n - 1);
      forall d | 0 <= d < n - 1
        ensures src[d].0 != key && src[d].0 in Keys(src[..n - 1])
      {
        assert Keys(src[..n - 1])[d] == src[d].0;
      }
    }
  }

  /** When every walked cell assigns, every walked key is assigned, in source order. */
  lemma {:induction false} AssignedKeysAll<W, V>(src: Obj<W>, cell: (W, nat) -> Option<V>, n: nat)
    requires n <= |src|
    requires forall d :: 0 <= d < n ==> cell(src[d].1, d).Some?
    ensures AssignedKeys(src, cell, n) == Keys(src[..n])
  {
    if n > 0 {
      AssignedKeysAll(src, cell, n - 1);
      KeyNotInPrefix(src, n - 1);
    }
  }
}

=== FILE: js_string.dfy ===
/**
 * The JavaScript string operations the extractor relies on, over `seq<char>`:
 * the whitespace class shared by `\s` and `String.prototype.trim`, `/\d/`,
 * `includes`, `startsWith`, a global literal `replace`, `Array.prototype.join`
 * and the decimal rendering of a count inside a template literal.
 */
module JsString {

  /** ECMAScript WhiteSpace and LineTerminator code points (the `\s` class). */
  predicate IsSpace(c: char) {
    || c == '\t' || c == '\n' || c == '\U{000B}' || c == '\U{000C}' || c == '\r' || c == ' '
    || c == '\U{00A0}' || c == '\U{1680}' || ('\U{2000}' <= c <= '\U{200A}')
    || c == '\U{2028}' || c == '\U{2029}' || c == '\U{202F}' || c == '\U{205F}'
    || c == '\U{3000}' || c == '\U{FEFF}'
  }

  /** The `\d` class: ASCII digits only. */
  predicate IsDigit(c: char) {
    '0' <= c <= '9'
  }

  /** `/\d/.test(s)` */
  predicate HasDigit(s: string) {
    exists i :: 0 <= i < |s| && IsDigit(s[i])
  }

  /** Drops the leading whitespace. */
  function TrimStart(s: string): (r: string)
    ensures |r| <= |s| && r == s[|s| - |r|..]
    ensures |r| > 0 ==> !IsSpace(r[0])
    ensures forall k :: 0 <= k < |s| - |r| ==> IsSpace(s[k])
  {
    if |s| > 0 && IsSpace(s[0]) then TrimStart(s[1..]) else s
  }

  /** Drops the trailing whitespace. */
  function TrimEnd(s: string): (r: string)
    ensures |r| <= |s| && r == s[..|r|]
    ensures |r| > 0 ==> !IsSpace(r[|r| - 1])
    ensures forall k :: |r| <= k < |s| ==> IsSpace(s[k])
  {
    if |s| > 0 && IsSpace(s[|s| - 1]) then TrimEnd(s[..|s| - 1]) else s
  }

  /**
   * `String.prototype.trim`: whitespace is cut from both ends and nothing
   * else, so no digit is ever lost.
   */
  function Trim(s: string): (r: string)
    ensures |r| <= |s|
    ensures |r| > 0 ==> !IsSpace(r[0]) && !IsSpace(r[|r| - 1])
    ensures HasDigit(r) <==> HasDigit(s)
  {
    TrimDigits(s);
    TrimEnd(TrimStart(s))
  }

  /** A digit is not whitespace. */
  lemma DigitNotSpace(c: char)
    ensures IsDigit(c) ==> !IsSpace(c)
  {
  }

  /** A digit of a text lies inside the part that survives trimming, so it survives. */
  lemma TrimKeepsDigit(s: string, i: nat)
    requires i < |s| && IsDigit(s[i])
    ensures HasDigit(TrimEnd(TrimStart(s)))
  {
    var a := TrimStart(s);
    var r := TrimEnd(a);
    var lead := |s| - |a|;
    DigitNotSpace(s[i]);
    assert lead <= i;
    assert a[i - lead] == s[i];
    assert i - lead < |r|;
    assert r[i - lead] == s[i];
  }

  /** A digit of the trimmed text comes from the text. */
  lemma TrimAddsNoDigit(s: string, i: nat)
    requires i < |TrimEnd(TrimStart(s))| && IsDigit(TrimEnd(TrimStart(s))[i])
    ensures HasDigit(s)
  {
    var a := TrimStart(s);
    var r := TrimEnd(a);
    var lead := |s| - |a|;
    assert r[i] == a[i] && a[i] == s[lead + i];
  }

  lemma TrimDigits(s: string)
    ensures HasDigit(TrimEnd(TrimStart(s))) <==> HasDigit(s)
  {
    if HasDigit(s) {
      var i :| 0 <= i < |s| && IsDigit(s[i]);
      TrimKeepsDigit(s, i);
    }
    var r := TrimEnd(TrimStart(s));
    if HasDigit(r) {
      var i :| 0 <= i < |r| && IsDigit(r[i]);
      TrimAddsNoDigit(s, i);
    }
  }

  /** `s.startsWith(p)` */
  predicate StartsWith(s: string, p: string) {
    |p| <= |s| && s[..|p|] == p
  }

  /** `s.includes(sub)` */
  predicate Contains(s: string, sub: string)
    decreases |s|
  {
    StartsWith(s, sub) || (|s| > 0 && Contains(s[1..], sub))
  }

  /**
   * `s.replace(/pat/g, rep)` for a literal pattern: scanning left to right,
   * every non-overlapping occurrence of `pat` is replaced by `rep`.
   */
  function ReplaceAll(s: string, pat: string, rep: string): (r: string)
    requires |pat| > 0
    ensures !Contains(s, pat) ==> r == s
    decreases |s|
  {
    if |s| == 0 then ""
    else if StartsWith(s, pat) then rep + ReplaceAll(s[|pat|..], pat, rep)
    else [s[0]] + ReplaceAll(s[1..], pat, rep)
  }

  /**
   * A prefix of a replacement result that contains none of the replacement
   * character was copied unchanged from the input.
   */
  lemma {:induction false} KeptPrefix(t: string, pat: string, c: char, q: string)
    requires |pat| > 0
    requires forall i :: 0 <= i < |q| ==> q[i] != c
    ensures StartsWith(ReplaceAll(t, pat, [c]), q) ==> StartsWith(t, q)
    decreases |t|
  {
    if |q| == 0 || |t| == 0 {
    } else if StartsWith(t, pat) {
      assert ReplaceAll(t, pat, [c])[0] == c;
    } else {
      var tail := ReplaceAll(t[1..], pat, [c]);
      assert ReplaceAll(t, pat, [c]) == [t[0]] + tail;
      KeptPrefix(t[1..], pat, c, q[1..]);
      if StartsWith(ReplaceAll(t, pat, [c]), q) {
        assert tail[..|q| - 1] == ReplaceAll(t, pat, [c])[1..|q|];
        assert t[..|q|] == [t[0]] + t[1..][..|q| - 1];
      }
    }
  }

  /** Putting the same character in front of two texts keeps "starts with the rest of `pat`" as "starts with `pat`". */
  lemma ConsPrefix(a: char, t: string, u: string, pat: string)
    requires |pat| > 0
    requires StartsWith(t, pat[1..]) ==> StartsWith(u, pat[1..])
    ensures StartsWith([a] + t, pat) ==> StartsWith([a] + u, pat)
  {
    var q := pat[1..];
    if StartsWith([a] + t, pat) {
      assert ([a] + t)[..|pat|] == [a] + t[..|q|];
      assert pat == [pat[0]] + q;
      assert StartsWith(t, q);
      assert ([a] + u)[..|pat|] == [a] + u[..|q|];
    }
  }

  /** A character that does not open `pat` cannot start an occurrence of it after a kept character. */
  lemma ConsKeepsNoMatch(s: string, pat: string, c: char)
    requires |pat| > 0 && |s| > 0
    requires c !in pat
    ensures StartsWith([s[0]] + ReplaceAll(s[1..], pat, [c]), pat) ==> StartsWith(s, pat)
  {
    TailAvoids(pat, c);
    KeptPrefix(s[1..], pat, c, pat[1..]);
    ConsPrefix(s[0], ReplaceAll(s[1..], pat, [c]), s[1..], pat);
    HeadTail(s);
  }

  /** A character absent from `pat` is absent from its tail. */
  lemma TailAvoids(pat: string, c: char)
    requires |pat| > 0 && c !in pat
    ensures forall i :: 0 <= i < |pat[1..]| ==> pat[1..][i] != c
  {
    forall i | 0 <= i < |pat[1..]|
      ensures pat[1..][i] != c
    {
      assert pat[1..][i] == pat[i + 1];
    }
  }

  /** A non-empty sequence is its head followed by its tail. */
  lemma HeadTail<T>(s: seq<T>)
    requires |s| > 0
    ensures [s[0]] + s[1..] == s
  {
  }

  /**
   * Replacing every occurrence of `pat` by a single character that does not
   * occur in `pat` leaves no occurrence of `pat` behind.
   */
  lemma {:induction false} ReplaceAllRemovesPattern(s: string, pat: string, c: char)
    requires |pat| > 0
    requires c !in pat
    ensures !Contains(ReplaceAll(s, pat, [c]), pat)
    decreases |s|
  {
    var r := ReplaceAll(s, pat, [c]);
    if |s| == 0 {
    } else if StartsWith(s, pat) {
      var tail := ReplaceAll(s[|pat|..], pat, [c]);
      assert r == [c] + tail;
      ReplaceAllRemovesPattern(s[|pat|..], pat, c);
      assert r[1..] == tail;
      assert r[0] == c && pat[0] != c;
    } else {
      var tail := ReplaceAll(s[1..], pat, [c]);
      assert r == [s[0]] + tail;
      ReplaceAllRemovesPattern(s[1..], pat, c);
      assert r[1..] == tail;
      ConsKeepsNoMatch(s, pat, c);
    }
  }

  /** `parts.join(sep)` over strings. */
  function Join(parts: seq<string>, sep: string): string
  {
    if |parts| == 0 then ""
    else if |parts| == 1 then parts[0]
    else parts[0] + sep + Join(parts[1..], sep)
  }

  /** The digit character of `d`. */
  function DigitChar(d: nat): (c: char)
    requires d < 10
    ensures IsDigit(c) && c as int - '0' as int == d
  {
    (('0' as int) + d) as char
  }

  /** A text made of `\d` characters only. */
  predicate AllDigits(s: string) {
    forall i :: 0 <= i < |s| ==> IsDigit(s[i])
  }

  /** The number a text of decimal digits denotes, read left to right. */
  function DecimalValue(s: string): nat
    requires AllDigits(s)
  {
    if |s| == 0 then 0 else 10 * DecimalValue(s[..|s| - 1]) + (s[|s| - 1] as int - '0' as int)
  }

  /**
   * The decimal rendering of a count inside a template literal: digits
   * only, without a leading zero unless the count is zero.
   */
  function NatToString(n: nat): (r: string)
    ensures |r| > 0 && AllDigits(r)
    ensures |r| > 1 ==> r[0] != '0'
    ensures n == 0 <==> r == "0"
  {
    if n < 10 then [DigitChar(n)] else NatToString(n / 10) + [DigitChar(n % 10)]
  }

  /** Reading the rendering back gives the count. */
  lemma {:induction false} NatToStringValue(n: nat)
    ensures DecimalValue(NatToString(n)) == n
  {
    var r := NatToString(n);
    if n >= 10 {
      var front := NatToString(n / 10);
      assert r[..|r| - 1] == front;
      NatToStringValue(n / 10);
    }
  }

  /** Different counts render differently. */
  lemma NatToStringInjective(a: nat, b: nat)
    ensures NatToString(a) == NatToString(b) ==> a == b
  {
    NatToStringValue(a);
    NatToStringValue(b);
  }
}

=== FILE: json_clean.dfy ===
/**
 * The text repairs applied to an embedded JSON block before it is parsed:
 * trailing-comma removal (`cleanJson` / `cleanObjStr`) and the worker's
 * entity and escape decoding (`safeJsonParse`). `JSON.parse` itself is an
 * abstract function that yields `None` when it throws.
 */
module JsonClean {
  import opened Options
  import opened JsString

  /** Number of whitespace characters at the start of `t`. */
  function LeadingSpaces(t: string): (n: nat)
    ensures n <= |t|
    ensures forall k :: 0 <= k < n ==> IsSpace(t[k])
    ensures n < |t| ==> !IsSpace(t[n])
  {
    if |t| > 0 && IsSpace(t[0]) then 1 + LeadingSpaces(t[1..]) else 0
  }

  /** `t` is a run of whitespace followed by `closer`: what `\s*}` (or `\s*]`) needs after a comma. */
  predicate CloserAfterSpaces(t: string, closer: char) {
    LeadingSpaces(t) < |t| && t[LeadingSpaces(t)] == closer
  }

  /**
   * `s.replace(/,\s*X/g, 'X')` for the closing bracket X: scanning left to
   * right, a comma followed by whitespace and then X is replaced by X.
   */
  function StripBeforeCloser(s: string, closer: char): string
    decreases |s|
  {
    if |s| == 0 then ""
    else if s[0] == ',' && CloserAfterSpaces(s[1..], closer) then
      [closer] + StripBeforeCloser(s[2 + LeadingSpaces(s[1..])..], closer)
    else
      [s[0]] + StripBeforeCloser(s[1..], closer)
  }

  /** `cleanJson(str)` / `cleanObjStr(s)`: trailing commas before `}`, then before `]`. */
  function CleanObjStr(s: string): string {
    StripBeforeCloser(StripBeforeCloser(s, '}'), ']')
  }

  predicate Droppable(c: char) {
    c == ',' || IsSpace(c)
  }

  /**
   * `r` is `s` with some characters deleted, each a comma or whitespace
   * followed in `s` by whitespace and then `closer`; the rest kept in order.
   */
  predicate DropsBeforeCloser(r: string, s: string, closer: char)
    decreases |s|
  {
    if |s| == 0 then |r| == 0
    else
      || (Droppable(s[0]) && CloserAfterSpaces(s[1..], closer) && DropsBeforeCloser(r, s[1..], closer))
      || (|r| > 0 && r[0] == s[0] && DropsBeforeCloser(r[1..], s[1..], closer))
  }

  /** `r` is `s` with some commas and whitespace deleted; every other character is kept, in order. */
  predicate DropsOnly(r: string, s: string)
    decreases |s|
  {
    if |s| == 0 then |r| == 0
    else
      || (Droppable(s[0]) && DropsOnly(r, s[1..]))
      || (|r| > 0 && r[0] == s[0] && DropsOnly(r[1..], s[1..]))
  }

  /** Dropping the whitespace run `s[i..j]` in front of the closer at `s[j]`. */
  lemma {:induction false} DropSpaces(r: string, s: string, i: nat, j: nat, closer: char)
    requires i <= j < |s| && s[j] == closer && !IsSpace(closer)
    requires forall k :: i <= k < j ==> IsSpace(s[k])
    requires DropsBeforeCloser(r, s[j..], closer)
    ensures DropsBeforeCloser(r, s[i..], closer)
    decreases j - i
  {
    if i < j {
      DropSpaces(r, s, i + 1, j, closer);
      LeadingSpacesRun(s, i + 1, j);
      assert s[i..][1..] == s[i + 1..];
    }
  }

  /** The whitespace count of `s[i..]` is the length of the run that ends at the first non-space `s[j]`. */
  lemma {:induction false} LeadingSpacesRun(s: string, i: nat, j: nat)
    requires i <= j < |s| && !IsSpace(s[j])
    requires forall k :: i <= k < j ==> IsSpace(s[k])
    ensures LeadingSpaces(s[i..]) == j - i
    decreases j - i
  {
    if i < j {
      LeadingSpacesRun(s, i + 1, j);
      assert s[i..][1..] == s[i + 1..];
    }
  }

  /** One stripping pass deletes only commas and whitespace that sit just before the closer. */
  lemma {:induction false} StripDropsBeforeCloser(s: string, closer: char)
    requires !IsSpace(closer)
    ensures DropsBeforeCloser(StripBeforeCloser(s, closer), s, closer)
    decreases |s|
  {
    if |s| == 0 {
    } else if s[0] == ',' && CloserAfterSpaces(s[1..], closer) {
      StripDropsBeforeCloser(s[2 + LeadingSpaces(s[1..])..], closer);
      StripCommaStep(s, closer);
    } else {
      StripDropsBeforeCloser(s[1..], closer);
      StripKeepStep(s, closer);
    }
  }

  /** The step of a stripping pass that replaces a comma, a whitespace run and the closer by the closer. */
  lemma StripCommaStep(s: string, closer: char)
    requires |s| > 0 && s[0] == ',' && CloserAfterSpaces(s[1..], closer) && !IsSpace(closer)
    requires DropsBeforeCloser(StripBeforeCloser(s[2 + LeadingSpaces(s[1..])..], closer), s[2 + LeadingSpaces(s[1..])..], closer)
    ensures DropsBeforeCloser(StripBeforeCloser(s, closer), s, closer)
  {
    var j := 1 + LeadingSpaces(s[1..]);
    var stripped := StripBeforeCloser(s[j + 1..], closer);
    assert s[j] == closer;
    assert forall k :: 1 <= k < j ==> IsSpace(s[k]) by {
      forall k | 1 <= k < j ensures IsSpace(s[k]) {
        assert s[k] == s[1..][k - 1];
      }
    }
    KeepFirst(s[j..], stripped, s[j + 1..], closer);
    DropSpaces([closer] + stripped, s, 1, j, closer);
    assert StripBeforeCloser(s, closer) == [closer] + stripped;
  }

  /** Keeping the first character of `t` in front of a stripped rest of `t`. */
  lemma KeepFirst(t: string, r: string, s: string, closer: char)
    requires |t| > 0 && t[1..] == s && DropsBeforeCloser(r, s, closer)
    ensures DropsBeforeCloser([t[0]] + r, t, closer)
  {
    assert ([t[0]] + r)[1..] == r;
  }

  /** The step of a stripping pass that keeps the first character. */
  lemma StripKeepStep(s: string, closer: char)
    requires |s| > 0 && !(s[0] == ',' && CloserAfterSpaces(s[1..], closer))
    requires DropsBeforeCloser(StripBeforeCloser(s[1..], closer), s[1..], closer)
    ensures DropsBeforeCloser(StripBeforeCloser(s, closer), s, closer)
  {
    var r := StripBeforeCloser(s, closer);
    assert r[0] == s[0] && r[1..] == StripBeforeCloser(s[1..], closer);
  }

  /** Deletions before a closer are deletions of commas and whitespace. */
  lemma {:induction false} BeforeCloserIsDropsOnly(r: string, s: string, closer: char)
    requires DropsBeforeCloser(r, s, closer)
    ensures DropsOnly(r, s)
    decreases |s|
  {
    if |s| > 0 {
      if Droppable(s[0]) && CloserAfterSpaces(s[1..], closer) && DropsBeforeCloser(r, s[1..], closer) {
        BeforeCloserIsDropsOnly(r, s[1..], closer);
      } else {
        BeforeCloserIsDropsOnly(r[1..], s[1..], closer);
      }
    }
  }

  /** Deleting commas and whitespace twice is deleting commas and whitespace once. */
  lemma {:induction false} DropsOnlyTransitive(a: string, b: string, c: string)
    requires DropsOnly(a, b) && DropsOnly(b, c)
    ensures DropsOnly(a, c)
    decreases |c|
  {
    if |c| > 0 {
      if Droppable(c[0]) && DropsOnly(b, c[1..]) {
        DropsOnlyTransitive(a, b, c[1..]);
      } else {
        assert |b| > 0 && b[0] == c[0] && DropsOnly(b[1..], c[1..]);
        if Droppable(b[0]) && DropsOnly(a, b[1..]) {
          DropsOnlyTransitive(a, b[1..], c[1..]);
        } else {
          DropsOnlyTransitive(a[1..], b[1..], c[1..]);
        }
      }
    }
  }

  /**
   * `cleanObjStr` only deletes commas and whitespace: every other character
   * of the block is kept, in its original order.
   */
  lemma CleanObjStrDropsOnly(s: string)
    ensures DropsOnly(CleanObjStr(s), s)
  {
    var mid := StripBeforeCloser(s, '}');
    StripDropsBeforeCloser(s, '}');
    BeforeCloserIsDropsOnly(mid, s, '}');
    StripDropsBeforeCloser(mid, ']');
    BeforeCloserIsDropsOnly(CleanObjStr(s), mid, ']');
    DropsOnlyTransitive(CleanObjStr(s), mid, s);
  }

  /**
   * `r` is `s` with some characters deleted, each a comma or whitespace
   * followed in `s` by whitespace and then `}` or `]`; the rest kept in order.
   */
  predicate DropsBeforeBrackets(r: string, s: string)
    decreases |s|
  {
    if |s| == 0 then |r| == 0
    else
      || (Droppable(s[0]) && (CloserAfterSpaces(s[1..], '}') || CloserAfterSpaces(s[1..], ']'))
          && DropsBeforeBrackets(r, s[1..]))
      || (|r| > 0 && r[0] == s[0] && DropsBeforeBrackets(r[1..], s[1..]))
  }

  /** Whitespace in front of a closer: one character less of it is still in front of the closer. */
  lemma SpacesThenCloser(m: string, closer: char)
    requires |m| > 0 && IsSpace(m[0]) && CloserAfterSpaces(m, closer)
    ensures CloserAfterSpaces(m[1..], closer)
  {
    assert LeadingSpaces(m) == 1 + LeadingSpaces(m[1..]);
  }

  /**
   * A `]` reached through whitespace after the first pass was reached the
   * same way before it: the first pass deletes only in front of a `}`,
   * and that `}` stays.
   */
  lemma {:induction false} CloserSurvives(m: string, t: string)
    requires DropsBeforeCloser(m, t, '}') && CloserAfterSpaces(m, ']')
    ensures CloserAfterSpaces(t, ']')
    decreases |t|
  {
    if |t| > 0 {
      if Droppable(t[0]) && CloserAfterSpaces(t[1..], '}') && DropsBeforeCloser(m, t[1..], '}') {
        CloserSurvives(m, t[1..]);
      } else if IsSpace(t[0]) {
        SpacesThenCloser(m, ']');
        CloserSurvives(m[1..], t[1..]);
        assert LeadingSpaces(t) == 1 + LeadingSpaces(t[1..]);
      } else {
        assert LeadingSpaces(m) == 0;
      }
    }
  }

  /** The two passes together delete only commas and whitespace in front of `}` or `]`. */
  lemma {:induction false} PassesCompose(r: string, mid: string, s: string)
    requires DropsBeforeCloser(mid, s, '}') && DropsBeforeCloser(r, mid, ']')
    ensures DropsBeforeBrackets(r, s)
    decreases |s|
  {
    if |s| > 0 {
      if Droppable(s[0]) && CloserAfterSpaces(s[1..], '}') && DropsBeforeCloser(mid, s[1..], '}') {
        PassesCompose(r, mid, s[1..]);
      } else if Droppable(mid[0]) && CloserAfterSpaces(mid[1..], ']') && DropsBeforeCloser(r, mid[1..], ']') {
        PassesCompose(r, mid[1..], s[1..]);
        CloserSurvives(mid[1..], s[1..]);
      } else {
        PassesCompose(r[1..], mid[1..], s[1..]);
      }
    }
  }

  /**
   * `cleanObjStr` deletes only trailing commas and the whitespace around
   * them: every deleted character is a comma or whitespace that the
   * original block follows with whitespace and then `}` or `]`.
   */
  lemma CleanObjStrDropsBeforeBrackets(s: string)
    ensures DropsBeforeBrackets(CleanObjStr(s), s)
  {
    var mid := StripBeforeCloser(s, '}');
    StripDropsBeforeCloser(s, '}');
    StripDropsBeforeCloser(mid, ']');
    PassesCompose(CleanObjStr(s), mid, s);
  }

  /** A block without commas is left as it is. */
  lemma {:induction false} StripWithoutCommas(s: string, closer: char)
    requires ',' !in s
    ensures StripBeforeCloser(s, closer) == s
    decreases |s|
  {
    if |s| > 0 {
      assert ',' !in s[1..];
      StripWithoutCommas(s[1..], closer);
    }
  }

  lemma CleanObjStrWithoutCommas(s: string)
    requires ',' !in s
    ensures CleanObjStr(s) == s
  {
    StripWithoutCommas(s, '}');
    StripWithoutCommas(s, ']');
  }

  /** The trailing comma of an array is removed, the whitespace after it too. */
  lemma CleanObjStrExample()
    ensures CleanObjStr("[1, ]") == "[1]"
  {
    assert LeadingSpaces(" ]") == 1;
    // The first pass looks for `}` and changes nothing.
    assert StripBeforeCloser("]", '}') == "]";
    assert StripBeforeCloser(" ]", '}') == " ]";
    assert !CloserAfterSpaces(" ]", '}');
    assert StripBeforeCloser(", ]", '}') == ", ]";
    assert StripBeforeCloser("1, ]", '}') == "1, ]";
    assert StripBeforeCloser("[1, ]", '}') == "[1, ]";
    // The second pass removes ", " before `]`.
    assert StripBeforeCloser("", ']') == "";
    assert StripBeforeCloser(", ]", ']') == "]";
    assert StripBeforeCloser("1, ]", ']') == "1]";
    assert StripBeforeCloser("[1, ]", ']') == "[1]";
  }

  // ---------------------------------------------------------------------
  // safeJsonParse
  // ---------------------------------------------------------------------

  /** `&quot;` -> `"`, then `\'` -> `'`, then `\"` -> `"`, in that order. */
  function DecodeEscapes(s: string): string {
    ReplaceAll(ReplaceAll(ReplaceAll(s, "&quot;", "\""), "\\'", "'"), "\\\"", "\"")
  }

  /** After the first replacement no `&quot;` is left to decode. */
  lemma NoEntityAfterFirstPass(s: string)
    ensures !Contains(ReplaceAll(s, "&quot;", "\""), "&quot;")
  {
    ReplaceAllRemovesPattern(s, "&quot;", '"');
  }

  /**
   * `safeJsonParse(str)`: the decoded text handed to `JSON.parse`; `None`
   * (the source's `null`) exactly when parsing throws.
   */
  function SafeJsonParse<T>(s: string, parse: string -> Option<T>): Option<T>
  {
    parse(DecodeEscapes(s))
  }
}

=== FILE: options.dfy ===
/** An optional value: `None` stands for a JavaScript `null` or `undefined`. */
module Options {

  datatype Option<+T> = None | Some(value: T) {

    /** The wrapped value, or `default` when there is none. */
    function GetOr(default: T): T {
      match this
      case Some(v) => v
      case None => default
    }
  }
}

=== FILE: price_extract.dfy ===
/**
 * The three price extractors. Each tries an ordered list of matchers and
 * returns the first acceptable hit, or "N/A" when none is acceptable:
 *  - the React app's DOM extractor (`extractPrice` over a parsed document),
 *  - the worker's regular-expression extractor,
 *  - the console script's regular-expression extractor.
 * Selector and regular-expression matching are abstract inputs.
 */
module PriceExtract {
  import opened Options
  import opened JsString
  import opened Types

  /** No candidate before position `n` is accepted. */
  ghost predicate NoneBefore<T>(cands: seq<T>, accept: T -> Option<string>, n: nat)
    requires n <= |cands|
  {
    forall j :: 0 <= j < n ==> accept(cands[j]).None?
  }

  /**
   * The first candidate, in order, that `accept` turns into a price;
   * "N/A" when no candidate is accepted.
   */
  function FirstHit<T>(cands: seq<T>, accept: T -> Option<string>): (r: string)
    ensures NoneBefore(cands, accept, |cands|) ==> r == NOT_AVAILABLE
    ensures forall i :: 0 <= i < |cands| && accept(cands[i]).Some? && NoneBefore(cands, accept, i)
                        ==> r == accept(cands[i]).value
  {
    if |cands| == 0 then NOT_AVAILABLE
    else match accept(cands[0])
      case Some(p) => p
      case None =>
        var r := FirstHit(cands[1..], accept);
        assert forall i :: 1 <= i < |cands| ==> cands[1..][i - 1] == cands[i];
        assert forall i :: 1 <= i <= |cands| && NoneBefore(cands, accept, i) ==> NoneBefore(cands[1..], accept, i - 1);
        r
  }

  /** Candidates the accepted one precedes do not matter. */
  lemma {:induction false} FirstHitSkip<T>(a: seq<T>, b: seq<T>, accept: T -> Option<string>)
    requires NoneBefore(a, accept, |a|)
    ensures FirstHit(a + b, accept) == FirstHit(b, accept)
  {
    var ab := a + b;
    if |a| > 0 {
      assert ab[0] == a[0] && accept(a[0]).None?;
      assert ab[1..] == a[1..] + b;
      assert NoneBefore(a[1..], accept, |a| - 1);
      FirstHitSkip(a[1..], b, accept);
      assert FirstHit(ab, accept) == FirstHit(ab[1..], accept);
    } else {
      assert ab == b;
    }
  }

  // ---------------------------------------------------------------------
  // The React app's DOM extractor
  // ---------------------------------------------------------------------

  /** The CSS selectors tried, most specific first. */
  const DOM_SELECTORS: seq<string> := [
    "#corePriceDisplay_desktop_feature_div .a-price .a-offscreen",
    "#corePriceDisplay_desktop_feature_div .aok-offscreen",
    "span.a-price span.a-offscreen",
    "span.a-price span.aok-offscreen",
    ".aok-offscreen",
    "#priceblock_ourprice",
    "#priceblock_dealprice",
    "span.a-price-whole",
    ".apexPriceToPay .a-offscreen",
    "div[id^=\"corePrice\"] span.a-offscreen",
    "div[id^=\"corePrice\"] span.aok-offscreen"
  ]

  /**
   * A parsed document as the extractor sees it: for a selector, the text
   * content of every matching element in document order.
   */
  type Dom = string -> seq<string>

  /** An element's text is a price when, trimmed, it is non-empty and holds a digit. */
  function AcceptText(text: string): Option<string> {
    var t := Trim(text);
    if |t| > 0 && HasDigit(t) then Some(t) else None
  }

  /** Element texts of every selector, selector by selector, each in document order. */
  function Candidates(selectors: seq<string>, dom: Dom): seq<string> {
    if |selectors| == 0 then [] else dom(selectors[0]) + Candidates(selectors[1..], dom)
  }

  /** No sentinel price string holds a digit. */
  lemma SentinelsHaveNoDigit()
    ensures !HasDigit(NOT_AVAILABLE) && !HasDigit(REQUIRES_PAGE_VISIT) && !HasDigit(REQUIRES_FETCH)
    ensures !HasDigit(UNAVAILABLE) && !HasDigit(FETCH_FAILED)
  {
    forall k | 0 <= k < |NOT_AVAILABLE| ensures !IsDigit(NOT_AVAILABLE[k]) {}
    forall k | 0 <= k < |REQUIRES_PAGE_VISIT| ensures !IsDigit(REQUIRES_PAGE_VISIT[k]) {}
    forall k | 0 <= k < |REQUIRES_FETCH| ensures !IsDigit(REQUIRES_FETCH[k]) {}
    forall k | 0 <= k < |UNAVAILABLE| ensures !IsDigit(UNAVAILABLE[k]) {}
    forall k | 0 <= k < |FETCH_FAILED| ensures !IsDigit(FETCH_FAILED[k]) {}
  }

  /**
   * `extractPrice(doc)`: the trimmed text of the first acceptable element,
   * so a price with a digit and no surrounding whitespace, or "N/A".
   */
  function ExtractPrice(dom: Dom): (r: string)
    ensures r == NOT_AVAILABLE || IsPriceText(r)
    ensures r != REQUIRES_PAGE_VISIT
  {
    var c := Candidates(DOM_SELECTORS, dom);
    AcceptedTexts(c);
    FirstHitKeeps(c, AcceptText, IsPriceText);
    SentinelsHaveNoDigit();
    FirstHit(c, AcceptText)
  }

  /**
   * Selectors are tried in declared order and the elements of one selector
   * in document order: the element at position `e` under selector `s`
   * supplies the price when its text is acceptable and every element before
   * it (all elements of earlier selectors, the earlier elements of its own)
   * is not.
   */
  lemma DomOrder(selectors: seq<string>, dom: Dom, s: nat, e: nat)
    requires s < |selectors| && e < |dom(selectors[s])|
    requires AcceptText(dom(selectors[s])[e]).Some?
    requires forall s', e' :: 0 <= s' < s && 0 <= e' < |dom(selectors[s'])| ==> AcceptText(dom(selectors[s'])[e']).None?
    requires forall e' :: 0 <= e' < e ==> AcceptText(dom(selectors[s])[e']).None?
    ensures FirstHit(Candidates(selectors, dom), AcceptText) == AcceptText(dom(selectors[s])[e]).value
  {
    forall s', e' | 0 <= s' < s && 0 <= e' < |dom(selectors[..s][s'])|
      ensures AcceptText(dom(selectors[..s][s'])[e']).None?
    {
      assert selectors[..s][s'] == selectors[s'];
    }
    DomOrderFrom(selectors, dom, s, e);
  }

  /** `DomOrder` with the selectors before `s` summarised by `NoneAccepted`. */
  lemma {:induction false} DomOrderFrom(selectors: seq<string>, dom: Dom, s: nat, e: nat)
    requires s < |selectors| && e < |dom(selectors[s])|
    requires AcceptText(dom(selectors[s])[e]).Some?
    requires NoneAccepted(selectors[..s], dom)
    requires NoneBefore(dom(selectors[s]), AcceptText, e)
    ensures FirstHit(Candidates(selectors, dom), AcceptText) == AcceptText(dom(selectors[s])[e]).value
  {
    if s == 0 {
      DomOrderHead(selectors, dom, e);
    } else {
      NoneAcceptedCons(selectors[..s], dom);
      assert selectors[..s][0] == selectors[0];
      assert selectors[..s][1..] == selectors[1..][..s - 1];
      SkipHead(selectors, dom);
      assert selectors[1..][s - 1] == selectors[s];
      DomOrderFrom(selectors[1..], dom, s - 1, e);
    }
  }

  /** The first acceptable element of the first selector supplies the price. */
  lemma DomOrderHead(selectors: seq<string>, dom: Dom, e: nat)
    requires 0 < |selectors| && e < |dom(selectors[0])|
    requires AcceptText(dom(selectors[0])[e]).Some?
    requires NoneBefore(dom(selectors[0]), AcceptText, e)
    ensures FirstHit(Candidates(selectors, dom), AcceptText) == AcceptText(dom(selectors[0])[e]).value
  {
    var head := dom(selectors[0]);
    var c := Candidates(selectors, dom);
    assert c == head + Candidates(selectors[1..], dom);
    assert c[e] == head[e];
    assert forall j :: 0 <= j < e ==> c[j] == head[j];
    assert NoneBefore(c, AcceptText, e);
  }

  /** A first selector with no acceptable element is passed over. */
  lemma SkipHead(selectors: seq<string>, dom: Dom)
    requires 0 < |selectors| && NoneBefore(dom(selectors[0]), AcceptText, |dom(selectors[0])|)
    ensures FirstHit(Candidates(selectors, dom), AcceptText) == FirstHit(Candidates(selectors[1..], dom), AcceptText)
  {
    assert Candidates(selectors, dom) == dom(selectors[0]) + Candidates(selectors[1..], dom);
    FirstHitSkip(dom(selectors[0]), Candidates(selectors[1..], dom), AcceptText);
  }

  /** No element of any selector has an acceptable text. */
  ghost predicate NoneAccepted(selectors: seq<string>, dom: Dom) {
    forall s, e :: 0 <= s < |selectors| && 0 <= e < |dom(selectors[s])| ==> AcceptText(dom(selectors[s])[e]).None?
  }

  /** `NoneAccepted` splits into the first selector and the rest. */
  lemma NoneAcceptedCons(selectors: seq<string>, dom: Dom)
    requires |selectors| > 0
    ensures NoneAccepted(selectors, dom)
            <==> NoneBefore(dom(selectors[0]), AcceptText, |dom(selectors[0])|) && NoneAccepted(selectors[1..], dom)
  {
    forall s | 1 <= s < |selectors| ensures selectors[1..][s - 1] == selectors[s] {}
    if NoneBefore(dom(selectors[0]), AcceptText, |dom(selectors[0])|) && NoneAccepted(selectors[1..], dom) {
      forall s, e | 0 <= s < |selectors| && 0 <= e < |dom(selectors[s])|
        ensures AcceptText(dom(selectors[s])[e]).None?
      {
        if s > 0 {
          assert selectors[1..][s - 1] == selectors[s];
        }
      }
    }
  }

  /** "N/A" comes back exactly when no element of any selector has an acceptable text. */
  lemma {:induction false} DomNotFound(selectors: seq<string>, dom: Dom)
    ensures FirstHit(Candidates(selectors, dom), AcceptText) == NOT_AVAILABLE
            <==> forall s, e :: 0 <= s < |selectors| && 0 <= e < |dom(selectors[s])| ==> AcceptText(dom(selectors[s])[e]).None?
  {
    if |selectors| > 0 {
      var head := dom(selectors[0]);
      var rest := Candidates(selectors[1..], dom);
      var c := Candidates(selectors, dom);
      assert c == head + rest;
      DomNotFound(selectors[1..], dom);
      NoneAcceptedCons(selectors, dom);
      if NoneBefore(head, AcceptText, |head|) {
        FirstHitSkip(head, rest, AcceptText);
      } else {
        var e :| 0 <= e < |head| && AcceptText(head[e]).Some?;
        assert c[e] == head[e];
        AcceptedIsNotNA(c);
        assert !NoneAccepted(selectors, dom);
      }
    }
  }

  /** The first hit is "N/A" or one of the accepted values, so it has every property they share. */
  lemma {:induction false} FirstHitKeeps<T>(cands: seq<T>, accept: T -> Option<string>, P: string -> bool)
    requires forall i :: 0 <= i < |cands| && accept(cands[i]).Some? ==> P(accept(cands[i]).value)
    ensures FirstHit(cands, accept) == NOT_AVAILABLE || P(FirstHit(cands, accept))
  {
    if |cands| > 0 && accept(cands[0]).None? {
      assert forall i :: 1 <= i < |cands| ==> cands[1..][i - 1] == cands[i];
      FirstHitKeeps(cands[1..], accept, P);
    }
  }

  /**
   * When every accepted value holds a digit, the first hit holds a digit,
   * and it is "N/A" exactly when nothing is accepted.
   */
  lemma {:induction false} FirstHitDigits<T>(cands: seq<T>, accept: T -> Option<string>)
    requires forall i :: 0 <= i < |cands| && accept(cands[i]).Some? ==> HasDigit(accept(cands[i]).value)
    ensures FirstHit(cands, accept) == NOT_AVAILABLE || HasDigit(FirstHit(cands, accept))
    ensures FirstHit(cands, accept) == NOT_AVAILABLE <==> NoneBefore(cands, accept, |cands|)
  {
    SentinelsHaveNoDigit();
    if |cands| > 0 && accept(cands[0]).None? {
      assert forall i :: 1 <= i < |cands| ==> cands[1..][i - 1] == cands[i];
      FirstHitDigits(cands[1..], accept);
    }
  }

  /** What an accepted element text looks like. */
  predicate IsPriceText(t: string) {
    |t| > 0 && HasDigit(t) && !IsSpace(t[0]) && !IsSpace(t[|t| - 1])
  }

  /** One accepted text is a price text. */
  lemma AcceptedText(text: string)
    ensures AcceptText(text).Some? ==> IsPriceText(AcceptText(text).value) && HasDigit(AcceptText(text).value)
  {
    var t := Trim(text);
    if |t| > 0 {
      assert !IsSpace(t[0]) && !IsSpace(t[|t| - 1]);
    }
  }

  lemma AcceptedTexts(c: seq<string>)
    ensures forall i :: 0 <= i < |c| && AcceptText(c[i]).Some? ==> IsPriceText(AcceptText(c[i]).value)
    ensures forall i :: 0 <= i < |c| && AcceptText(c[i]).Some? ==> HasDigit(AcceptText(c[i]).value)
  {
    forall i | 0 <= i < |c|
      ensures AcceptText(c[i]).Some? ==> IsPriceText(AcceptText(c[i]).value) && HasDigit(AcceptText(c[i]).value)
    {
      AcceptedText(c[i]);
    }
  }

  /** An accepted text has a digit, so it is never "N/A". */
  lemma AcceptedIsNotNA(c: seq<string>)
    ensures FirstHit(c, AcceptText) == NOT_AVAILABLE ==> NoneBefore(c, AcceptText, |c|)
  {
    AcceptedTexts(c);
    FirstHitDigits(c, AcceptText);
  }

  // ---------------------------------------------------------------------
  // The worker's extractor
  // ---------------------------------------------------------------------

  /**
   * What a price pattern captured: the whole and fraction parts of the
   * first pattern (a three-element match), or the single group of the others.
   */
  datatype Capture = WholeFraction(whole: string, fraction: string) | Single(group: string)

  /** A price pattern: its captures on the first match, `None` when it does not match. */
  type WorkerPattern = string -> Option<Capture>

  /** A two-group match joins whole and fraction with "."; a one-group match is trimmed. */
  function RenderCapture(c: Capture): string {
    match c
    case WholeFraction(w, f) => w + "." + f
    case Single(g) => Trim(g)
  }

  /** The worker's `extractPrice(text)`: the first pattern that matches decides. */
  function WorkerExtractPrice(patterns: seq<WorkerPattern>, html: string): (r: string)
    ensures (forall i :: 0 <= i < |patterns| ==> patterns[i](html).None?) ==> r == NOT_AVAILABLE
    ensures forall i :: 0 <= i < |patterns| && patterns[i](html).Some?
                        && (forall j :: 0 <= j < i ==> patterns[j](html).None?)
                        ==> r == RenderCapture(patterns[i](html).value)
  {
    FirstHit(patterns, (p: WorkerPattern) => match p(html) case Some(c) => Some(RenderCapture(c)) case None => None)
  }

  // ---------------------------------------------------------------------
  // The console script's extractor
  // ---------------------------------------------------------------------

  /** A console-script price pattern: its first group on a match, `None` otherwise. */
  type ScriptPattern = string -> Option<string>

  /** `match && match[1]`, trimmed, accepted only when it holds a digit. */
  function AcceptGroup(m: Option<string>): Option<string> {
    match m
    case Some(g) => if |g| > 0 && HasDigit(Trim(g)) then Some(Trim(g)) else None
    case None => None
  }

  /**
   * The console script's `extractPrice(text)`: a matching pattern whose
   * group has no digit does not stop the search, the next pattern is tried,
   * and "N/A" comes back exactly when no pattern is accepted.
   */
  function ScriptExtractPrice(patterns: seq<ScriptPattern>, html: string): (r: string)
    ensures r == NOT_AVAILABLE || HasDigit(r)
    ensures r == NOT_AVAILABLE <==> forall i :: 0 <= i < |patterns| ==> AcceptGroup(patterns[i](html)).None?
    ensures forall i :: 0 <= i < |patterns| && AcceptGroup(patterns[i](html)).Some?
                        && (forall j :: 0 <= j < i ==> AcceptGroup(patterns[j](html)).None?)
                        ==> r == AcceptGroup(patterns[i](html)).value
  {
    var accept := (p: ScriptPattern) => AcceptGroup(p(html));
    forall i | 0 <= i < |patterns| && accept(patterns[i]).Some?
      ensures HasDigit(accept(patterns[i]).value)
    {
      assert accept(patterns[i]) == AcceptGroup(patterns[i](html));
    }
    assert forall i :: 0 <= i < |patterns| ==> accept(patterns[i]) == AcceptGroup(patterns[i](html));
    FirstHitDigits(patterns, accept);
    FirstHit(patterns, accept)
  }
}

=== FILE: search.dfy ===
/** Linear searches in declared order, as `Array.prototype.find` and `for … break` do them. */
module Search {
  import opened Options

  /** Position of the first element satisfying `p`, or the length when none does. */
  function FirstWhere<T>(s: seq<T>, p: T -> bool): (i: nat)
    ensures i <= |s|
    ensures forall j :: 0 <= j < i ==> !p(s[j])
    ensures i < |s| ==> p(s[i])
  {
    if |s| == 0 then 0
    else if p(s[0]) then 0
    else
      var i := FirstWhere(s[1..], p);
      assert forall j :: 1 <= j < i + 1 ==> s[j] == s[1..][j - 1];
      1 + i
  }

  /** The first element satisfying `p`, if any. */
  function Find<T>(s: seq<T>, p: T -> bool): (r: Option<T>)
    ensures r.None? <==> forall j :: 0 <= j < |s| ==> !p(s[j])
    ensures r.Some? ==> p(r.value)
    ensures r.Some? ==> exists i :: 0 <= i < |s| && s[i] == r.value && forall j :: 0 <= j < i ==> !p(s[j])
  {
    var i := FirstWhere(s, p);
    if i < |s| then Some(s[i]) else None
  }

  /** The first element `f` maps to a value, mapped; `None` when `f` maps none. */
  function FirstSome<T, U>(s: seq<T>, f: T -> Option<U>): (r: Option<U>)
    ensures r.None? <==> forall j :: 0 <= j < |s| ==> f(s[j]).None?
    ensures forall i :: 0 <= i < |s| && f(s[i]).Some? && (forall j :: 0 <= j < i ==> f(s[j]).None?)
                        ==> r == f(s[i])
  {
    if |s| == 0 then None
    else if f(s[0]).Some? then f(s[0])
    else
      var r := FirstSome(s[1..], f);
      assert forall j :: 1 <= j < |s| ==> s[j] == s[1..][j - 1];
      r
  }
}

=== FILE: twister.dfy ===
/**
 * The "Twister Plus" variation shape: `sortedDimValuesForAllDims`, an object
 * from dimension name to its list of value records. A first pass records the
 * display text of each dimension's `SELECTED` record (the baseline); a second
 * pass walks every record of every dimension and emits one variant per record
 * whose `defaultAsin` is truthy and not seen before, changing only that
 * record's dimension in the baseline.
 */
module Twister {
  import opened Options
  import opened JsString
  import opened JsObject
  import opened Types
  import opened Search

  /** One entry of a dimension's value list; absent fields are `None`. */
  datatype ValueRecord = ValueRecord(
    displayText: Option<string>,
    state: Option<string>,
    defaultAsin: Option<string>)

  /** `sortedDimValuesForAllDims`: dimension name -> its value records. */
  type TwisterData = Obj<seq<ValueRecord>>

  /** `v.dimensionValueState === 'SELECTED'` */
  predicate IsSelected(v: ValueRecord) {
    v.state == Some("SELECTED")
  }

  /** `values.find(v => v.dimensionValueState === 'SELECTED')` */
  function FindSelected(vals: seq<ValueRecord>): Option<ValueRecord> {
    Find(vals, IsSelected)
  }

  /** The first pass for one dimension: assign the selected display text, if any record is selected. */
  function SelectionCell(): (seq<ValueRecord>, nat) -> Option<Option<string>> {
    (vals: seq<ValueRecord>, d: nat) =>
      match FindSelected(vals)
      case Some(sel) => Some(sel.displayText)
      case None => None
  }

  /** `selectedValues` after the first pass. */
  function Baseline(data: TwisterData): Obj<Option<string>> {
    AssignEach(data, SelectionCell(), |data|)
  }

  /**
   * The baseline holds, for each dimension with a `SELECTED` record, that
   * record's display text, in the data's key order; a dimension without
   * one, and any other name, has no entry.
   */
  lemma BaselineMeaning(data: TwisterData)
    ensures forall d :: 0 <= d < |data| && FindSelected(data[d].1).Some? ==>
      Get(Baseline(data), data[d].0) == Some(FindSelected(data[d].1).value.displayText)
    ensures forall d :: 0 <= d < |data| && FindSelected(data[d].1).None? ==>
      Get(Baseline(data), data[d].0) == None
    ensures forall j :: j !in Keys(data) ==> Get(Baseline(data), j) == None
    ensures Keys(Baseline(data)) == AssignedKeys(data, SelectionCell(), |data|)
  {
    assert data[..|data|] == data;
    AssignEachValues(data, SelectionCell(), |data|);
  }

  // ---------------------------------------------------------------------
  // The second pass
  // ---------------------------------------------------------------------

  /** `v.defaultAsin` as a string ("" when absent). */
  function Asin(v: ValueRecord): string {
    v.defaultAsin.GetOr("")
  }

  /** `v.defaultAsin` is truthy. */
  predicate HasAsin(v: ValueRecord) {
    |Asin(v)| > 0
  }

  /** Every (dimension, record) pair in the order the second pass visits them. */
  function Pairs(data: seq<(string, seq<ValueRecord>)>): (ps: seq<(string, ValueRecord)>)
  {
    if |data| == 0 then []
    else seq(|data[0].1|, k requires 0 <= k < |data[0].1| => (data[0].0, data[0].1[k])) + Pairs(data[1..])
  }

  /** The second pass visits exactly the records of the data, each paired with its own dimension. */
  lemma {:induction false} PairsMeaning(data: seq<(string, seq<ValueRecord>)>, p: (string, ValueRecord))
    ensures p in Pairs(data) <==> exists d :: 0 <= d < |data| && data[d].0 == p.0 && p.1 in data[d].1
  {
    if |data| > 0 {
      var head := seq(|data[0].1|, k requires 0 <= k < |data[0].1| => (data[0].0, data[0].1[k]));
      PairsMeaning(data[1..], p);
      assert Pairs(data) == head + Pairs(data[1..]);
      if p in head {
        var k :| 0 <= k < |head| && head[k] == p;
        assert data[0].1[k] == p.1;
      }
      if p.0 == data[0].0 && p.1 in data[0].1 {
        var k :| 0 <= k < |data[0].1| && data[0].1[k] == p.1;
        assert head[k] == p;
      }
      if exists d :: 1 <= d < |data| && data[d].0 == p.0 && p.1 in data[d].1 {
        var d :| 1 <= d < |data| && data[d].0 == p.0 && p.1 in data[d].1;
        assert data[1..][d - 1] == data[d];
      }
      if exists d :: 0 <= d < |data[1..]| && data[1..][d].0 == p.0 && p.1 in data[1..][d].1 {
        var d :| 0 <= d < |data[1..]| && data[1..][d].0 == p.0 && p.1 in data[1..][d].1;
        assert data[1..][d] == data[d + 1];
      }
    }
  }

  /**
   * The pairs the second pass turns into variants: those whose record has a
   * truthy `defaultAsin` not yet in `seen`; each kept ASIN joins `seen`.
   */
  function Dedup(pairs: seq<(string, ValueRecord)>, seen: set<string>): seq<(string, ValueRecord)> {
    if |pairs| == 0 then []
    else if HasAsin(pairs[0].1) && Asin(pairs[0].1) !in seen then
      [pairs[0]] + Dedup(pairs[1..], seen + {Asin(pairs[0].1)})
    else Dedup(pairs[1..], seen)
  }

  /** Position of the first pair whose record carries ASIN `a`, or the length when none does. */
  function FirstIndex(pairs: seq<(string, ValueRecord)>, a: string): (i: nat)
    ensures i <= |pairs|
    ensures i < |pairs| ==> Asin(pairs[i].1) == a
    ensures forall j :: 0 <= j < i ==> Asin(pairs[j].1) != a
  {
    FirstWhere(pairs, (p: (string, ValueRecord)) => Asin(p.1) == a)
  }

  /** Past a first pair without ASIN `b`, the first position of `b` is one more than in the rest. */
  lemma FirstIndexShift(pairs: seq<(string, ValueRecord)>, b: string)
    requires |pairs| > 0 && Asin(pairs[0].1) != b
    ensures FirstIndex(pairs, b) == 1 + FirstIndex(pairs[1..], b)
  {
    var j := FirstIndex(pairs[1..], b);
    assert forall k :: 1 <= k <= j ==> pairs[k] == pairs[1..][k - 1];
  }

  /** Every kept pair carries a truthy ASIN that was not in `seen`. */
  lemma {:induction false} DedupFresh(pairs: seq<(string, ValueRecord)>, seen: set<string>)
    ensures forall i :: 0 <= i < |Dedup(pairs, seen)| ==>
      HasAsin(Dedup(pairs, seen)[i].1) && Asin(Dedup(pairs, seen)[i].1) !in seen
  {
    if |pairs| > 0 {
      var a := Asin(pairs[0].1);
      if HasAsin(pairs[0].1) && a !in seen {
        DedupFresh(pairs[1..], seen + {a});
        var t := Dedup(pairs[1..], seen + {a});
        assert Dedup(pairs, seen) == [pairs[0]] + t;
      } else {
        DedupFresh(pairs[1..], seen);
      }
    }
  }

  /** Each kept pair is the first pair carrying its ASIN. */
  lemma {:induction false} DedupFirst(pairs: seq<(string, ValueRecord)>, seen: set<string>)
    ensures forall i :: 0 <= i < |Dedup(pairs, seen)| ==>
      var b := Asin(Dedup(pairs, seen)[i].1);
      FirstIndex(pairs, b) < |pairs| && Dedup(pairs, seen)[i] == pairs[FirstIndex(pairs, b)]
  {
    if |pairs| > 0 {
      var a := Asin(pairs[0].1);
      var rest := pairs[1..];
      var r := Dedup(pairs, seen);
      var seen' := if HasAsin(pairs[0].1) && a !in seen then seen + {a} else seen;
      var t := Dedup(rest, seen');
      DedupFirst(rest, seen');
      DedupFresh(rest, seen');
      var off := if HasAsin(pairs[0].1) && a !in seen then 1 else 0;
      assert r == if off == 1 then [pairs[0]] + t else t;
      forall i | off <= i < |r|
        ensures FirstIndex(pairs, Asin(r[i].1)) < |pairs| && r[i] == pairs[FirstIndex(pairs, Asin(r[i].1))]
      {
        var b := Asin(t[i - off].1);
        assert r[i] == t[i - off];
        assert b !in seen' && HasAsin(t[i - off].1);
        assert b != a;
        assert FirstIndex(pairs, b) == 1 + FirstIndex(rest, b);
        assert pairs[1 + FirstIndex(rest, b)] == rest[FirstIndex(rest, b)];
      }
    }
  }

  /** The ASINs of `r` appear in `pairs` in the same order as in `r`. */
  ghost predicate OrderedByFirst(r: seq<(string, ValueRecord)>, pairs: seq<(string, ValueRecord)>) {
    forall i, j :: 0 <= i < j < |r| ==> FirstIndex(pairs, Asin(r[i].1)) < FirstIndex(pairs, Asin(r[j].1))
  }

  /** The kept pairs keep the visiting order of their first occurrences. */
  lemma {:induction false} DedupOrder(pairs: seq<(string, ValueRecord)>, seen: set<string>)
    ensures OrderedByFirst(Dedup(pairs, seen), pairs)
  {
    if |pairs| > 0 {
      var a := Asin(pairs[0].1);
      var rest := pairs[1..];
      var seen' := if HasAsin(pairs[0].1) && a !in seen then seen + {a} else seen;
      var t := Dedup(rest, seen');
      DedupOrder(rest, seen');
      DedupFresh(rest, seen');
      assert forall k :: 0 <= k < |t| ==> Asin(t[k].1) != a;
      ShiftOrdered(t, pairs);
      if HasAsin(pairs[0].1) && a !in seen {
        assert Dedup(pairs, seen) == [pairs[0]] + t;
        ConsOrdered(t, pairs);
      }
    }
  }

  /** Order by first position in the tail carries over to the whole list when the head's ASIN is not involved. */
  lemma ShiftOrdered(t: seq<(string, ValueRecord)>, pairs: seq<(string, ValueRecord)>)
    requires |pairs| > 0 && OrderedByFirst(t, pairs[1..])
    requires forall k :: 0 <= k < |t| ==> Asin(t[k].1) != Asin(pairs[0].1)
    ensures OrderedByFirst(t, pairs)
    ensures forall k :: 0 <= k < |t| ==> 0 < FirstIndex(pairs, Asin(t[k].1))
  {
    forall k | 0 <= k < |t|
      ensures FirstIndex(pairs, Asin(t[k].1)) == 1 + FirstIndex(pairs[1..], Asin(t[k].1))
    {
      FirstIndexShift(pairs, Asin(t[k].1));
    }
  }

  /** Putting the head pair in front keeps the order, since its ASIN is found first. */
  lemma ConsOrdered(t: seq<(string, ValueRecord)>, pairs: seq<(string, ValueRecord)>)
    requires |pairs| > 0 && OrderedByFirst(t, pairs)
    requires forall k :: 0 <= k < |t| ==> 0 < FirstIndex(pairs, Asin(t[k].1))
    ensures OrderedByFirst([pairs[0]] + t, pairs)
  {
    var r := [pairs[0]] + t;
    assert FirstIndex(pairs, Asin(r[0].1)) == 0;
    forall i, j | 0 <= i < j < |r|
      ensures FirstIndex(pairs, Asin(r[i].1)) < FirstIndex(pairs, Asin(r[j].1))
    {
      assert r[j] == t[j - 1];
      if i > 0 {
        assert r[i] == t[i - 1];
      }
    }
  }

  /** Two kept pairs never share an ASIN. */
  lemma DedupDistinct(pairs: seq<(string, ValueRecord)>, seen: set<string>)
    ensures var r := Dedup(pairs, seen);
      forall i, j :: 0 <= i < j < |r| ==> Asin(r[i].1) != Asin(r[j].1)
  {
    DedupOrder(pairs, seen);
  }

  /** The truthy ASINs of the pairs. */
  ghost function TruthyAsins(pairs: seq<(string, ValueRecord)>): set<string> {
    set i | 0 <= i < |pairs| && HasAsin(pairs[i].1) :: Asin(pairs[i].1)
  }

  /** The ASINs of the pairs. */
  ghost function AsinsOf(pairs: seq<(string, ValueRecord)>): set<string> {
    set i | 0 <= i < |pairs| :: Asin(pairs[i].1)
  }

  lemma TruthyAsinsCons(pairs: seq<(string, ValueRecord)>)
    requires |pairs| > 0
    ensures TruthyAsins(pairs) == TruthyAsins(pairs[1..]) + (if HasAsin(pairs[0].1) then {Asin(pairs[0].1)} else {})
  {
    var rest := pairs[1..];
    forall x | x in TruthyAsins(pairs)
      ensures x in TruthyAsins(rest) + (if HasAsin(pairs[0].1) then {Asin(pairs[0].1)} else {})
    {
      var i :| 0 <= i < |pairs| && HasAsin(pairs[i].1) && Asin(pairs[i].1) == x;
      if i > 0 { assert rest[i - 1] == pairs[i]; }
    }
    forall x | x in TruthyAsins(rest) ensures x in TruthyAsins(pairs) {
      var i :| 0 <= i < |rest| && HasAsin(rest[i].1) && Asin(rest[i].1) == x;
      assert pairs[i + 1] == rest[i];
    }
    if HasAsin(pairs[0].1) {
      assert Asin(pairs[0].1) in TruthyAsins(pairs);
    }
  }

  lemma AsinsOfCons(p: (string, ValueRecord), t: seq<(string, ValueRecord)>)
    ensures AsinsOf([p] + t) == AsinsOf(t) + {Asin(p.1)}
  {
    var r := [p] + t;
    forall x | x in AsinsOf(r) ensures x in AsinsOf(t) + {Asin(p.1)} {
      var i :| 0 <= i < |r| && Asin(r[i].1) == x;
      if i > 0 { assert r[i] == t[i - 1]; }
    }
    forall x | x in AsinsOf(t) ensures x in AsinsOf(r) {
      var i :| 0 <= i < |t| && Asin(t[i].1) == x;
      assert r[i + 1] == t[i];
    }
    assert Asin(r[0].1) in AsinsOf(r);
  }

  /** The ASINs kept are exactly the truthy ASINs of the pairs that are not in `seen`. */
  lemma {:induction false} DedupAsins(pairs: seq<(string, ValueRecord)>, seen: set<string>)
    ensures AsinsOf(Dedup(pairs, seen)) == TruthyAsins(pairs) - seen
  {
    if |pairs| > 0 {
      var a := Asin(pairs[0].1);
      var rest := pairs[1..];
      TruthyAsinsCons(pairs);
      if HasAsin(pairs[0].1) && a !in seen {
        DedupAsins(rest, seen + {a});
        AsinsOfCons(pairs[0], Dedup(rest, seen + {a}));
      } else {
        DedupAsins(rest, seen);
      }
    }
  }

  /** Records carrying a truthy ASIN. */
  function CountWithAsin(pairs: seq<(string, ValueRecord)>): nat {
    if |pairs| == 0 then 0
    else (if HasAsin(pairs[0].1) then 1 else 0) + CountWithAsin(pairs[1..])
  }

  /** There are never more variants than records carrying a truthy ASIN. */
  lemma {:induction false} DedupCount(pairs: seq<(string, ValueRecord)>, seen: set<string>)
    ensures |Dedup(pairs, seen)| <= CountWithAsin(pairs)
  {
    if |pairs| > 0 {
      if HasAsin(pairs[0].1) && Asin(pairs[0].1) !in seen {
        DedupCount(pairs[1..], seen + {Asin(pairs[0].1)});
      } else {
        DedupCount(pairs[1..], seen);
      }
    }
  }

  // ---------------------------------------------------------------------
  // Building a variant
  // ---------------------------------------------------------------------

  /**
   * How a copy names a variant. `TargetAsIs` (the React app) uses the
   * target record's display text as it is; `EveryPartOrUnknown` (the worker
   * and the console script) applies `|| 'Unknown'` to every part.
   */
  datatype NameStyle = TargetAsIs | EveryPartOrUnknown

  /** `x || 'Unknown'` for a looked-up value: absent, `undefined` and "" are falsy. */
  function OrUnknown(v: Option<Option<string>>): string {
    match v
    case Some(Some(t)) => if |t| > 0 then t else "Unknown"
    case _ => "Unknown"
  }

  /** `vDims`: the baseline with the target dimension set to the record's display text. */
  function TwisterDimensions(baseline: Obj<Option<string>>, target: string, v: ValueRecord): (r: Obj<Option<string>>)
    ensures Get(r, target) == Some(v.displayText)
    ensures forall j :: j != target ==> Get(r, j) == Get(baseline, j)
    ensures Keys(r) == if target in Keys(baseline) then Keys(baseline) else Keys(baseline) + [target]
  {
    Put(baseline, target, v.displayText)
  }

  /** The name part of dimension `k`. */
  function TwisterNamePart(style: NameStyle, baseline: Obj<Option<string>>, target: string, v: ValueRecord, k: string): string {
    match style
    case TargetAsIs => if k == target then v.displayText.GetOr("") else OrUnknown(Get(baseline, k))
    case EveryPartOrUnknown => OrUnknown(Get(TwisterDimensions(baseline, target, v), k))
  }

  /** `nameParts`, one per dimension in the data's key order. */
  function TwisterNameParts(style: NameStyle, dimKeys: seq<string>, baseline: Obj<Option<string>>, target: string, v: ValueRecord): seq<string> {
    seq(|dimKeys|, i requires 0 <= i < |dimKeys| => TwisterNamePart(style, baseline, target, v, dimKeys[i]))
  }

  /**
   * A name part is the target record's display text for the target
   * dimension and the baseline's value for every other one, with
   * `'Unknown'` for a dimension that has no selected value. The two styles
   * differ only at the target: the worker shows `'Unknown'` where the React
   * app shows a missing or empty display text as "".
   */
  lemma NamePartMeaning(style: NameStyle, baseline: Obj<Option<string>>, target: string, v: ValueRecord, k: string)
    ensures k != target ==> TwisterNamePart(style, baseline, target, v, k) == OrUnknown(Get(baseline, k))
    ensures k != target && Get(baseline, k).None? ==> TwisterNamePart(style, baseline, target, v, k) == "Unknown"
    ensures k == target && style == TargetAsIs ==> TwisterNamePart(style, baseline, target, v, k) == v.displayText.GetOr("")
    ensures k == target && style == EveryPartOrUnknown ==> TwisterNamePart(style, baseline, target, v, k) == OrUnknown(Some(v.displayText))
  {
  }

  /** The variant of one kept pair; `priceOf` seeds the price from the ASIN. */
  function TwisterVariant(style: NameStyle, dimKeys: seq<string>, baseline: Obj<Option<string>>,
                          p: (string, ValueRecord), priceOf: string -> string, baseUrl: string): (r: Variant)
    ensures r.asin == Asin(p.1) && r.url == ProductUrl(baseUrl, r.asin) && r.price == priceOf(r.asin)
    ensures Get(r.dimensions, p.0) == Some(p.1.displayText)
    ensures forall j :: j != p.0 ==> Get(r.dimensions, j) == Get(baseline, j)
    ensures |TwisterNameParts(style, dimKeys, baseline, p.0, p.1)| == |dimKeys|
  {
    Variant(
      name := Join(TwisterNameParts(style, dimKeys, baseline, p.0, p.1), " / "),
      asin := Asin(p.1),
      price := priceOf(Asin(p.1)),
      url := ProductUrl(baseUrl, Asin(p.1)),
      dimensions := TwisterDimensions(baseline, p.0, p.1))
  }

  /** The pairs of the second pass that yield variants. */
  function Hits(data: TwisterData): seq<(string, ValueRecord)> {
    Dedup(Pairs(data), {})
  }

  /** Both passes: the variants of the data, in visiting order. */
  function TwisterVariants(data: TwisterData, style: NameStyle, priceOf: string -> string, baseUrl: string): (vs: seq<Variant>)
    ensures |vs| == |Hits(data)|
  {
    var baseline := Baseline(data);
    var hits := Hits(data);
    seq(|hits|, i requires 0 <= i < |hits| => TwisterVariant(style, Keys(data), baseline, hits[i], priceOf, baseUrl))
  }

  /** The ASIN of each variant is the ASIN of its kept pair. */
  lemma VariantAsins(data: TwisterData, style: NameStyle, priceOf: string -> string, baseUrl: string)
    ensures var vs := TwisterVariants(data, style, priceOf, baseUrl); var hits := Hits(data);
      forall i :: 0 <= i < |vs| ==> vs[i].asin == Asin(hits[i].1) && vs[i] == TwisterVariant(style, Keys(data), Baseline(data), hits[i], priceOf, baseUrl)
  {
  }

  /**
   * The twister strategy never emits two variants with the same ASIN, and
   * emits at most one variant per record carrying a truthy `defaultAsin`.
   */
  lemma TwisterDistinct(data: TwisterData, style: NameStyle, priceOf: string -> string, baseUrl: string)
    ensures var vs := TwisterVariants(data, style, priceOf, baseUrl);
      && (forall i, j :: 0 <= i < j < |vs| ==> vs[i].asin != vs[j].asin)
      && |vs| <= CountWithAsin(Pairs(data))
  {
    VariantAsins(data, style, priceOf, baseUrl);
    DedupDistinct(Pairs(data), {});
    DedupCount(Pairs(data), {});
  }

  /** The variants' ASINs are exactly the distinct truthy `defaultAsin`s of the data. */
  lemma TwisterAsins(data: TwisterData, style: NameStyle, priceOf: string -> string, baseUrl: string)
    ensures var vs := TwisterVariants(data, style, priceOf, baseUrl);
      (set i | 0 <= i < |vs| :: vs[i].asin) == (set p | p in Pairs(data) && HasAsin(p.1) :: Asin(p.1))
  {
    var pairs := Pairs(data);
    var hits := Hits(data);
    VariantAsinSet(data, style, priceOf, baseUrl);
    DedupAsins(pairs, {});
    assert TruthyAsins(pairs) - {} == TruthyAsins(pairs);
    PairAsinSet(pairs);
    assert VariantAsinsOf(TwisterVariants(data, style, priceOf, baseUrl)) == MemberAsins(pairs);
  }

  /** The ASINs of a list of variants. */
  ghost function VariantAsinsOf(vs: seq<Variant>): set<string> {
    set i | 0 <= i < |vs| :: vs[i].asin
  }

  /** The truthy ASINs of the records in a pair list. */
  ghost function MemberAsins(pairs: seq<(string, ValueRecord)>): set<string> {
    set p | p in pairs && HasAsin(p.1) :: Asin(p.1)
  }

  /** The variants carry the ASINs of the kept pairs. */
  lemma VariantAsinSet(data: TwisterData, style: NameStyle, priceOf: string -> string, baseUrl: string)
    ensures VariantAsinsOf(TwisterVariants(data, style, priceOf, baseUrl)) == AsinsOf(Hits(data))
  {
    var vs := TwisterVariants(data, style, priceOf, baseUrl);
    var hits := Hits(data);
    VariantAsins(data, style, priceOf, baseUrl);
    forall x | x in VariantAsinsOf(vs) ensures x in AsinsOf(hits) {
      var i :| 0 <= i < |vs| && vs[i].asin == x;
    }
    forall x | x in AsinsOf(hits) ensures x in VariantAsinsOf(vs) {
      var i :| 0 <= i < |hits| && Asin(hits[i].1) == x;
      assert vs[i].asin == x;
    }
  }

  /** The truthy ASINs of a pair list, collected by position or by membership, are the same set. */
  lemma PairAsinSet(pairs: seq<(string, ValueRecord)>)
    ensures TruthyAsins(pairs) == MemberAsins(pairs)
  {
    forall x | x in MemberAsins(pairs) ensures x in TruthyAsins(pairs) {
      var p :| p in pairs && HasAsin(p.1) && Asin(p.1) == x;
      var i :| 0 <= i < |pairs| && pairs[i] == p;
    }
  }

  /**
   * Each variant is built from the first visited record carrying its ASIN,
   * and that record's ASIN is truthy.
   */
  lemma TwisterFromFirstRecord(data: TwisterData, style: NameStyle, priceOf: string -> string, baseUrl: string)
    ensures var vs := TwisterVariants(data, style, priceOf, baseUrl); var pairs := Pairs(data);
      forall i :: 0 <= i < |vs| ==>
        && FirstIndex(pairs, vs[i].asin) < |pairs|
        && HasAsin(pairs[FirstIndex(pairs, vs[i].asin)].1)
        && vs[i] == TwisterVariant(style, Keys(data), Baseline(data), pairs[FirstIndex(pairs, vs[i].asin)], priceOf, baseUrl)
  {
    var pairs := Pairs(data);
    var hits := Hits(data);
    var vs := TwisterVariants(data, style, priceOf, baseUrl);
    VariantAsins(data, style, priceOf, baseUrl);
    DedupFirst(pairs, {});
    DedupFresh(pairs, {});
    forall i | 0 <= i < |vs|
      ensures FirstIndex(pairs, vs[i].asin) < |pairs| && hits[i] == pairs[FirstIndex(pairs, vs[i].asin)]
    {
      assert vs[i].asin == Asin(hits[i].1);
    }
  }

  // ---------------------------------------------------------------------
  // Examples
  // ---------------------------------------------------------------------

  /** Data whose only record is the selected "Red", ASIN "A1". */
  function ExampleData(): (d: TwisterData)
    ensures |d| == 1
  {
    [("Color", [ValueRecord(Some("Red"), Some("SELECTED"), Some("A1"))])]
  }

  /** The example yields one variant, for "A1". */
  lemma ExampleHits()
    ensures Hits(ExampleData()) == [("Color", ExampleData()[0].1[0])]
  {
    var data := ExampleData();
    var rec := data[0].1[0];
    assert HasAsin(rec);
    assert Pairs(data) == [("Color", rec)] by {
      assert data[1..] == [];
    }
  }

  /** "Color" with the selected "Red" (ASIN "A1"), and "Size" with an unselected "S" (ASIN "B2"). */
  function ExampleTwoDims(): (d: TwisterData)
    ensures |d| == 2
  {
    [("Color", [ValueRecord(Some("Red"), Some("SELECTED"), Some("A1"))]),
     ("Size", [ValueRecord(Some("S"), None, Some("B2"))])]
  }

  lemma ExampleTwoDimsHits()
    ensures Hits(ExampleTwoDims()) == [("Color", ExampleTwoDims()[0].1[0]), ("Size", ExampleTwoDims()[1].1[0])]
  {
    var data := ExampleTwoDims();
    var red := data[0].1[0];
    var small := data[1].1[0];
    var ps := Pairs(data);
    assert ps == [("Color", red), ("Size", small)] by {
      assert data[1..][1..] == [];
      assert Pairs(data[1..]) == [("Size", small)];
    }
    assert Asin(red) == "A1" && Asin(small) == "B2";
    var none: set<string> := {};
    assert none + {"A1"} == {"A1"};
    assert ps[1..] == [("Size", small)] && ps[1..][1..] == [];
    assert Dedup(ps[1..], {"A1"}) == [("Size", small)] + Dedup(ps[1..][1..], {"A1", "B2"});
    assert Dedup(ps, {}) == [ps[0]] + Dedup(ps[1..], {"A1"});
  }

  lemma ExampleTwoDimsBaseline()
    ensures Keys(Baseline(ExampleTwoDims())) == ["Color"]
  {
    var data := ExampleTwoDims();
    assert FindSelected(data[0].1).Some? by {
      assert FirstWhere(data[0].1, IsSelected) == 0;
    }
    assert FindSelected(data[1].1) == None;
    var cell := SelectionCell();
    assert cell(data[0].1, 0).Some?;
    assert cell(data[1].1, 1) == None;
    assert AssignedKeys(data, cell, 1) == ["Color"] by {
      assert AssignedKeys(data, cell, 0) == [];
    }
    assert AssignedKeys(data, cell, 2) == ["Color"];
    BaselineMeaning(data);
  }

  /**
   * When a dimension has no `SELECTED` record, the variant that changes
   * that dimension has an entry for it and the others do not, so the
   * variants of one result need not share their dimension keys.
   */
  lemma DimensionKeysDiffer(style: NameStyle, priceOf: string -> string, baseUrl: string)
    ensures var vs := TwisterVariants(ExampleTwoDims(), style, priceOf, baseUrl);
      && |vs| == 2 && Keys(vs[0].dimensions) == ["Color"] && Keys(vs[1].dimensions) == ["Color", "Size"]
      && Get(vs[1].dimensions, "Size") == Some(Some("S"))
  {
    var data := ExampleTwoDims();
    ExampleTwoDimsVariants(style, priceOf, baseUrl);
    ExampleTwoDimsBaseline();
    OneKeyDimensions(Baseline(data), "Color", "Color", data[0].1[0]);
    OneKeyDimensions(Baseline(data), "Color", "Size", data[1].1[0]);
  }

  /** The two variants of the example change the first and the second dimension. */
  lemma ExampleTwoDimsVariants(style: NameStyle, priceOf: string -> string, baseUrl: string)
    ensures var data := ExampleTwoDims(); var vs := TwisterVariants(data, style, priceOf, baseUrl);
      && |vs| == 2
      && vs[0].dimensions == TwisterDimensions(Baseline(data), "Color", data[0].1[0])
      && vs[1].dimensions == TwisterDimensions(Baseline(data), "Size", data[1].1[0])
  {
    ExampleTwoDimsHits();
    VariantAsins(ExampleTwoDims(), style, priceOf, baseUrl);
  }

  /** Over a one-key baseline, changing that key keeps the keys; changing another appends it. */
  lemma OneKeyDimensions(baseline: Obj<Option<string>>, a: string, b: string, v: ValueRecord)
    requires Keys(baseline) == [a]
    ensures b == a ==> Keys(TwisterDimensions(baseline, b, v)) == [a]
    ensures b != a ==> Keys(TwisterDimensions(baseline, b, v)) == [a, b]
    ensures Get(TwisterDimensions(baseline, b, v), b) == Some(v.displayText)
  {
    if b != a {
      var ks := Keys(TwisterDimensions(baseline, b, v));
      assert b !in Keys(baseline);
      assert ks == [a] + [b];
      TwoElements(ks, a, b);
    }
  }

  /** A sequence of length two is the display of its two elements. */
  lemma TwoElements<T>(s: seq<T>, a: T, b: T)
    requires |s| == 2 && s[0] == a && s[1] == b
    ensures s == [a, b]
  {
  }
}

=== FILE: types.dfy ===
/**
 * The records the extractor produces (`VariantData`, `ScrapingResult`) and
 * the price strings that act as sentinel states.
 */
module Types {
  import opened Options
  import opened JsObject

  /** Page price not found by a price extractor. */
  const NOT_AVAILABLE := "N/A"
  /** A variant whose price is only on its own page (the React app and the worker). */
  const REQUIRES_PAGE_VISIT := "Requires Page Visit"
  /** The same state in the console script. */
  const REQUIRES_FETCH := "Requires Fetch"
  /** The variant page was fetched but showed no price. */
  const UNAVAILABLE := "Unavailable"
  /** The variant page could not be fetched. */
  const FETCH_FAILED := "Fetch Failed"

  /**
   * One purchasable configuration. A dimension value is `None` where the
   * normaliser stored `undefined` (a missing display value).
   */
  datatype Variant = Variant(
    name: string,
    asin: string,
    price: string,
    url: string,
    dimensions: Obj<Option<string>>)

  /** The outcome of one extraction; the optional fields are `undefined` when `None`. */
  datatype ScrapingResult = ScrapingResult(
    success: bool,
    variants: seq<Variant>,
    parentPrice: Option<string>,
    message: Option<string>,
    debugInfo: Option<string>)

  /** An optional JavaScript string is truthy when it is present and non-empty. */
  predicate Truthy(s: Option<string>) {
    s.Some? && |s.value| > 0
  }

  /** `${baseUrl}/dp/${asin}` */
  function ProductUrl(baseUrl: string, asin: string): string {
    baseUrl + "/dp/" + asin
  }

  /** The ASINs of a variant list, in order. */
  function Asins(vs: seq<Variant>): (r: seq<string>)
    ensures |r| == |vs| && forall i :: 0 <= i < |vs| ==> r[i] == vs[i].asin
  {
    seq(|vs|, i requires 0 <= i < |vs| => vs[i].asin)
  }

  /** Every price of a variant list, in order. */
  function Prices(vs: seq<Variant>): (r: seq<string>)
    ensures |r| == |vs| && forall i :: 0 <= i < |vs| ==> r[i] == vs[i].price
  {
    seq(|vs|, i requires 0 <= i < |vs| => vs[i].price)
  }

  /** `vs` with the price of every variant replaced by the matching entry of `ps`. */
  function WithPrices(vs: seq<Variant>, ps: seq<string>): (r: seq<Variant>)
    requires |ps| == |vs|
    ensures |r| == |vs| && forall i :: 0 <= i < |vs| ==> r[i] == vs[i].(price := ps[i])
  {
    seq(|vs|, i requires 0 <= i < |vs| => vs[i].(price := ps[i]))
  }

  /**
   * Repricing a list changes the prices and nothing else: the new prices
   * are read back in order, the ASINs and their order are kept, and each
   * variant differs from the original at most in its price.
   */
  lemma RepricingKeepsVariants(vs: seq<Variant>, ps: seq<string>)
    requires |ps| == |vs|
    ensures Prices(WithPrices(vs, ps)) == ps
    ensures Asins(WithPrices(vs, ps)) == Asins(vs)
    ensures forall i :: 0 <= i < |vs| ==> WithPrices(vs, ps)[i].(price := vs[i].price) == vs[i]
  {
  }

  /**
   * The price a normaliser gives a freshly found variant in the React app
   * and the worker: the page's own price when the variant is the page's
   * product and that price was found, otherwise the page-visit sentinel.
   */
  function SeedPrice(isCurrent: bool, parentPrice: string): string {
    if isCurrent && parentPrice != NOT_AVAILABLE then parentPrice else REQUIRES_PAGE_VISIT
  }

  /**
   * A seeded price equals the page price exactly for the current product
   * with a found page price, provided the page price is not itself the
   * page-visit sentinel (no price extractor can return that string).
   */
  lemma SeedPriceIff(isCurrent: bool, parentPrice: string)
    requires parentPrice != REQUIRES_PAGE_VISIT
    ensures SeedPrice(isCurrent, parentPrice) == parentPrice <==> isCurrent && parentPrice != NOT_AVAILABLE
    ensures SeedPrice(isCurrent, parentPrice) == REQUIRES_PAGE_VISIT <==> !(isCurrent && parentPrice != NOT_AVAILABLE)
  {
  }
}

=== FILE: worker.dfy ===
/**
 * The Cloudflare worker's `/api/scrape` handler after routing: fetch the
 * product page, accept it when it is ok or a 503, extract the page price
 * and the current ASIN with regular expressions, try the classic strategy
 * and then the twister strategy, backfill up to 48 prices, and assemble the
 * JSON result.
 *
 * The classic loop has no per-lookup `try`: one throwing lookup abandons the
 * loop with the variants pushed so far. `ExtractAsWritten` keeps those
 * variants, as the handler does, and `Scrape` is the handler built on it;
 * `Extract` discards them, and `ScrapeCorrected` is the handler built on
 * that.
 */
module Worker {
  import opened Options
  import opened JsString
  import opened JsObject
  import opened Types
  import opened PriceExtract
  import opened JsonClean
  import opened Backfill
  import opened Search
  import Classic
  import Twister

  const MAX_REQUESTS: nat := 48
  const DEBUG_INFO := "Cloudflare Worker Scraper v2"
  const COMPLETE_MESSAGE := "Extraction complete"
  const NO_VARIANTS_MESSAGE := "No variants found or page is Captcha/Protected"

  /** The primary page fetch: an exception, or a response with its status and body. */
  datatype PrimaryFetch = PrimaryThrew | PrimaryResponse(ok: bool, status: nat, body: string)

  /** Why the handler answers with status 500; a rejected status carries the error message. */
  datatype ErrorCause = FetchError | BadStatus(message: string) | BadTargetUrl

  /** The handler's answer: an error object, or the extraction result. */
  datatype Reply = ErrorReply(status: nat, cause: ErrorCause) | ResultReply(result: ScrapingResult)

  /**
   * The regular expressions, `new URL(targetUrl).origin` and `JSON.parse`
   * of each shape, as abstract inputs (`None`: no match, or a throw).
   */
  datatype WorkerParsers = WorkerParsers(
    pricePatterns: seq<WorkerPattern>,
    asinPatterns: seq<string -> Option<string>>,
    origin: string -> Option<string>,
    classicBlock: string -> Option<string>,
    mapBlock: string -> Option<string>,
    twisterBlock: string -> Option<string>,
    parseValueTable: string -> Option<Classic.ValueTable>,
    parseIndexMap: string -> Option<Classic.IndexMap>,
    parseTwister: string -> Option<Twister.TwisterData>)

  /** The primary page is processed when the response is ok or its status is 503. */
  predicate Accepted(ok: bool, status: nat) {
    ok || status == 503
  }

  /** The error message of a rejected status. */
  function BadStatusMessage(status: nat): string {
    "Amazon returned status " + NatToString(status)
  }

  /** The error message names the rejected status: different statuses give different messages. */
  lemma BadStatusNamesStatus(a: nat, b: nat)
    ensures BadStatusMessage(a) == BadStatusMessage(b) ==> a == b
  {
    var prefix := "Amazon returned status ";
    if BadStatusMessage(a) == BadStatusMessage(b) {
      assert NatToString(a) == BadStatusMessage(a)[|prefix|..];
      assert NatToString(b) == BadStatusMessage(b)[|prefix|..];
      NatToStringInjective(a, b);
    }
  }

  /** `asin === currentAsin && parentPrice !== "N/A"` decides the seeded price. */
  function WorkerPriceOf(currentAsin: Option<string>, parentPrice: string): string -> string {
    (asin: string) => SeedPrice(currentAsin == Some(asin), parentPrice)
  }

  /** The value table and the index map, when both blocks match and both parse after cleanup. */
  function ClassicInput(html: string, wp: WorkerParsers): Option<(Classic.ValueTable, Classic.IndexMap)> {
    Classic.ParsedInput(wp.classicBlock(html), wp.mapBlock(html), wp.parseValueTable, wp.parseIndexMap)
  }

  /** The twister data, when its block matches and `safeJsonParse` yields it. */
  function TwisterInput(html: string, wp: WorkerParsers): Option<Twister.TwisterData> {
    match wp.twisterBlock(html)
    case Some(block) => SafeJsonParse(block, wp.parseTwister)
    case None => None
  }

  /** The handler's `variants`, `success` and `message` after the strategies. */
  datatype Extraction = Extraction(variants: seq<Variant>, success: bool, message: string)

  function TwisterMessage(n: nat): string {
    "Found " + NatToString(n) + " variants (Twister Plus)."
  }

  /**
   * The twister strategy on top of what the classic strategy left: its
   * variants are appended, and success is decided by the total count.
   */
  function TwisterStage(prior: seq<Variant>, twister: Option<Twister.TwisterData>,
                        priceOf: string -> string, baseUrl: string): (e: Extraction)
    ensures e.success ==> StartsWith(e.message, "Found ")
    ensures !e.success ==> e.message == "" && e.variants == prior
    ensures |prior| <= |e.variants| && e.variants[..|prior|] == prior
  {
    match twister
    case None => Extraction(prior, false, "")
    case Some(data) =>
      var vs := prior + Twister.TwisterVariants(data, Twister.EveryPartOrUnknown, priceOf, baseUrl);
      if |vs| > 0 then Extraction(vs, true, TwisterMessage(|vs|)) else Extraction(vs, false, "")
  }

  /**
   * Both strategies as the handler runs them: a classic loop abandoned by a
   * throwing lookup leaves its variants in the list, and the twister
   * strategy then appends to them.
   */
  function ExtractAsWritten(classic: Option<(Classic.ValueTable, Classic.IndexMap)>,
                            twister: Option<Twister.TwisterData>,
                            priceOf: string -> string, baseUrl: string): (e: Extraction)
    ensures e.success ==> StartsWith(e.message, "Found ")
    ensures !e.success ==> e.message == ""
  {
    match classic
    case None => TwisterStage([], twister, priceOf, baseUrl)
    case Some((table, entries)) =>
      var (pushed, threw) := Classic.StrictVariants(table, entries, priceOf, baseUrl);
      if !threw && |pushed| > 0 then Extraction(pushed, true, Classic.FoundMessage(|pushed|))
      else TwisterStage(pushed, twister, priceOf, baseUrl)
  }

  /**
   * Both strategies with an abandoned classic loop discarding its partial
   * variants, so that the twister strategy starts from an empty list.
   */
  function Extract(classic: Option<(Classic.ValueTable, Classic.IndexMap)>,
                   twister: Option<Twister.TwisterData>,
                   priceOf: string -> string, baseUrl: string): (e: Extraction)
    ensures e.success ==> StartsWith(e.message, "Found ") && |e.variants| > 0
    ensures !e.success ==> e.message == "" && e.variants == []
  {
    var fromClassic :=
      match classic
      case None => []
      case Some((table, entries)) =>
        var (pushed, threw) := Classic.StrictVariants(table, entries, priceOf, baseUrl);
        if threw then [] else pushed;
    if |fromClassic| > 0 then Extraction(fromClassic, true, Classic.FoundMessage(|fromClassic|))
    else TwisterStage([], twister, priceOf, baseUrl)
  }

  /**
   * The strategies never mix: a successful extraction carries every variant
   * of a classic map none of whose lookups throws, or else the variants of
   * the twister data; an unsuccessful one carries none.
   */
  lemma ExtractOneStrategy(classic: Option<(Classic.ValueTable, Classic.IndexMap)>,
                           twister: Option<Twister.TwisterData>,
                           priceOf: string -> string, baseUrl: string)
    ensures var e := Extract(classic, twister, priceOf, baseUrl);
      var classicOk := classic.Some? && !Classic.AnyThrows(classic.value.0, classic.value.1) && |classic.value.1| > 0;
      && (classicOk ==> e.success && e.variants == Classic.TolerantVariants(classic.value.0, classic.value.1, priceOf, baseUrl))
      && (!classicOk && twister.Some? ==> e.variants == Twister.TwisterVariants(twister.value, Twister.EveryPartOrUnknown, priceOf, baseUrl))
      && (!classicOk && twister.None? ==> !e.success)
      && (!e.success ==> e.variants == [])
  {
    if classic.Some? {
      var (table, entries) := classic.value;
      Classic.StrictStops(table, entries, priceOf, baseUrl);
      var (pushed, threw) := Classic.StrictVariants(table, entries, priceOf, baseUrl);
      if !threw {
        assert TolerantAll: Classic.TolerantVariants(table, entries, priceOf, baseUrl)[..|pushed|]
                            == Classic.TolerantVariants(table, entries, priceOf, baseUrl);
      }
    }
  }

  /** No two variants of an extraction share an ASIN. */
  lemma ExtractDistinct(classic: Option<(Classic.ValueTable, Classic.IndexMap)>,
                        twister: Option<Twister.TwisterData>,
                        priceOf: string -> string, baseUrl: string)
    ensures var e := Extract(classic, twister, priceOf, baseUrl);
      forall i, j :: 0 <= i < j < |e.variants| ==> e.variants[i].asin != e.variants[j].asin
  {
    ExtractOneStrategy(classic, twister, priceOf, baseUrl);
    if classic.Some? {
      Classic.ClassicShape(classic.value.0, classic.value.1, priceOf, baseUrl);
    }
    if twister.Some? {
      Twister.TwisterDistinct(twister.value, Twister.EveryPartOrUnknown, priceOf, baseUrl);
    }
  }

  // ---------------------------------------------------------------------
  // The as-written behaviour: an abandoned classic loop leaks into the result
  // ---------------------------------------------------------------------

  /**
   * As written, a classic loop abandoned after one variant is followed by
   * the twister strategy on the same list: the result succeeds with the
   * classic variant and the twister variant of the same ASIN side by side.
   */
  lemma AsWrittenMergesStrategies(priceOf: string -> string, baseUrl: string)
    ensures var e := ExtractAsWritten(Some((Classic.ExampleTable(), Classic.ExampleMap())), Some(Twister.ExampleData()), priceOf, baseUrl);
      e.success && |e.variants| == 2 && e.variants[0].asin == e.variants[1].asin
  {
    Classic.ExampleStops(priceOf, baseUrl);
    var data := Twister.ExampleData();
    var rec := data[0].1[0];
    assert Twister.HasAsin(rec);
    assert Twister.Pairs(data) == [("Color", rec)] by {
      assert data[1..] == [];
    }
    assert Twister.Hits(data) == [("Color", rec)];
  }

  /**
   * As written, without twister data the same page yields an unsuccessful
   * result that still lists the abandoned loop's variant.
   */
  lemma AsWrittenFailsWithVariants(priceOf: string -> string, baseUrl: string)
    ensures var e := ExtractAsWritten(Some((Classic.ExampleTable(), Classic.ExampleMap())), None, priceOf, baseUrl);
      !e.success && |e.variants| == 1
  {
    Classic.ExampleStops(priceOf, baseUrl);
  }

  /** The corrected extraction of the same page lists the twister variant alone. */
  lemma CorrectedExample(priceOf: string -> string, baseUrl: string)
    ensures var e := Extract(Some((Classic.ExampleTable(), Classic.ExampleMap())), Some(Twister.ExampleData()), priceOf, baseUrl);
      e.success && |e.variants| == 1 && e.variants[0].asin == "A1"
  {
    Classic.ExampleStops(priceOf, baseUrl);
    var data := Twister.ExampleData();
    var rec := data[0].1[0];
    assert Twister.HasAsin(rec);
    assert Twister.Pairs(data) == [("Color", rec)] by {
      assert data[1..] == [];
    }
    assert Twister.Hits(data) == [("Color", rec)];
  }

  // ---------------------------------------------------------------------
  // Result assembly
  // ---------------------------------------------------------------------

  /**
   * The final message: the strategy's message, with the bulk-scraping note
   * when variants were fetched, or the default text when it is empty.
   */
  function FinalMessage(e: Extraction, fetched: nat): string {
    var m := if e.success && fetched > 0 then e.message + " Bulk scraping " + NatToString(fetched) + " items..." else e.message;
    if |m| > 0 then m else if e.success then COMPLETE_MESSAGE else NO_VARIANTS_MESSAGE
  }

  /**
   * A successful extraction always carries its strategy's "Found …"
   * message, extended by the bulk-scraping note only when something was
   * fetched, so the "Extraction complete" default never shows; an
   * unsuccessful one always shows the no-variants text.
   */
  lemma FinalMessageCases(e: Extraction, fetched: nat)
    requires e.success ==> StartsWith(e.message, "Found ")
    requires !e.success ==> e.message == ""
    ensures e.success ==> StartsWith(FinalMessage(e, fetched), "Found ")
    ensures e.success ==> FinalMessage(e, fetched) == e.message + (if fetched > 0 then " Bulk scraping " + NatToString(fetched) + " items..." else "")
    ensures !e.success ==> FinalMessage(e, fetched) == NO_VARIANTS_MESSAGE
    ensures FinalMessage(e, fetched) != COMPLETE_MESSAGE
  {
    var m := FinalMessage(e, fetched);
    if e.success {
      assert e.message + "" == e.message;
      assert m[..6] == e.message[..6];
      assert m[0] == 'F' && COMPLETE_MESSAGE[0] == 'E';
    } else {
      assert m == NO_VARIANTS_MESSAGE;
      assert |NO_VARIANTS_MESSAGE| != |COMPLETE_MESSAGE|;
    }
  }

  /**
   * The worker's backfill over the variants: the first `MAX_REQUESTS`
   * variants still priced "Requires Page Visit" take the resolved fetch
   * outcome, every other variant is returned as it was.
   */
  method BackfillVariants(vs: seq<Variant>, resolve: nat -> string) returns (out: seq<Variant>, fetched: nat)
    ensures |out| == |vs|
    ensures forall i :: 0 <= i < |vs| && Chosen(Prices(vs), REQUIRES_PAGE_VISIT, MAX_REQUESTS, i) ==>
      out[i] == vs[i].(price := resolve(i))
    ensures forall i :: 0 <= i < |vs| && !Chosen(Prices(vs), REQUIRES_PAGE_VISIT, MAX_REQUESTS, i) ==> out[i] == vs[i]
    ensures fetched == |Targets(Prices(vs), REQUIRES_PAGE_VISIT, MAX_REQUESTS)|
  {
    var prices;
    prices, fetched := RunBackfill(Prices(vs), REQUIRES_PAGE_VISIT, MAX_REQUESTS, resolve);
    out := WithPrices(vs, prices);
    forall i | 0 <= i < |vs| && !Chosen(Prices(vs), REQUIRES_PAGE_VISIT, MAX_REQUESTS, i)
      ensures out[i] == vs[i]
    {
      assert prices[i] == vs[i].price;
    }
  }

  /** The page price the handler extracts from the accepted page. */
  function ParentPrice(html: string, wp: WorkerParsers): string {
    WorkerExtractPrice(wp.pricePatterns, html)
  }

  /** The price seeding of the accepted page: its price for its own ASIN. */
  function PagePriceOf(html: string, wp: WorkerParsers): string -> string {
    WorkerPriceOf(FirstSome(wp.asinPatterns, (p: string -> Option<string>) => p(html)), ParentPrice(html, wp))
  }

  /** The outcome of the backfill fetch of the variant at position `i`. */
  function Resolver(wp: WorkerParsers, outcomes: nat -> FetchOutcome): nat -> string {
    (i: nat) => ResolvePrice(outcomes(i), (b: string) => WorkerExtractPrice(wp.pricePatterns, b))
  }

  /**
   * The result object the handler assembles from the extraction `e`: its
   * success, the page price, the debug tag, a message that is never the
   * "Extraction complete" default, and the extraction's variants with the
   * first 48 page-visit prices of a successful extraction resolved. A
   * success keeps its strategy's message, followed by the bulk-scraping
   * note naming the number of backfill fetches when there were any.
   */
  predicate Reports(result: ScrapingResult, e: Extraction, parentPrice: string, resolve: nat -> string) {
    var fetched := |Targets(Prices(e.variants), REQUIRES_PAGE_VISIT, MAX_REQUESTS)|;
    && result.success == e.success
    && result.parentPrice == Some(parentPrice)
    && result.debugInfo == Some(DEBUG_INFO)
    && result.message.Some? && result.message.value != COMPLETE_MESSAGE
    && (!e.success ==> result.message == Some(NO_VARIANTS_MESSAGE))
    && (e.success ==> result.message == Some(e.message + (if fetched > 0 then " Bulk scraping " + NatToString(fetched) + " items..." else "")))
    && |result.variants| == |e.variants|
    && (forall i :: 0 <= i < |e.variants| ==>
          result.variants[i] == if e.success && Chosen(Prices(e.variants), REQUIRES_PAGE_VISIT, MAX_REQUESTS, i)
                                then e.variants[i].(price := resolve(i)) else e.variants[i])
  }

  /** Backfill and result assembly after the strategies. */
  method Respond(e: Extraction, parentPrice: string, resolve: nat -> string) returns (result: ScrapingResult)
    requires e.success ==> StartsWith(e.message, "Found ")
    requires !e.success ==> e.message == ""
    ensures Reports(result, e, parentPrice, resolve)
    ensures !e.success ==> result.variants == e.variants
  {
    var variants := e.variants;
    var fetched := 0;
    if e.success && |variants| > 0 {
      variants, fetched := BackfillVariants(variants, resolve);
    } else if e.success {
      assert Targets(Prices(variants), REQUIRES_PAGE_VISIT, MAX_REQUESTS) == [];
    }
    FinalMessageCases(e, fetched);
    var message := FinalMessage(e, fetched);
    result := ScrapingResult(e.success, variants, Some(parentPrice), Some(message), Some(DEBUG_INFO));
  }

  /**
   * The handler after routing, as written. `primary` is the page fetch,
   * `outcomes(i)` the fetch of the variant at position `i`. An
   * unsuccessful reply still lists whatever an abandoned classic loop
   * pushed, and a successful one may list an ASIN twice.
   */
  method Scrape(targetUrl: string, primary: PrimaryFetch, wp: WorkerParsers, outcomes: nat -> FetchOutcome)
    returns (reply: Reply)
    ensures primary.PrimaryThrew? ==> reply == ErrorReply(500, FetchError)
    ensures primary.PrimaryResponse? && !Accepted(primary.ok, primary.status) ==>
      reply == ErrorReply(500, BadStatus(BadStatusMessage(primary.status)))
    ensures primary.PrimaryResponse? && Accepted(primary.ok, primary.status) && wp.origin(targetUrl).None?
            ==> reply == ErrorReply(500, BadTargetUrl)
    ensures primary.PrimaryResponse? && Accepted(primary.ok, primary.status) && wp.origin(targetUrl).Some? ==>
      var html := primary.body;
      var e := ExtractAsWritten(ClassicInput(html, wp), TwisterInput(html, wp), PagePriceOf(html, wp), wp.origin(targetUrl).value);
      && reply.ResultReply?
      && Reports(reply.result, e, ParentPrice(html, wp), Resolver(wp, outcomes))
      && (!e.success ==> reply.result.variants == e.variants)
  {
    match primary
    case PrimaryThrew =>
      return ErrorReply(500, FetchError);
    case PrimaryResponse(ok, status, html) =>
      if !Accepted(ok, status) {
        return ErrorReply(500, BadStatus(BadStatusMessage(status)));
      }
      var origin := wp.origin(targetUrl);
      if origin.None? {
        return ErrorReply(500, BadTargetUrl);
      }
      var e := ExtractAsWritten(ClassicInput(html, wp), TwisterInput(html, wp), PagePriceOf(html, wp), origin.value);
      var result := Respond(e, ParentPrice(html, wp), Resolver(wp, outcomes));
      return ResultReply(result);
  }

  /**
   * The handler on the corrected extraction: an unsuccessful reply lists
   * no variants, and a successful one lists one strategy's variants with
   * distinct ASINs (`ExtractOneStrategy`, `ExtractDistinct`).
   */
  method ScrapeCorrected(targetUrl: string, primary: PrimaryFetch, wp: WorkerParsers, outcomes: nat -> FetchOutcome)
    returns (reply: Reply)
    ensures primary.PrimaryThrew? ==> reply == ErrorReply(500, FetchError)
    ensures primary.PrimaryResponse? && !Accepted(primary.ok, primary.status) ==>
      reply == ErrorReply(500, BadStatus(BadStatusMessage(primary.status)))
    ensures primary.PrimaryResponse? && Accepted(primary.ok, primary.status) && wp.origin(targetUrl).None?
            ==> reply == ErrorReply(500, BadTargetUrl)
    ensures primary.PrimaryResponse? && Accepted(primary.ok, primary.status) && wp.origin(targetUrl).Some? ==>
      var html := primary.body;
      var e := Extract(ClassicInput(html, wp), TwisterInput(html, wp), PagePriceOf(html, wp), wp.origin(targetUrl).value);
      && reply.ResultReply?
      && Reports(reply.result, e, ParentPrice(html, wp), Resolver(wp, outcomes))
      && (!e.success ==> reply.result.variants == [])
  {
    match primary
    case PrimaryThrew =>
      return ErrorReply(500, FetchError);
    case PrimaryResponse(ok, status, html) =>
      if !Accepted(ok, status) {
        return ErrorReply(500, BadStatus(BadStatusMessage(status)));
      }
      var origin := wp.origin(targetUrl);
      if origin.None? {
        return ErrorReply(500, BadTargetUrl);
      }
      var e := Extract(ClassicInput(html, wp), TwisterInput(html, wp), PagePriceOf(html, wp), origin.value);
      var result := Respond(e, ParentPrice(html, wp), Resolver(wp, outcomes));
      return ResultReply(result);
  }
}
